=== FILE: README.md ===
# A verified model of the barangay management system's client rules

The barangay (municipal) management system is a web application. Residents
register with an email-verified account and prove residency with an uploaded
document. Administrators keep blotter (complaint) records, publish
announcements, and grant staff access to modules. This project models, in
Dafny, the decision logic of five parts of it:

- **Residency verification** (`residency.dfy`, module `Residency`): the
  resident's verification screen.
  - Its four status sources and the `??` precedence between them.
  - The document it shows.
  - The three-step tracker: upload, under review, approved.
  - The guarded and unguarded ways it adopts fresh status readings.
  - The one-shot "Verification Approved!" detector and its resets.
  - Denial handling, the status poll, and the choice of panel.
- **Registration** (`register.dfy`, module `Registration`):
  - the password-strength report;
  - the mobile-number check;
  - the order in which the submit handler refuses a form;
  - the full name it sends;
  - the five-minute code countdown with its `m:ss` display, the Verify and
    Resend buttons, and the caption.
- **Blotter records** (`blotter.dfy`, module `Blotter`):
  - the table's search and incident-date filter;
  - the year and month menus;
  - the status counters;
  - the monthly complaints chart, the complaint-type pie and the "most
    common" figure;
  - the badge colours.
- **Announcements** (`announcements.dfy`, module `Announcements`):
  - the list search and the status counters;
  - the period, year and month selectors;
  - the creation chart (daily or monthly), the status pie and the "most
    active month";
  - opening an announcement for editing, and the multipart form the submit
    handler posts.
- **Module permissions** (`permissions.dfy`, module `Permissions`): the
  `getPermissions` endpoint.
  - An administrator gets fourteen modules.
  - A staff member gets the permissions stored on the staff record. A plain
    list of names is turned into a name-to-true map, as PHP's
    `array_fill_keys` does.
  - Anyone else gets the dashboard only.
  - A failure gives a 500 reply, with the exception text only in debug mode.

Shared modules:

- `Wrappers`: `Option` and JavaScript truthiness of strings.
- `Seqs`: `Array.prototype.filter` and sums.
- `Text`:
  - ASCII case mapping and `includes`;
  - `trim` with JavaScript's white-space set;
  - decimal text and `padStart`.
- `Calendar`:
  - Gregorian month lengths;
  - `YYYY-MM` month keys and their parsing;
  - the last-twelve-months window.
- `Tally`:
  - the `counts[k] = (counts[k] || 0) + 1` idiom over an object kept in
    insertion order;
  - the strict-maximum scan over `Object.entries`;
  - pie slices.
- `Monthly`: counting dated records per calendar month.

JavaScript's `null` and `undefined` are `None`. The empty string is kept
apart from them, because `??` keeps it and `||` skips it. A date field is
`Missing`, `Invalid` (where `isNaN(date.getTime())`) or a valid instant. The
current time, the signed-in user, the `app.debug` setting and all server
replies are parameters.

Only one of the screen's status syncs refuses to overwrite "approved": the
data-sync effect, through its `shouldUpdateStatus` check
(`ResidencyVerification.jsx:478-483`). The other paths overwrite it:

- the unconditional sync when form or profile data arrives (`:375-378`);
- the effect that prefers an approved source (`:593-615`);
- the form safety net (`:617-625`);
- the universal poll (`:904-914`).

The model keeps the guarded and unguarded syncs apart and proves where they
differ (`Residency.GuardedVersusUnguarded`, `Residency.UnguardedSyncDowngrades`,
`Residency.PrioritySyncDowngrades`). The step tracker has three steps.

## Model

| member | source | states |
|---|---|---|
| `Wrappers.OrElse` | frontend/src/pages/forms/ResidencyVerification.jsx:411 | `a ?? b` is `a` when present and `b` otherwise; a present empty string is kept |
| `Residency.Status` | frontend/src/pages/forms/ResidencyVerification.jsx:411 | The status comes from the first present source, in this order: local override, form, profile data, user profile |
| `Residency.TrackedStatus` | frontend/src/pages/forms/ResidencyVerification.jsx:652 | The approval effects look at three sources and never at the user profile. The result is absent exactly when all three are absent |
| `Residency.TrackedStatusAgrees` | frontend/src/pages/forms/ResidencyVerification.jsx:640-652 | When the profile data is the user's profile, leaving the user profile out changes nothing |
| `Residency.EffectiveImage` | frontend/src/pages/forms/ResidencyVerification.jsx:414-421 | A denied status shows no document. Otherwise the first present path is shown (uploaded, form, profile), or none if all are absent |
| `Residency.CurrentStep` | frontend/src/pages/forms/ResidencyVerification.jsx:683-719 | The step is 1 while loading or when denied. It is 3 exactly when loaded and approved in either capitalisation. It is 2 exactly when loaded, "pending", and some source has a non-empty document. Every other case is 1 |
| `Residency.StepTwoNeedsDocument` | frontend/src/pages/forms/ResidencyVerification.jsx:705-716 | Step 2 implies a document in some source and the status "pending" |
| `Residency.ShouldUpdateStatus` | frontend/src/pages/forms/ResidencyVerification.jsx:478-483 | It adopts only non-empty, different readings. It never replaces "approved" with "pending" or "denied", and it accepts every other non-empty change |
| `Residency.GuardedSync` | frontend/src/pages/forms/ResidencyVerification.jsx:485-506 | The data-sync effect keeps the override or takes the reading, nothing else |
| `Residency.UnguardedSync` | frontend/src/pages/forms/ResidencyVerification.jsx:618-625 | The safety net and the universal poll adopt every non-empty reading and ignore the rest |
| `Residency.GuardedVersusUnguarded` | frontend/src/pages/forms/ResidencyVerification.jsx:478-483 | The guarded and unguarded syncs differ exactly when "approved" meets "pending" or "denied" |
| `Residency.ApprovedSticksUnderGuard` | frontend/src/pages/forms/ResidencyVerification.jsx:478-505 | Through any sequence of lower-case readings, the guarded sync keeps "approved" |
| `Residency.GuardIsCaseSensitive` | frontend/src/pages/forms/ResidencyVerification.jsx:481 | A capitalised "Approved" reading slips past the guard, and a later "pending" then replaces it |
| `Residency.UnguardedSyncDowngrades` | frontend/src/pages/forms/ResidencyVerification.jsx:622-624 | One unguarded "pending" reading downgrades "approved" |
| `Residency.PrioritySync` | frontend/src/pages/forms/ResidencyVerification.jsx:594-615 | An approved form or profile forces "approved". Otherwise a non-empty form status that differs from the override wins, then such a profile status, and otherwise the override stays |
| `Residency.PrioritySyncNeverSettles` | frontend/src/pages/forms/ResidencyVerification.jsx:594-615 | With the override and form at "pending" and the profile at "denied", every run of the effect flips the override between "pending" and "denied" and never leaves it as it was |
| `Residency.PrioritySyncCorrected` | frontend/src/pages/forms/ResidencyVerification.jsx:594-615 | Without comparing against the override: an approved source wins, else the form's non-empty status, else the profile's, else the override |
| `Residency.PrioritySyncCorrectedSettles` | frontend/src/pages/forms/ResidencyVerification.jsx:594-615 | The corrected effect reaches a fixed point after one run. Wherever the code's effect settles, the correction leaves the same status |
| `Residency.PrioritySyncDowngrades` | frontend/src/pages/forms/ResidencyVerification.jsx:610-611 | The approved-first effect replaces an approved override with a pending form status |
| `Residency.Observe` | frontend/src/pages/forms/ResidencyVerification.jsx:651-678 | The notice opens exactly on a change from a non-empty, non-approved status to "approved", if it was not already shown. The previous status is always recorded |
| `Residency.ResetGate` | frontend/src/pages/forms/ResidencyVerification.jsx:358-373 | A denial or a new document clears the "shown" flag and keeps the remembered status |
| `Residency.GateOpensOncePerReset` | frontend/src/pages/forms/ResidencyVerification.jsx:651-678 | Over any run of events, the notice opens at most once per reset, plus once at the start |
| `Residency.ApprovalOpensOnce` | frontend/src/pages/forms/ResidencyVerification.jsx:654-670 | The run none → pending → approved → approved opens the notice exactly once |
| `Residency.ApprovedOnMountNeverOpens` | frontend/src/pages/forms/ResidencyVerification.jsx:655-658 | A screen that is approved from its first run never opens the notice |
| `Residency.AlreadyApprovedStaysClosed` | frontend/src/pages/forms/ResidencyVerification.jsx:655-677 | Once "approved" has been seen, further approved runs without a reset stay quiet |
| `Residency.DenialReason` | frontend/src/pages/forms/ResidencyVerification.jsx:345 | The form's non-empty reason is used, else the profile's |
| `Residency.HandleDenied` | frontend/src/pages/forms/ResidencyVerification.jsx:334-349 | A denial clears the upload, forces "denied", and leaves no document shown, so the step is 1. An error notice with the reason appears exactly when a reason exists |
| `Residency.HandleDeniedIsIdempotent` | frontend/src/pages/forms/ResidencyVerification.jsx:334-349 | Handling a denial twice is the same as handling it once |
| `Residency.FinalStatus` | frontend/src/pages/forms/ResidencyVerification.jsx:804 | The status endpoint's non-empty value wins over the profile's |
| `Residency.PollDecision` | frontend/src/pages/forms/ResidencyVerification.jsx:804-841 | The poll marks approved, denied or pending (either capitalisation) exactly when the reading says so and the screen's status differs. On approval it takes the polled document if there is one |
| `Residency.ApplyPoll` | frontend/src/pages/forms/ResidencyVerification.jsx:810-841 | After an approval the step is 3, loading ends, and a polled document becomes the one shown (without one the upload is kept). After a denial the step is 1, and after pending the upload is unchanged. The form, profile data and user profile are never changed |
| `Residency.PollIsIdempotent` | frontend/src/pages/forms/ResidencyVerification.jsx:804-841 | Polling again with the same reading decides nothing more |
| `Residency.PanelFor` | frontend/src/pages/forms/ResidencyVerification.jsx:1017-1206 | Each panel is shown exactly when its own test holds and every earlier test fails. The order is loading; approved (any source says lower-case "approved"); denied; upload (no document, not denied, step 1); review (a document, step 2). The review fallback takes what is left |
| `Residency.CapitalApprovedShowsReviewPanel` | frontend/src/pages/forms/ResidencyVerification.jsx:1037-1040 | With the status "Approved", the tracker is on step 3 while the review fallback panel is rendered |
| `Residency.PanelForCorrected` | frontend/src/pages/forms/ResidencyVerification.jsx:1035-1042 | The approved panel is shown exactly when the tracker's two spellings (or any lower-case source) say approved. The denied, upload and review panels keep the code's tests and order |
| `Residency.StepThreeMeansApprovedPanel` | frontend/src/pages/forms/ResidencyVerification.jsx:699-702 | With the correction, step 3 always has the approved panel, and the review panels only ever show steps 1–2 |
| `Residency.ApprovalNoticeOpensOnApprovedPanel` | frontend/src/pages/forms/ResidencyVerification.jsx:1192-1201 | Whenever the detector opens the notice on a loaded screen, the approved panel is rendered. That panel has no notice component |
| `Residency.DetectApproval` | frontend/src/pages/forms/ResidencyVerification.jsx:651-670 | When the detector opens, the notice slot holds the open "Verification Approved!" notice; otherwise the slot is untouched. The gate is updated as `Observe` says |
| `Residency.AutoClose` | frontend/src/pages/forms/ResidencyVerification.jsx:296-302 | An open approval notice is closed exactly while the tracked status is "approved". Any other notice, or any other status, leaves the slot unchanged |
| `Residency.ApprovalNoticeClosesAtOnce` | frontend/src/pages/forms/ResidencyVerification.jsx:296-302 | Whatever the slot held before, a notice the detector opens is shut by the auto-close effect's next run, because the detector opens only on an approved status |
| `Residency.AutoCloseKeepsDenialNotice` | frontend/src/pages/forms/ResidencyVerification.jsx:296-302 | The auto-close effect leaves an open denial notice open |
| `Registration.HasCharWhere` | frontend/src/pages/Register.jsx:70-73 | A one-class regular-expression test holds exactly when some character is in the class |
| `Registration.ValidatePassword` | frontend/src/pages/Register.jsx:68-83 | Each flag holds exactly when its character class occurs, or for length when there are at least 8 UTF-16 code units. The password is valid exactly when all five flags hold |
| `Registration.AstralCharactersCountTwice` | frontend/src/pages/Register.jsx:69 | Four characters from outside the Basic Multilingual Plane already meet the length rule, since `length` counts UTF-16 code units |
| `Registration.StrengthIsMonotone` | frontend/src/pages/Register.jsx:68-83 | A strong password stays strong when characters are appended |
| `Registration.StrongPasswordExamples` | frontend/src/pages/Register.jsx:69-76 | "Passw0rd!" passes. "Pass0!" fails on length, and "password1!" has no upper-case letter |
| `Registration.ExactlyDigitsMeans` | frontend/src/pages/Register.jsx:129 | `[0-9]{n}$` from a position means exactly `n` digits to the end |
| `Registration.ContactNumberOkMeans` | frontend/src/pages/Register.jsx:129 | The three tests amount to the pattern alone: eleven digits starting with "09" |
| `Registration.ContactHint` | frontend/src/pages/Register.jsx:560-562 | There is no hint for an empty field. Otherwise the hint is "valid" exactly when the number passes |
| `Registration.SubmitCheck` | frontend/src/pages/Register.jsx:107-151 | The form is accepted exactly when no check fails. Otherwise the refusal is a failing check with no earlier check failing |
| `Registration.UnreadableBirthDateIsAccepted` | frontend/src/pages/Register.jsx:137 | An empty or unparseable birth date never blocks submission |
| `Registration.ComposeName` | frontend/src/pages/Register.jsx:165 | The name sent is trimmed: it neither starts nor ends with white space |
| `Registration.ComposeNameOfWords` | frontend/src/pages/Register.jsx:165 | With words as parts, the name is the parts joined by single spaces. An empty middle name and the suffix "none" are skipped |
| `Registration.Clock` | frontend/src/pages/Register.jsx:64 | The display is digits, a colon, and two digits that read back as the seconds |
| `Registration.ClockRoundTrip` | frontend/src/pages/Register.jsx:62-64 | Reading a clock display back gives minutes × 60 + seconds |
| `Registration.FormatTimeRoundTrip` | frontend/src/pages/Register.jsx:61-65 | `formatTime(n)` reads back as `n` seconds, for every `n` |
| `Registration.FormatFiveMinutes` | frontend/src/pages/Register.jsx:41 | 300 seconds show as "5:00" |
| `Registration.UnderAMinute` | frontend/src/pages/Register.jsx:61-65 | below 60 seconds the display is "0:" followed by the seconds padded to two digits, for every such count |
| `Registration.FormatLastMinute` | frontend/src/pages/Register.jsx:61-65 | from 59 down to 10 seconds the display is "0:" followed by the seconds themselves (so 59 shows as "0:59") |
| `Registration.Tick` | frontend/src/pages/Register.jsx:49-59 | A running timer with time left loses one second. A timer at zero stops. A stopped timer otherwise stays put |
| `Registration.CountdownProgress` | frontend/src/pages/Register.jsx:49-59 | From `k` seconds, after `n` seconds it shows `max(0, k − n)` and runs exactly while `n ≤ k` |
| `Registration.StoppedStaysStopped` | frontend/src/pages/Register.jsx:55-57 | A stopped timer at zero stays stopped at zero |
| `Registration.OnTimerEvent` | frontend/src/pages/Register.jsx:202-311 | A new or resent code restarts five minutes. Going back parks the timer at 600 stopped. An expired-code reply stops it and keeps the time |
| `Registration.TimerStaysInRange` | frontend/src/pages/Register.jsx:41-59 | Every event keeps the countdown within 0–600, and a second never raises it |
| `Registration.CodeExpiresAfterFiveMinutes` | frontend/src/pages/Register.jsx:394-402 | 300 seconds after a code is sent, Verify is disabled and Resend is shown. At 299 seconds neither is the case |
| `Registration.TimerCaption` | frontend/src/pages/Register.jsx:365-369 | The caption is "Code expired" exactly when no time is left. The clock is red exactly in the last minute |
| `Blotter.EmptySearchMatchesAll` | frontend/src/pages/admin/BlotterRecords.jsx:179-183 | An empty search matches every record |
| `Blotter.SearchIgnoresQueryCase` | frontend/src/pages/admin/BlotterRecords.jsx:179-183 | The search ignores the case of the query |
| `Blotter.MatchesDateMeans` | frontend/src/pages/admin/BlotterRecords.jsx:184-196 | A record passes the date filter exactly in these cases: it has no incident date; nothing is selected; or its valid date agrees with each selection |
| `Blotter.FilterRecords` | frontend/src/pages/admin/BlotterRecords.jsx:176-200 | The rows are exactly the records that pass both the search and the date filter, each as often as in the input and in their original order |
| `Blotter.SortDesc` | frontend/src/pages/admin/BlotterRecords.jsx:218 | Sorting gives a strictly decreasing list of exactly the input's values |
| `Blotter.DataYears` | frontend/src/pages/admin/BlotterRecords.jsx:203-211 | It lists exactly the years of valid dates |
| `Blotter.YearRange` | frontend/src/pages/admin/BlotterRecords.jsx:215-217 | It holds exactly the years `lo..hi` |
| `Blotter.AvailableYears` | frontend/src/pages/admin/BlotterRecords.jsx:202-219 | The year menu is strictly decreasing. A year is listed exactly when some record is dated in it or it lies between 2020 and next year |
| `Blotter.AvailableYearsIsUnique` | frontend/src/pages/admin/BlotterRecords.jsx:226-243 | Any newest-first list of those years is the menu, so the table's and the analytics' menus are built the same way |
| `Blotter.AvailableMonths` | frontend/src/pages/admin/BlotterRecords.jsx:221-224 | There are no months until a year is chosen, then January to December |
| `Blotter.StatusCount` | frontend/src/pages/admin/BlotterRecords.jsx:305-307 | The count is the number of records whose status is exactly the given one |
| `Blotter.ChartData` | frontend/src/pages/admin/BlotterRecords.jsx:310-365 | Without a year, the chart has the last twelve months up to now. With a year and a month, it has that month; with a year alone, its twelve months. Each bar counts the records created in its month |
| `Blotter.AnalyticsRecords` | frontend/src/pages/admin/BlotterRecords.jsx:250-259 | It keeps exactly the records with a valid creation date that agrees with each selection set, each as often as in the input and in their original order |
| `Blotter.AnalyticsAgreesWithChart` | frontend/src/pages/admin/BlotterRecords.jsx:313-321 | Once a year is chosen, the analytics filter and the chart's filter agree |
| `Blotter.TypeOf` | frontend/src/pages/admin/BlotterRecords.jsx:371 | A missing or empty complaint type counts as "Other" |
| `Blotter.PieData` | frontend/src/pages/admin/BlotterRecords.jsx:368-381 | The pie has one slice per distinct type, in first-seen order, sized by its number of records. The slices add up to the record count and the colours cycle through six |
| `Blotter.MostCommonLabel` | frontend/src/pages/admin/BlotterRecords.jsx:515 | The label is "N/A" without records. Otherwise it is the most common type: the type with the most records, the earliest such type on a tie |
| `Blotter.MostCommonTypeIsMode` | frontend/src/pages/admin/BlotterRecords.jsx:384-400 | The most common type has the largest count, is the earliest on a tie, and carries its full count. Without records the result is ("", 0) |
| `Blotter.ComplaintTypeColor` | frontend/src/pages/admin/BlotterRecords.jsx:53-70 | The grey badge goes exactly to types other than the five named ones |
| `Blotter.ComplaintTypeColorsDiffer` | frontend/src/pages/admin/BlotterRecords.jsx:55-64 | The five named types have five different colours |
| `Blotter.StatusColor` | frontend/src/pages/admin/BlotterRecords.jsx:91-106 | The grey badge goes exactly to statuses other than Scheduled, Pending, Cancelled and Completed |
| `Announcements.FilterAnnouncements` | frontend/src/pages/admin/CommunicationAnnouncement.jsx:221-224 | The list is exactly the announcements whose title or content contains the query, ignoring case, each as often as in the input and in their original order |
| `Announcements.EmptySearchListsAll` | frontend/src/pages/admin/CommunicationAnnouncement.jsx:221-224 | An empty search lists everything, in order |
| `Announcements.StatusCount` | frontend/src/pages/admin/CommunicationAnnouncement.jsx:226-228 | The count is the number of announcements whose status is exactly the given one |
| `Announcements.StatusColor` | frontend/src/pages/admin/CommunicationAnnouncement.jsx:46-57 | The grey badge goes exactly to statuses other than posted and scheduled |
| `Announcements.ChartYear` | frontend/src/pages/admin/CommunicationAnnouncement.jsx:265-267 | A falsy year defaults to the current year; a truthy one is kept |
| `Announcements.DailyCounts` | frontend/src/pages/admin/CommunicationAnnouncement.jsx:243-263 | There is one bar per day of the month; bar `i` counts day `i + 1` inside the window |
| `Announcements.DayCountBeforeLastDay` | frontend/src/pages/admin/CommunicationAnnouncement.jsx:249 | Before the month's last day, the code's window and the whole-day window count the same |
| `Announcements.IntendedDailyCountsAddUp` | frontend/src/pages/admin/CommunicationAnnouncement.jsx:243-262 | With whole days, the daily bars add up to the month's count |
| `Announcements.LastDayAfterMidnightIsDropped` | frontend/src/pages/admin/CommunicationAnnouncement.jsx:244-249 | An announcement created at 01:00 on 31 January 2024 counts in January but appears in no daily bar |
| `Announcements.YearBars` | frontend/src/pages/admin/CommunicationAnnouncement.jsx:292-311 | The year has twelve bars. Each counts that month's dates when the selection equals the year under `===`, and is 0 otherwise |
| `Announcements.ChartData` | frontend/src/pages/admin/CommunicationAnnouncement.jsx:231-335 | Each period and selection gets its chart, as follows. "This month" gives the chosen or current month's daily bars. "This year" gives a chosen month's days, or twelve monthly bars. "All time" gives the last twelve months, each counting its creations |
| `Announcements.AnalyticsSet` | frontend/src/pages/admin/CommunicationAnnouncement.jsx:338-362 | It keeps exactly the announcements that the period, year and month filter keeps, each as often as in the input and in their original order |
| `Announcements.TextYearMatchesNothing` | frontend/src/pages/admin/CommunicationAnnouncement.jsx:345-358 | A year stored as text keeps nothing for "this year" or "this month with a month", and flattens the year chart |
| `Announcements.IntendedYearFilter` | frontend/src/pages/admin/CommunicationAnnouncement.jsx:347-360 | Compared by value, a chosen year keeps exactly its dates (and month), and the year chart counts them |
| `Announcements.ReadingsAgreeOnNumbers` | frontend/src/pages/admin/CommunicationAnnouncement.jsx:341-361 | For a numeric or empty year, the code's comparison and the intended one agree |
| `Announcements.InitialSelection` | frontend/src/pages/admin/CommunicationAnnouncement.jsx:94-96 | The page opens on "all time", with the current year as a number and no month |
| `Announcements.YearMenu` | frontend/src/pages/admin/CommunicationAnnouncement.jsx:511-514 | The year menu offers 16 increasing years, from ten before the current year to five after |
| `Announcements.ApplyPick` | frontend/src/pages/admin/CommunicationAnnouncement.jsx:489-520 | Choosing a period clears the year, and clears the month unless the period is "this month". Choosing a year stores the option's text (`YearText`), or the empty string for "Select Year", and clears the month |
| `Announcements.PicksStayReachable` | frontend/src/pages/admin/CommunicationAnnouncement.jsx:489-520 | After any choices, the month is within 0–12, and a numeric year survives only under "all time" |
| `Announcements.ChosenPeriodShowsNothing` | frontend/src/pages/admin/CommunicationAnnouncement.jsx:491-508 | Whatever the admin chooses, the pie and the most active month are drawn from no announcement under "this year", or under "this month" with a month |
| `Announcements.StatusOf` | frontend/src/pages/admin/CommunicationAnnouncement.jsx:366 | A missing or empty status counts as "draft" |
| `Announcements.PieData` | frontend/src/pages/admin/CommunicationAnnouncement.jsx:338-376 | The pie has one slice per distinct status, in first-seen order and capitalised, sized by its count. The slices add up to the selection's size and the colours cycle through three |
| `Announcements.MostActiveMonthIsBusiest` | frontend/src/pages/admin/CommunicationAnnouncement.jsx:379-432 | The reported month has the most selected announcements and carries its count. There is none exactly when no selected announcement has a date |
| `Announcements.MostActiveMonthIsFirstBusiest` | frontend/src/pages/admin/CommunicationAnnouncement.jsx:413-431 | On a tie the month key inserted first wins, since the scan needs a strictly larger count. The figure is "Invalid Date" exactly when the key of unparseable dates is that first busiest key |
| `Announcements.IsoYear` | frontend/src/pages/admin/CommunicationAnnouncement.jsx:213 | Up to 9999, the ISO year is four digits that read back as the year |
| `Announcements.IsoMinuteRoundTrip` | frontend/src/pages/admin/CommunicationAnnouncement.jsx:213 | The edit form's `toISOString().slice(0, 16)` parses back as the instant cut to the minute |
| `Announcements.EditForm` | frontend/src/pages/admin/CommunicationAnnouncement.jsx:206-219 | Editing copies the title and content and drops the image. It schedules exactly when the status is "scheduled". The time is the ISO minute text, empty without a date. An unparseable date does not open |
| `Announcements.ScheduledTime` | frontend/src/pages/admin/CommunicationAnnouncement.jsx:158-165 | A time is sent only when scheduling, and only a time that parses |
| `Announcements.ScheduledIso` | frontend/src/pages/admin/CommunicationAnnouncement.jsx:160-161 | The value sent is `toISOString()` of the scheduled time, exactly when there is one |
| `Announcements.SubmitFields` | frontend/src/pages/admin/CommunicationAnnouncement.jsx:148-168 | The fields start with title and content. The image is included exactly when a file was chosen, the time exactly when given, and the PUT override exactly when editing. No other field is sent, and none twice |
| `Announcements.Submit` | frontend/src/pages/admin/CommunicationAnnouncement.jsx:138-172 | Without a user the form is refused with its message. Otherwise it is posted to the list path, or to the item path when editing |
| `Announcements.SubmitPostsForm` | frontend/src/pages/admin/CommunicationAnnouncement.jsx:148-171 | A logged-in submission posts a time exactly when scheduling with a readable time, an image exactly when chosen, and a PUT exactly when editing |
| `Announcements.EditedScheduleTime` | frontend/src/pages/admin/CommunicationAnnouncement.jsx:206-215 | The form for a scheduled announcement carries its publication time cut to the minute |
| `Announcements.EditThenSubmit` | frontend/src/pages/admin/CommunicationAnnouncement.jsx:138-219 | Editing a scheduled announcement and submitting it unchanged posts its title, content and minute-cut time as a PUT to its own path |
| `Announcements.EditUnscheduledSendsNoTime` | frontend/src/pages/admin/CommunicationAnnouncement.jsx:211 | Resubmitting an unscheduled announcement sends no publication time |
| `Permissions.KeyOf` | backend/app/Http/Controllers/UserController.php:77 | Non-integer text stays a string key; an integer stays an integer key |
| `Permissions.KeyOfStringForm` | backend/app/Http/Controllers/UserController.php:77 | true keys as "1", and false and null key as "". An integer up to `PHP_INT_MAX` keys as its decimal text |
| `Permissions.NameKeyIsString` | backend/app/Http/Controllers/UserController.php:77 | A module name that starts with neither a digit nor a minus sign stays a string key |
| `Permissions.NumberTextIsIntKey` | backend/app/Http/Controllers/UserController.php:77 | The decimal text of an integer becomes that integer key |
| `Permissions.FillKeys` | backend/app/Http/Controllers/UserController.php:77 | The keys are distinct and every value is true. A key is present exactly when some listed value maps to it |
| `Permissions.FillKeysGrantsListed` | backend/app/Http/Controllers/UserController.php:77 | A lookup gives true exactly for listed keys and nothing otherwise |
| `Permissions.FillKeysCollapsesRepeats` | backend/app/Http/Controllers/UserController.php:77 | A name listed twice yields one entry |
| `Permissions.Normalise` | backend/app/Http/Controllers/UserController.php:73-78 | Null permissions give the dashboard only. A list is filled into distinct keys; any other array or scalar is sent as is |
| `Permissions.GetPermissions` | backend/app/Http/Controllers/UserController.php:14-102 | An administrator gets the fourteen modules with the admin message. A user without a staff record gets the dashboard. A staff member gets the normalised permissions. A failed lookup gives 500, with the exception text only in debug mode |
| `Permissions.AdminGrantsEveryModule` | backend/app/Http/Controllers/UserController.php:26-49 | The administrator gets 14 distinct keys: true for each named module and nothing else |
| `Permissions.DashboardByDefault` | backend/app/Http/Controllers/UserController.php:53-73 | With no staff record, or null permissions, exactly one key is granted: dashboard |
| `Permissions.ListedModulesAreGranted` | backend/app/Http/Controllers/UserController.php:72-90 | A staff list of names grants exactly the named modules |
| `Permissions.ErrorDetailNeedsDebug` | backend/app/Http/Controllers/UserController.php:91-100 | Outside debug mode the error is "Internal server error". In debug mode it is the exception text |
| `Text.Lower` | frontend/src/pages/admin/BlotterRecords.jsx:180 | `toLowerCase` maps each character, and length is kept |
| `Text.LowerIsIdempotent` | frontend/src/pages/admin/BlotterRecords.jsx:180 | Lower-casing twice is lower-casing once |
| `Text.IncludesIffOccurs` | frontend/src/pages/admin/BlotterRecords.jsx:180 | `includes` holds exactly when the query occurs at some position |
| `Text.IncludesEmpty` | frontend/src/pages/admin/CommunicationAnnouncement.jsx:222 | Every string includes the empty string |
| `Text.Utf16Length` | frontend/src/pages/Register.jsx:69 | `length` counts UTF-16 code units: between one and two per character, exactly one each when every character is in the Basic Multilingual Plane |
| `Text.Utf16LengthAppend` | frontend/src/pages/Register.jsx:69 | The code units of a concatenation add up, so appending never shortens `length` |
| `Text.Trim` | frontend/src/pages/Register.jsx:165 | `trim` removes exactly the leading and trailing white space |
| `Text.TrimIsIdempotent` | frontend/src/pages/Register.jsx:165 | Trimming twice is trimming once |
| `Text.TrimOfTrimmed` | frontend/src/pages/Register.jsx:165 | A string without edge white space trims to itself |
| `Text.ParseNatToString` | frontend/src/pages/admin/CommunicationAnnouncement.jsx:424-425 | `parseInt` of a number's text is the number |
| `Text.NatToStringInjective` | frontend/src/pages/admin/BlotterRecords.jsx:328 | Different numbers have different texts |
| `Text.PadStart` | frontend/src/pages/Register.jsx:64 | `padStart` keeps the text at the end and fills the front to the width |
| `Text.ParseNatPadStart` | frontend/src/pages/admin/BlotterRecords.jsx:328 | Zero-padding does not change the value |
| `Text.PadTwo` | frontend/src/pages/Register.jsx:64 | Two digits that read back as the number |
| `Text.Capitalize` | frontend/src/pages/admin/CommunicationAnnouncement.jsx:372 | The first character is upper-cased and the rest kept |
| `Calendar.DaysInMonth` | frontend/src/pages/admin/CommunicationAnnouncement.jsx:244 | A month has 28 to 31 days. February has 29 exactly in leap years |
| `Calendar.YearLength` | frontend/src/pages/admin/CommunicationAnnouncement.jsx:256 | The months add up to 365 days, or 366 in leap years |
| `Calendar.MonthOfSerial` | frontend/src/pages/admin/BlotterRecords.jsx:338 | `new Date(y, m − i, 1)` normalises to the month with that serial number |
| `Calendar.LastTwelveMonths` | frontend/src/pages/admin/BlotterRecords.jsx:337-339 | There are twelve consecutive months, ending with the current one |
| `Calendar.MonthsOfYear` | frontend/src/pages/admin/BlotterRecords.jsx:355-357 | January to December of the year |
| `Calendar.MonthKey` | frontend/src/pages/admin/BlotterRecords.jsx:328 | The key starts with a year digit and ends with a dash and two month characters; `Calendar.MonthKeyInjective` and `Calendar.ParseMonthKeyRoundTrip` say that it determines the month |
| `Calendar.MonthKeyInjective` | frontend/src/pages/admin/BlotterRecords.jsx:328 | Different months have different keys |
| `Calendar.StampKey` | frontend/src/pages/admin/BlotterRecords.jsx:323-329 | Only a missing date contributes no key |
| `Calendar.StampKeyMatches` | frontend/src/pages/admin/BlotterRecords.jsx:325-328 | A date carries a month's key exactly when it falls in that month, so an unparseable date matches none |
| `Calendar.ParseMonthKeyRoundTrip` | frontend/src/pages/admin/CommunicationAnnouncement.jsx:424-425 | Splitting a month key at the dash gives the year and month back |
| `Calendar.ParseNaNMonthKey` | frontend/src/pages/admin/CommunicationAnnouncement.jsx:424-425 | The key of an unparseable date does not read as a month |
| `Tally.CountAll` | frontend/src/pages/admin/BlotterRecords.jsx:369-373 | The counter has exactly the keys seen |
| `Tally.CountAllCounts` | frontend/src/pages/admin/BlotterRecords.jsx:369-373 | The counter's keys are distinct and positive. Each key counts its occurrences, and the counts add up to the input length |
| `Tally.CountAllOrder` | frontend/src/pages/admin/BlotterRecords.jsx:376 | `Object.entries` lists keys in first-seen order |
| `Tally.BumpCountOf` | frontend/src/pages/admin/BlotterRecords.jsx:372 | `(c[k] \|\| 0) + 1` raises `k`'s count by one and leaves the others alone |
| `Tally.Leader` | frontend/src/pages/admin/BlotterRecords.jsx:391-398 | The strict-`>` scan ends on the first entry with the largest count, or on the start value when none exceeds it |
| `Tally.MostFrequentIsFirstMaximum` | frontend/src/pages/admin/BlotterRecords.jsx:384-400 | The winner has the largest occurrence count, is the earliest on a tie, and the default wins on empty input |
| `Tally.FirstMaximumIsUnique` | frontend/src/pages/admin/BlotterRecords.jsx:391-398 | Only one element can be the first of greatest multiplicity, so the scan's answer depends on the input alone |
| `Tally.PieOfCategories` | frontend/src/pages/admin/BlotterRecords.jsx:376-380 | There is one slice per counter entry. Values add up to the input length and colours cycle |
| `Monthly.KeyMultiplicity` | frontend/src/pages/admin/BlotterRecords.jsx:323-329 | A month's key occurs once per date in that month |
| `Monthly.MonthlyCountIsMonthCount` | frontend/src/pages/admin/BlotterRecords.jsx:329-342 | `counts[key] \|\| 0` is the number of dates in that month |
| `Monthly.MonthBuckets` | frontend/src/pages/admin/BlotterRecords.jsx:337-343 | Each bucket counts the dates in its month |
| `Monthly.MonthKeySource` | frontend/src/pages/admin/CommunicationAnnouncement.jsx:405-411 | Every key comes from a dated record, or is the key of unparseable dates |
| `Monthly.CountInFilter` | frontend/src/pages/admin/BlotterRecords.jsx:313-322 | A filter that keeps a month's dates keeps that month's count |
| `Monthly.CountInFilterOut` | frontend/src/pages/admin/CommunicationAnnouncement.jsx:294-297 | A filter that rejects a month's dates leaves that month empty |
| `Seqs.FilterMembership` | frontend/src/pages/admin/BlotterRecords.jsx:178 | `filter` keeps exactly the elements that satisfy the predicate |
| `Seqs.FilterIsSubsequence` | frontend/src/pages/admin/BlotterRecords.jsx:178 | `filter` keeps the original order |
| `Seqs.FilterMultiplicity` | frontend/src/pages/admin/BlotterRecords.jsx:178 | `filter` keeps every occurrence of a passing element and none of a failing one |

## Left out

- Rendering, styling, icons and image loading (`getImageSrc`, `imageLoadError`) are not modelled. Nor are the modal's close and profile buttons, or logging.
- React's effects, intervals and timeouts are not modelled as a scheduler. Each effect is a function applied when it runs, and a run of effects is a sequence of events. The order React runs them in is not modelled.
- HTTP requests and responses, `localStorage`, the upload component and navigation are not modelled. Server replies are parameters (`PollDecision`'s readings, `StaffLookup`); the requests themselves are left out.
- The parent's `onImageUpload` notifications (`notifyParentOfApproval`, `notifyParentOfPollingUpdate`) are left out: they call code outside the screen.
- The migration file is not part of this model.
- JavaScript date parsing and time zones: dates are already parsed into a day and a second. Local time is taken to be UTC, so `toISOString` day keys agree with `getDate`.
- Calendar facts that are not modelled:
  - `new Date(y, …)` maps the years 0–99 to the 1900s;
  - dates outside JavaScript's range;
  - years before 1.
- `toLocaleDateString` labels of the chart bars and the most active month are left out. Bars carry the year and month instead.
- `Object.entries` lists integer-like keys first in JavaScript. The keys here ("YYYY-MM", type and status names) are kept in insertion order, which is right for them but not for a status such as "1".
- Letter case is ASCII only: `toLowerCase` and `toUpperCase` of other letters is not modelled.
- The Registration form reset, the `publishMode` default of the announcement form and the success messages are not modelled.
- PHP floats and nested arrays inside `module_permissions` are not modelled as `array_fill_keys` keys.
- The signed-in user of `getPermissions` is taken to exist. The administrator path has no failure.
- `Residency.GuardedSync`: the contract says only that the result is the current value or the reading. `Residency.GuardedVersusUnguarded` pins it down against the unguarded sync.
- `Registration.FormatTime` has no contract of its own. `Registration.FormatTimeRoundTrip`, `Registration.FormatFiveMinutes`, `Registration.UnderAMinute` and `Registration.FormatLastMinute` state what it shows.
- `Announcements.IsoYear`: for years above 9999 the contract promises only a length of at least 4. The six-digit form is not read back.
- `Announcements.IsoMinuteRoundTrip`: stated up to the year 9999, as are `Announcements.EditedScheduleTime` and `Announcements.EditThenSubmit`.
- `Announcements.ParseLocalMinute` accepts only the exact `YYYY-MM-DDTHH:MM` text the date-time input produces. Other texts that JavaScript's `Date` would read count as unparseable.
- `Announcements.YearMenu` requires a current year of at least 10, because years are natural numbers.
- `Blotter.ChartData` and `Announcements.ChartData` require the current year to be at least 1, because years are natural numbers.
- `Permissions.Normalise`: for a list the contract promises distinct keys only. `Permissions.ListedModulesAreGranted` states which keys are granted.
- Blotter resident names: a linked resident whose first or last name is null is not modelled. Both are strings.

## Findings

| source | as written | input that shows it | evidently intended | confidence | as-written member | corrected member |
|---|---|---|---|---|---|---|
| frontend/src/pages/admin/CommunicationAnnouncement.jsx:345-358 | The analytics compare `date.getFullYear() === year`. The year menu stores the option's text (line 506), and text is never `===` a number | Choose "This Year" and then "2024". An announcement created on 5 March 2024 is left out of the pie and the most active month, and the year chart shows zeros | Compare the selected year's numeric value | high; not executed | `Announcements.ChosenPeriodShowsNothing` | `Announcements.IntendedYearFilter` |
| frontend/src/pages/admin/CommunicationAnnouncement.jsx:244-249 | The daily charts keep `date <= monthEnd`, where `monthEnd = new Date(y, m, 0)` is midnight at the start of the month's last day | An announcement created at 01:00 on 31 January 2024 appears in no bar of January's daily chart | Count the whole last day | high; not executed | `Announcements.LastDayAfterMidnightIsDropped` | `Announcements.IntendedDailyCountsAddUp` |
| frontend/src/pages/forms/ResidencyVerification.jsx:1037-1040 | The approved panel checks only lower-case "approved", but the step tracker (line 700) also accepts "Approved" | Status "Approved" with document "doc.jpg": the tracker shows step 3 above the "under review" fallback panel | Treat both spellings as approved in the panel choice | medium; not executed | `Residency.CapitalApprovedShowsReviewPanel` | `Residency.StepThreeMeansApprovedPanel` |
| frontend/src/pages/forms/ResidencyVerification.jsx:593-615 | The approved-first effect compares the form's and the profile's status with `overrideStatus`, writes `overrideStatus`, and lists it among its dependencies | Override "pending", form "pending", profile "denied": the effect writes "denied", runs again and writes "pending", and so on without end | Adopt the form's status, else the profile's, without comparing against the override it writes, so that one run settles | medium; not executed | `Residency.PrioritySyncNeverSettles` | `Residency.PrioritySyncCorrectedSettles` |

=== FILE: announcements.dfy ===
/** The announcements page of the admin area: the search over the list, the
    status counters, the analytics (creation chart, status pie, most active
    month) under the period / year / month selectors, opening an announcement
    for editing, and the form submission. */
module Announcements {
  import opened Wrappers
  import opened Seqs
  import opened Text
  import opened Calendar
  import opened Tally
  import opened Monthly

  datatype Announcement = Announcement(
    id: nat,
    title: string,
    content: string,
    status: Option<string>,
    createdAt: Stamp,
    publishedAt: Stamp)

  /** The search box: the lower-cased query occurs in the title or the content. */
  predicate MatchesSearch(a: Announcement, search: string) {
    Includes(Lower(a.title), Lower(search)) || Includes(Lower(a.content), Lower(search))
  }

  /** The listed announcements: those matching the search, in order. */
  function FilterAnnouncements(xs: seq<Announcement>, search: string): (r: seq<Announcement>)
    ensures forall a :: a in r <==> a in xs && MatchesSearch(a, search)
    ensures forall a :: multiset(r)[a] == if MatchesSearch(a, search) then multiset(xs)[a] else 0
    ensures exists idx :: Embeds(r, xs, idx)
  {
    var p := (a: Announcement) => MatchesSearch(a, search);
    var r := Filter(xs, p);
    FilterMultiplicity(xs, p);
    assert forall a :: a in r <==> a in xs && p(a) by {
      forall a ensures a in r <==> a in xs && p(a) {
        FilterMembership(xs, p, a);
      }
    }
    assert exists idx :: Embeds(r, xs, idx) by {
      var idx := FilterIsSubsequence(xs, p);
    }
    r
  }

  /** With an empty search box every announcement is listed, in order. */
  lemma EmptySearchListsAll(xs: seq<Announcement>)
    ensures FilterAnnouncements(xs, "") == xs
  {
    var p := (a: Announcement) => MatchesSearch(a, "");
    forall i | 0 <= i < |xs| ensures p(xs[i]) {
      IncludesEmpty(Lower(xs[i].title));
    }
    FilterAll(xs, p);
  }

  function Statuses(xs: seq<Announcement>): (r: seq<Option<string>>)
    ensures |r| == |xs| && forall i :: 0 <= i < |xs| ==> r[i] == xs[i].status
  {
    seq(|xs|, i requires 0 <= i < |xs| => xs[i].status)
  }

  /** A status counter: how many announcements carry exactly that status. */
  function StatusCount(xs: seq<Announcement>, status: string): (n: nat)
    ensures n == multiset(Statuses(xs))[Some(status)]
    decreases |xs|
  {
    if |xs| == 0 then 0
    else
      assert Statuses(xs) == [xs[0].status] + Statuses(xs[1..]);
      (if xs[0].status == Some(status) then 1 else 0) + StatusCount(xs[1..], status)
  }

  /** The badge colour of a status. */
  function StatusColor(s: string): (c: string)
    ensures c == "bg-gray-100 text-gray-800" <==> s != "posted" && s != "scheduled"
  {
    match s
    case "posted" => "bg-green-100 text-green-800"
    case "draft" => "bg-gray-100 text-gray-800"
    case "scheduled" => "bg-yellow-100 text-yellow-800"
    case _ => "bg-gray-100 text-gray-800"
  }

  // ---------------------------------------------------------------------
  // The analytics selectors

  datatype Period = ThisMonth | ThisYear | AllTime

  /** The year selector's value: the page starts with the current year as a
      number; choosing a period clears it to the empty string, and choosing a
      year from the menu stores the option's text. */
  datatype YearSetting = YearUnset | YearNumber(n: nat) | YearText(n: nat)

  /** `!!year`: the empty string and the number 0 are falsy; a year's text is not. */
  predicate YearTruthy(year: YearSetting) {
    (year.YearNumber? && year.n != 0) || year.YearText?
  }

  /** How the year selection is compared with a date's year. The page uses
      `===`, under which the text of a year equals no number; `Intended`
      compares the year's numeric value, and also counts a whole last day of
      a month in the daily charts. */
  datatype Reading = AsWritten | Intended

  /** `date.getFullYear() === year`, or its intended numeric reading. */
  predicate YearEquals(year: YearSetting, y: nat, reading: Reading) {
    match year
    case YearUnset => false
    case YearNumber(n) => n == y
    case YearText(n) => reading == Intended && n == y
  }

  /** The year a chart shows: the selection, or the current one when the
      selection is falsy (`if (!year) year = currentYear`). */
  function ChartYear(year: YearSetting, today: CalendarDate): (r: YearSetting)
    ensures YearTruthy(year) ==> r == year
    ensures !YearTruthy(year) ==> r == YearNumber(today.year)
  {
    if YearTruthy(year) then year else YearNumber(today.year)
  }

  /** The numeric value of a year selection (`new Date(year, …)` converts text). */
  function YearValue(year: YearSetting): nat {
    match year
    case YearUnset => 0
    case YearNumber(n) => n
    case YearText(n) => n
  }

  // ---------------------------------------------------------------------
  // Daily counts of one month

  /** A valid date on day `d` of month `m` of year `y`. */
  predicate OnDay(s: Stamp, y: nat, m: nat, d: nat) {
    s.At? && s.moment.date.year == y && s.moment.date.month == m && s.moment.date.day == d
  }

  /** `date >= monthStart && date <= monthEnd`, where `monthEnd` is
      `new Date(y, m, 0)`: midnight at the start of the month's last day. As
      written, a date later on that day falls outside; `Intended` takes the
      whole month. */
  predicate InWindow(s: Stamp, y: nat, m: nat, reading: Reading)
    requires 1 <= m <= 12
  {
    && InMonth(s, y, m)
    && (reading == Intended || s.moment.date.day < DaysInMonth(y, m) || s.moment.second == 0)
  }

  /** The number of dates of `ss` inside the window that fall on day `d`. */
  function DayCount(ss: seq<Stamp>, y: nat, m: nat, d: nat, reading: Reading): (n: nat)
    requires 1 <= m <= 12
    ensures n <= |ss|
    decreases |ss|
  {
    if |ss| == 0 then 0
    else (if InWindow(ss[0], y, m, reading) && OnDay(ss[0], y, m, d) then 1 else 0) + DayCount(ss[1..], y, m, d, reading)
  }

  /** The bars of a daily chart: one per day of the month, the i-th for day i + 1. */
  function DailyCounts(ss: seq<Stamp>, y: nat, m: nat, reading: Reading): (r: seq<nat>)
    requires 1 <= m <= 12
    ensures |r| == DaysInMonth(y, m)
    ensures forall i :: 0 <= i < |r| ==> r[i] == DayCount(ss, y, m, i + 1, reading)
  {
    seq(DaysInMonth(y, m), i requires 0 <= i < DaysInMonth(y, m) => DayCount(ss, y, m, i + 1, reading))
  }

  /** Before the month's last day both readings count the same. */
  lemma {:induction false} DayCountBeforeLastDay(ss: seq<Stamp>, y: nat, m: nat, d: nat)
    requires 1 <= m <= 12 && d < DaysInMonth(y, m)
    ensures DayCount(ss, y, m, d, AsWritten) == DayCount(ss, y, m, d, Intended)
    decreases |ss|
  {
    if |ss| > 0 {
      DayCountBeforeLastDay(ss[1..], y, m, d);
    }
  }

  /** Under the intended reading the daily bars add up to the month's count. */
  lemma {:induction false} IntendedDailyCountsAddUp(ss: seq<Stamp>, y: nat, m: nat)
    requires 1 <= m <= 12
    ensures Sum(DailyCounts(ss, y, m, Intended)) == CountIn(ss, y, m)
    decreases |ss|
  {
    var a := DailyCounts(ss, y, m, Intended);
    if |ss| == 0 {
      assert forall i :: 0 <= i < |a| ==> a[i] == 0;
      ZeroSum(a);
    } else {
      var b := DailyCounts(ss[1..], y, m, Intended);
      IntendedDailyCountsAddUp(ss[1..], y, m);
      if InMonth(ss[0], y, m) {
        var k := ss[0].moment.date.day - 1;
        assert forall i :: 0 <= i < |a| && i != k ==> a[i] == b[i];
        SumBump(b, a, k);
      } else {
        assert a == b;
      }
    }
  }

  /** A sequence of zeros sums to zero. */
  lemma {:induction false} ZeroSum(a: seq<nat>)
    requires forall i :: 0 <= i < |a| ==> a[i] == 0
    ensures Sum(a) == 0
    decreases |a|
  {
    if |a| > 0 {
      ZeroSum(a[1..]);
    }
  }

  /** An announcement created at 01:00 on 31 January 2024 is counted in the
      month but appears in no bar of January's daily chart. */
  lemma LastDayAfterMidnightIsDropped()
    ensures var ss := [At(Moment(Date(2024, 1, 31), 3600))];
            && CountIn(ss, 2024, 1) == 1
            && DailyCounts(ss, 2024, 1, AsWritten)[30] == 0
            && DailyCounts(ss, 2024, 1, Intended)[30] == 1
  {
    var ss := [At(Moment(Date(2024, 1, 31), 3600))];
    assert DaysInMonth(2024, 1) == 31;
    assert !InWindow(ss[0], 2024, 1, AsWritten);
    assert DayCount(ss, 2024, 1, 31, AsWritten) == 0;
    assert DayCount(ss, 2024, 1, 31, Intended) == 1;
  }

  // ---------------------------------------------------------------------
  // The creation chart

  function CreatedStamps(xs: seq<Announcement>): (r: seq<Stamp>)
    ensures |r| == |xs| && forall i :: 0 <= i < |xs| ==> r[i] == xs[i].createdAt
  {
    seq(|xs|, i requires 0 <= i < |xs| => xs[i].createdAt)
  }

  /** A chart: one bar per day of a month, or one bar per month. */
  datatype Chart = DailyChart(year: nat, month: nat, counts: seq<nat>) | MonthlyChart(bars: seq<Bucket>)

  /** The year view: one bar per month of the selected year, counting the
      dates whose year equals the selection. */
  function YearBars(ss: seq<Stamp>, y: YearSetting, reading: Reading): (bars: seq<Bucket>)
    ensures |bars| == 12
    ensures forall i :: 0 <= i < 12 ==>
      && bars[i].year == YearValue(y) && bars[i].month == i + 1
      && bars[i].count == if YearEquals(y, YearValue(y), reading) then CountIn(ss, YearValue(y), i + 1) else 0
  {
    var keep := (s: Stamp) => s.At? && YearEquals(y, s.moment.date.year, reading);
    var kept := Filter(ss, keep);
    var bars := MonthBuckets(kept, MonthsOfYear(YearValue(y)));
    assert forall i :: 0 <= i < 12 ==> bars[i].count == if YearEquals(y, YearValue(y), reading) then CountIn(ss, YearValue(y), i + 1) else 0 by {
      forall i | 0 <= i < 12
        ensures bars[i].count == if YearEquals(y, YearValue(y), reading) then CountIn(ss, YearValue(y), i + 1) else 0
      {
        if YearEquals(y, YearValue(y), reading) {
          CountInFilter(ss, keep, YearValue(y), i + 1);
        } else {
          CountInFilterOut(ss, keep, YearValue(y), i + 1);
        }
      }
    }
    bars
  }

  /** The creation chart. "This month": the selected month's days, or the
      current month's when the year is falsy or no month is chosen. "This
      year": the selected month's days when a month is chosen, else the
      twelve months of the year, each counting the dates whose year equals
      the selection. "All time": the last twelve months up to today. */
  function ChartData(xs: seq<Announcement>, today: CalendarDate, period: Period, year: YearSetting, month: nat, reading: Reading): (r: Chart)
    requires today.year >= 1 && month <= 12
    ensures period == ThisMonth && (!YearTruthy(year) || month == 0) ==>
      r.DailyChart? && r.year == today.year && r.month == today.month
    ensures period == ThisMonth && YearTruthy(year) && month > 0 ==>
      r.DailyChart? && r.year == YearValue(year) && r.month == month
    ensures period == ThisYear && month > 0 ==>
      r.DailyChart? && r.year == YearValue(ChartYear(year, today)) && r.month == month
    ensures r.DailyChart? ==> 1 <= r.month <= 12 && r.counts == DailyCounts(CreatedStamps(xs), r.year, r.month, reading)
    ensures period == ThisYear && month == 0 ==>
      var y := ChartYear(year, today);
      && r.MonthlyChart? && |r.bars| == 12
      && forall i :: 0 <= i < 12 ==>
        && r.bars[i].year == YearValue(y) && r.bars[i].month == i + 1
        && r.bars[i].count == if YearEquals(y, YearValue(y), reading) then CountIn(CreatedStamps(xs), YearValue(y), i + 1) else 0
    ensures period == AllTime ==>
      && r.MonthlyChart? && |r.bars| == 12
      && forall i :: 0 <= i < 12 ==>
        && (r.bars[i].year, r.bars[i].month) == LastTwelveMonths(today)[i]
        && r.bars[i].count == CountIn(CreatedStamps(xs), r.bars[i].year, r.bars[i].month)
  {
    var ss := CreatedStamps(xs);
    match period
    case ThisMonth =>
      if !YearTruthy(year) || month == 0 then DailyChart(today.year, today.month, DailyCounts(ss, today.year, today.month, reading))
      else DailyChart(YearValue(year), month, DailyCounts(ss, YearValue(year), month, reading))
    case ThisYear =>
      var y := ChartYear(year, today);
      if month > 0 then DailyChart(YearValue(y), month, DailyCounts(ss, YearValue(y), month, reading))
      else MonthlyChart(YearBars(ss, y, reading))
    case AllTime =>
      MonthlyChart(MonthBuckets(ss, LastTwelveMonths(today)))
  }

  // ---------------------------------------------------------------------
  // The analytics filter behind the pie and the most active month

  /** "This month" or "this year" with a month chosen: a valid date in that
      month whose year equals the selection; "this year" without a month: a
      valid date whose year equals the selection; "all time": everything.
      Unlike the chart, the selection is not defaulted to the current year. */
  predicate AnalyticsKeeps(s: Stamp, period: Period, year: YearSetting, month: nat, reading: Reading) {
    if period != AllTime && month > 0 then
      s.At? && s.moment.date.month == month && YearEquals(year, s.moment.date.year, reading)
    else if period == ThisYear then
      s.At? && YearEquals(year, s.moment.date.year, reading)
    else
      true
  }

  /** The announcements the pie and the most active month are computed from. */
  function AnalyticsSet(xs: seq<Announcement>, period: Period, year: YearSetting, month: nat, reading: Reading): (r: seq<Announcement>)
    ensures forall a :: a in r <==> a in xs && AnalyticsKeeps(a.createdAt, period, year, month, reading)
    ensures forall a :: multiset(r)[a] == if AnalyticsKeeps(a.createdAt, period, year, month, reading) then multiset(xs)[a] else 0
    ensures exists idx :: Embeds(r, xs, idx)
  {
    var p := (a: Announcement) => AnalyticsKeeps(a.createdAt, period, year, month, reading);
    var r := Filter(xs, p);
    FilterMultiplicity(xs, p);
    assert forall a :: a in r <==> a in xs && p(a) by {
      forall a ensures a in r <==> a in xs && p(a) {
        FilterMembership(xs, p, a);
      }
    }
    assert exists idx :: Embeds(r, xs, idx) by {
      var idx := FilterIsSubsequence(xs, p);
    }
    r
  }

  /** A year chosen from the menu is text, which `===` never equals a year:
      as written, once a year is chosen, "this year" and "this month with a
      month" keep nothing, and the "this year" chart without a month is flat. */
  lemma TextYearMatchesNothing(xs: seq<Announcement>, today: CalendarDate, s: Stamp, period: Period, n: nat, month: nat)
    requires today.year >= 1 && month <= 12
    requires period == ThisYear || (period == ThisMonth && month > 0)
    ensures !AnalyticsKeeps(s, period, YearText(n), month, AsWritten)
    ensures AnalyticsSet(xs, period, YearText(n), month, AsWritten) == []
    ensures var r := ChartData(xs, today, ThisYear, YearText(n), 0, AsWritten);
            forall i :: 0 <= i < |r.bars| ==> r.bars[i].count == 0
  {
    TextYearEmptiesSet(xs, period, n, month);
    TextYearEmptiesSet(xs, ThisYear, n, 0);
  }

  lemma TextYearEmptiesSet(xs: seq<Announcement>, period: Period, n: nat, month: nat)
    requires period == ThisYear || (period == ThisMonth && month > 0)
    ensures AnalyticsSet(xs, period, YearText(n), month, AsWritten) == []
  {
    var p := (a: Announcement) => AnalyticsKeeps(a.createdAt, period, YearText(n), month, AsWritten);
    FilterNone(xs, p);
  }

  /** Read as intended, choosing a year keeps exactly the dates of that year
      (and month, when one is chosen), and the year chart counts them. */
  lemma IntendedYearFilter(xs: seq<Announcement>, today: CalendarDate, s: Stamp, n: nat, month: nat)
    requires today.year >= 1 && month <= 12
    ensures AnalyticsKeeps(s, ThisYear, YearText(n), month, Intended) <==> if month > 0 then InMonth(s, n, month) else InYear(s, n)
    ensures n != 0 ==>
      var r := ChartData(xs, today, ThisYear, YearText(n), 0, Intended);
      forall i :: 0 <= i < 12 ==> r.bars[i].year == n && r.bars[i].count == CountIn(CreatedStamps(xs), n, i + 1)
  {
  }

  /** Both readings agree unless the year is the text of a year. */
  lemma ReadingsAgreeOnNumbers(s: Stamp, period: Period, year: YearSetting, month: nat)
    requires !year.YearText?
    ensures AnalyticsKeeps(s, period, year, month, AsWritten) == AnalyticsKeeps(s, period, year, month, Intended)
  {
  }

  // ---------------------------------------------------------------------
  // The analytics selectors

  /** The period, year and month the analytics are drawn for. */
  datatype Selection = Selection(period: Period, year: YearSetting, month: nat)

  /** The selectors as the page opens: all time, the current year as a
      number, and no month. */
  function InitialSelection(today: CalendarDate): (s: Selection)
    ensures s.period == AllTime && s.month == 0 && YearEquals(s.year, today.year, AsWritten)
  {
    Selection(AllTime, YearNumber(today.year), 0)
  }

  /** The years the year menu offers, as numbers: ten before the current
      year up to five after it. */
  function YearMenu(current: nat): (r: seq<nat>)
    requires current >= 10
    ensures |r| == 16
    ensures forall i, j :: 0 <= i < j < |r| ==> r[i] < r[j]
    ensures forall y: nat :: y in r <==> current - 10 <= y <= current + 5
  {
    var r := seq(16, i requires 0 <= i < 16 => current - 10 + i);
    forall y: nat | current - 10 <= y <= current + 5 ensures y in r {
      assert r[y - (current - 10)] == y;
    }
    r
  }

  /** A choice made in one of the menus: a period; a year from the menu or
      its "Select Year" entry (`None`); a month, 0 standing for all months. */
  datatype Pick = PickPeriod(period: Period) | PickYear(year: Option<nat>) | PickMonth(month: nat)

  /** The month menu offers 0 to 12. */
  predicate ValidPick(e: Pick) {
    e.PickMonth? ==> e.month <= 12
  }

  /** The selectors after one choice. Choosing a period clears the year to
      the empty string and, unless the period is "this month", the month;
      choosing a year stores the option's text and clears the month. */
  function ApplyPick(s: Selection, e: Pick): (r: Selection)
    ensures e.PickPeriod? ==> r.period == e.period && r.year == YearUnset
    ensures e.PickPeriod? ==> r.month == (if e.period == ThisMonth then s.month else 0)
    ensures e.PickYear? ==> r.period == s.period && r.month == 0
    ensures e.PickYear? ==> (YearTruthy(r.year) <==> e.year.Some?)
    ensures e.PickYear? ==> r.year == (if e.year.Some? then YearText(e.year.value) else YearUnset)
    ensures e.PickMonth? ==> r.period == s.period && r.year == s.year && r.month == e.month
  {
    match e
    case PickPeriod(p) => Selection(p, YearUnset, if p == ThisMonth then s.month else 0)
    case PickYear(y) => Selection(s.period, if y.Some? then YearText(y.value) else YearUnset, 0)
    case PickMonth(m) => s.(month := m)
  }

  /** The selectors after a sequence of choices. */
  function ApplyPicks(s: Selection, es: seq<Pick>): Selection
    decreases |es|
  {
    if |es| == 0 then s else ApplyPicks(ApplyPick(s, es[0]), es[1..])
  }

  /** What every reachable selection satisfies: a month from the menu, and a
      numeric year only while the period is "all time". */
  predicate Reachable(s: Selection) {
    s.month <= 12 && (s.period != AllTime ==> !s.year.YearNumber?)
  }

  /** Choices from the menus keep the selection reachable. */
  lemma {:induction false} PicksStayReachable(s: Selection, es: seq<Pick>)
    requires Reachable(s)
    requires forall i :: 0 <= i < |es| ==> ValidPick(es[i])
    ensures Reachable(ApplyPicks(s, es))
    decreases |es|
  {
    if |es| > 0 {
      assert Reachable(ApplyPick(s, es[0]));
      PicksStayReachable(ApplyPick(s, es[0]), es[1..]);
    }
  }

  /** As written, whatever the admin chooses, the pie and the most active
      month of "this year", and of "this month" with a month chosen, are
      drawn from no announcement at all: the year is then either empty or
      the text of a year. */
  lemma ChosenPeriodShowsNothing(xs: seq<Announcement>, today: CalendarDate, es: seq<Pick>)
    requires forall i :: 0 <= i < |es| ==> ValidPick(es[i])
    ensures var s := ApplyPicks(InitialSelection(today), es);
      s.period == ThisYear || (s.period == ThisMonth && s.month > 0) ==>
        AnalyticsSet(xs, s.period, s.year, s.month, AsWritten) == []
  {
    var s := ApplyPicks(InitialSelection(today), es);
    PicksStayReachable(InitialSelection(today), es);
    if s.period == ThisYear || (s.period == ThisMonth && s.month > 0) {
      var p := (a: Announcement) => AnalyticsKeeps(a.createdAt, s.period, s.year, s.month, AsWritten);
      assert forall i :: 0 <= i < |xs| ==> !p(xs[i]);
      FilterNone(xs, p);
    }
  }

  // ---------------------------------------------------------------------
  // The status pie

  /** An announcement's status, "draft" when missing or empty. */
  function StatusOf(a: Announcement): (s: string)
    ensures Truthy(a.status) ==> s == a.status.value
    ensures !Truthy(a.status) ==> s == "draft"
  {
    if Truthy(a.status) then a.status.value else "draft"
  }

  function PieStatuses(xs: seq<Announcement>): (r: seq<string>)
    ensures |r| == |xs| && forall i :: 0 <= i < |xs| ==> r[i] == StatusOf(xs[i])
  {
    seq(|xs|, i requires 0 <= i < |xs| => StatusOf(xs[i]))
  }

  /** The colours of the status pie. */
  const PieColors: seq<string> := ["#10b981", "#f59e0b", "#6b7280"]

  /** The status pie: one slice per distinct status of the selected
      announcements, in first-appearance order, labelled with the status
      capitalised and sized by its number of announcements. */
  function PieData(xs: seq<Announcement>, period: Period, year: YearSetting, month: nat, reading: Reading): (r: seq<Slice>)
    ensures var st := PieStatuses(AnalyticsSet(xs, period, year, month, reading));
            var c := CountAll(st);
            && |r| == |c|
            && Sum(SliceValues(r)) == |st|
            && (forall i :: 0 <= i < |r| ==> r[i].name == Capitalize(c[i].0) && r[i].value == multiset(st)[c[i].0])
            && (forall i :: 0 <= i < |r| ==> r[i].color == PieColors[i % 3])
            && (forall t :: t in st <==> exists i :: 0 <= i < |c| && c[i].0 == t)
            && FirstSeenOrder(st, c)
  {
    var st := PieStatuses(AnalyticsSet(xs, period, year, month, reading));
    PieOfCategories(st, Capitalize, PieColors);
    CountAllOrder(st);
    Slices(CountAll(st), Capitalize, PieColors)
  }

  // ---------------------------------------------------------------------
  // The most active month

  /** The most active month figure: none, a month with its count, or the
      count of the key of unparseable dates (shown as "Invalid Date"). */
  datatype ActiveMonth = NoActivity | ActiveIn(year: nat, month: nat, count: nat) | UnreadableMonth(count: nat)

  /** The month key with the strictly largest count, the first one on a tie,
      read back into a year and a month. */
  function MostActiveMonth(xs: seq<Announcement>, period: Period, year: YearSetting, month: nat, reading: Reading): (r: ActiveMonth) {
    MostActiveOf(CreatedStamps(AnalyticsSet(xs, period, year, month, reading)))
  }

  /** The most active month among the creation dates `ss`. */
  function MostActiveOf(ss: seq<Stamp>): (r: ActiveMonth) {
    var best := MostFrequent(MonthKeys(ss), "");
    if best.0 == "" then NoActivity
    else match ParseMonthKey(best.0)
      case Some(ym) => ActiveIn(ym.0, ym.1, best.1)
      case None => UnreadableMonth(best.1)
  }

  /** The most active month is the month with the most selected
      announcements; there is none exactly when no selected announcement has
      a creation date. */
  lemma MostActiveMonthIsBusiest(xs: seq<Announcement>, period: Period, year: YearSetting, month: nat, reading: Reading)
    ensures var ss := CreatedStamps(AnalyticsSet(xs, period, year, month, reading));
            var r := MostActiveMonth(xs, period, year, month, reading);
            && (r.NoActivity? <==> MonthKeys(ss) == [])
            && (r.ActiveIn? ==>
                && 1 <= r.month <= 12
                && r.count == CountIn(ss, r.year, r.month) && r.count >= 1
                && forall y: nat, m: nat :: 1 <= m <= 12 ==> CountIn(ss, y, m) <= r.count)
  {
    BusiestOf(CreatedStamps(AnalyticsSet(xs, period, year, month, reading)));
  }

  /** `MostActiveMonthIsBusiest` for any sequence of creation dates. */
  lemma BusiestOf(ss: seq<Stamp>)
    ensures var r := MostActiveOf(ss);
            && (r.NoActivity? <==> MonthKeys(ss) == [])
            && (r.ActiveIn? ==>
                && 1 <= r.month <= 12
                && r.count == CountIn(ss, r.year, r.month) && r.count >= 1
                && forall y: nat, m: nat :: 1 <= m <= 12 ==> CountIn(ss, y, m) <= r.count)
  {
    var keys := MonthKeys(ss);
    var best := MostFrequent(keys, "");
    var r := MostActiveOf(ss);
    MostFrequentIsFirstMaximum(keys, "");
    if |keys| > 0 {
      assert best.0 in keys;
      var i := MonthKeySource(ss, best.0);
      if best.0 == NaNMonthKey {
        ParseNaNMonthKey();
      } else {
        var y0, m0 := ss[i].moment.date.year, ss[i].moment.date.month;
        ParseMonthKeyRoundTrip(y0, m0);
        assert best.0 != "";
        assert r == ActiveIn(y0, m0, best.1);
        KeyMultiplicity(ss, y0, m0);
        forall y: nat, m: nat | 1 <= m <= 12 ensures CountIn(ss, y, m) <= r.count {
          KeyMultiplicity(ss, y, m);
          if MonthKey(y, m) !in keys {
            assert multiset(keys)[MonthKey(y, m)] == 0;
          }
        }
      }
    }
  }

  /** Among months of equal count the scan keeps the key inserted first, and
      the figure reads "Invalid Date" exactly when the key of unparseable
      dates is that first busiest key. */
  lemma MostActiveMonthIsFirstBusiest(xs: seq<Announcement>, period: Period, year: YearSetting, month: nat, reading: Reading)
    ensures var keys := MonthKeys(CreatedStamps(AnalyticsSet(xs, period, year, month, reading)));
            var r := MostActiveMonth(xs, period, year, month, reading);
            && (r.ActiveIn? ==> 1 <= r.month <= 12 && IsFirstMaximum(keys, (MonthKey(r.year, r.month), r.count)))
            && (r.UnreadableMonth? ==> IsFirstMaximum(keys, (NaNMonthKey, r.count)))
            && (r.UnreadableMonth? <==> IsFirstMaximum(keys, (NaNMonthKey, multiset(keys)[NaNMonthKey])))
  {
    FirstBusiestOf(CreatedStamps(AnalyticsSet(xs, period, year, month, reading)));
  }

  /** `MostActiveMonthIsFirstBusiest` for any sequence of creation dates. */
  lemma FirstBusiestOf(ss: seq<Stamp>)
    ensures var keys := MonthKeys(ss);
            var r := MostActiveOf(ss);
            && (r.ActiveIn? ==> 1 <= r.month <= 12 && IsFirstMaximum(keys, (MonthKey(r.year, r.month), r.count)))
            && (r.UnreadableMonth? ==> IsFirstMaximum(keys, (NaNMonthKey, r.count)))
            && (r.UnreadableMonth? <==> IsFirstMaximum(keys, (NaNMonthKey, multiset(keys)[NaNMonthKey])))
  {
    var keys := MonthKeys(ss);
    var best := MostFrequent(keys, "");
    var r := MostActiveOf(ss);
    MostFrequentIsFirstMaximum(keys, "");
    if |keys| > 0 {
      var i := MonthKeySource(ss, best.0);
      if best.0 == NaNMonthKey {
        ParseNaNMonthKey();
        assert r == UnreadableMonth(best.1);
      } else {
        var y0, m0 := ss[i].moment.date.year, ss[i].moment.date.month;
        ParseMonthKeyRoundTrip(y0, m0);
        assert best.0 != "";
        assert r == ActiveIn(y0, m0, best.1);
        if IsFirstMaximum(keys, (NaNMonthKey, multiset(keys)[NaNMonthKey])) {
          FirstMaximumIsUnique(keys, best, (NaNMonthKey, multiset(keys)[NaNMonthKey]));
        }
      }
    }
  }

  // ---------------------------------------------------------------------
  // Editing and submitting

  datatype PublishMode = PublishNow | Schedule

  /** `form.image`: a chosen file, or anything else (`null`). */
  datatype ImageInput = NoImage | ImageFile(fileName: string)

  /** The announcement form; `publishedAt` is the datetime-local text. */
  datatype AnnouncementForm = AnnouncementForm(
    title: string,
    content: string,
    image: ImageInput,
    publishMode: PublishMode,
    publishedAt: string)

  /** The year part of `toISOString()`: four digits up to 9999, else a sign
      and six digits. */
  function IsoYear(y: nat): (r: string)
    ensures |r| >= 4
    ensures y <= 9999 ==> |r| == 4 && AllDigits(r) && ParseNat(r) == y
  {
    var t := NatToString(y);
    if y <= 9999 then
      DigitsBelow(y, 4);
      ParseNatToString(y);
      ParseNatPadStart(t, 4);
      PadStart(t, 4, '0')
    else "+" + PadStart(t, 6, '0')
  }

  /** The hour, minute and second of an instant. */
  function Hour(t: Moment): (h: nat)
    ensures h < 24
  {
    t.second / 3600
  }

  function MinuteOfHour(t: Moment): (m: nat)
    ensures m < 60
  {
    t.second % 3600 / 60
  }

  function SecondOfMinute(t: Moment): (s: nat)
    ensures s < 60
    ensures t.second == Hour(t) * 3600 + MinuteOfHour(t) * 60 + s
  {
    var rest := t.second % 3600;
    assert t.second == Hour(t) * 3600 + rest;
    assert rest == MinuteOfHour(t) * 60 + rest % 60;
    rest % 60
  }

  /** The first sixteen characters of `toISOString()` up to the year 9999:
      "YYYY-MM-DDTHH:MM". */
  function IsoMinuteText(t: Moment): (r: string)
    ensures |r| == |IsoYear(t.date.year)| + 12
  {
    IsoYear(t.date.year) + "-" + PadTwo(t.date.month) + "-" + PadTwo(t.date.day)
      + "T" + PadTwo(Hour(t)) + ":" + PadTwo(MinuteOfHour(t))
  }

  /** `date.toISOString()`: "YYYY-MM-DDTHH:MM:SS.000Z". */
  function IsoString(t: Moment): (r: string)
    ensures |r| >= 24
  {
    IsoMinuteText(t) + IsoSecondsText(t)
  }

  /** The rest of `toISOString()` after the minute: ":SS.000Z". */
  function IsoSecondsText(t: Moment): (r: string)
    ensures |r| == 8
  {
    ":" + PadTwo(SecondOfMinute(t)) + ".000Z"
  }

  /** The instant `t` with its seconds dropped. */
  function ToMinute(t: Moment): (r: Moment)
    ensures r.date == t.date && r.second <= t.second && t.second - r.second < 60
  {
    assert Hour(t) * 3600 + MinuteOfHour(t) * 60 < 86400;
    Moment(t.date, Hour(t) * 3600 + MinuteOfHour(t) * 60)
  }

  /** `new Date(text)` for the datetime-local text "YYYY-MM-DDTHH:MM";
      `None` for anything else, where `toISOString()` throws. */
  function ParseLocalMinute(s: string): (r: Option<Moment>)
    ensures r.Some? ==> r.value.second % 60 == 0
  {
    if |s| == 16 && s[4] == '-' && s[7] == '-' && s[10] == 'T' && s[13] == ':'
       && AllDigits(s[..4]) && AllDigits(s[5..7]) && AllDigits(s[8..10]) && AllDigits(s[11..13]) && AllDigits(s[14..])
    then
      var y, mo, d, h, mi := ParseNat(s[..4]), ParseNat(s[5..7]), ParseNat(s[8..10]), ParseNat(s[11..13]), ParseNat(s[14..]);
      if 1 <= mo <= 12 && 1 <= d <= DaysInMonth(y, mo) && h < 24 && mi < 60 then
        assert h * 3600 + mi * 60 < 86400;
        Some(Moment(Date(y, mo, d), h * 3600 + mi * 60))
      else None
    else None
  }

  /** Opening an announcement for editing: its title and content, no image,
      "schedule" exactly when its status is "scheduled", and its publication
      time cut to the minute of `toISOString()`. An unparseable publication
      time makes `toISOString()` throw and the form does not open. */
  function EditForm(a: Announcement): (r: Option<AnnouncementForm>)
    ensures r.None? <==> a.publishedAt.Invalid?
    ensures r.Some? ==>
      && r.value.title == a.title && r.value.content == a.content && r.value.image == NoImage
      && (r.value.publishMode == Schedule <==> a.status == Some("scheduled"))
      && (r.value.publishedAt == "" <==> a.publishedAt.Missing?)
      && (a.publishedAt.At? ==> r.value.publishedAt == IsoString(a.publishedAt.moment)[..16])
  {
    var mode := if a.status == Some("scheduled") then Schedule else PublishNow;
    match a.publishedAt
    case Missing => Some(AnnouncementForm(a.title, a.content, NoImage, mode, ""))
    case Invalid => None
    case At(t) => Some(AnnouncementForm(a.title, a.content, NoImage, mode, IsoString(t)[..16]))
  }

  /** One `FormData` entry. */
  datatype Field = TextField(name: string, value: string) | FileField(name: string, fileName: string)

  /** The outcome of submitting the form: refused before any request, or a
      POST of the listed fields to the given path. */
  datatype SubmitOutcome = Refused(message: string) | Posted(path: string, fields: seq<Field>)

  const NotLoggedInMessage: string := "You must be logged in to post."

  /** The publication time the form sends: the parsed datetime-local text
      when scheduling, nothing when publishing now or when the text does not
      parse (the failed conversion is caught and the field skipped). */
  function ScheduledTime(f: AnnouncementForm): (r: Option<Moment>)
    ensures f.publishMode == PublishNow ==> r.None?
    ensures f.publishMode == Schedule ==> r == ParseLocalMinute(f.publishedAt)
  {
    if f.publishMode == Schedule then ParseLocalMinute(f.publishedAt) else None
  }

  /** The publication time as sent: `toISOString()` of the scheduled time. */
  function ScheduledIso(f: AnnouncementForm): (r: Option<string>)
    ensures r.Some? <==> ScheduledTime(f).Some?
    ensures r.Some? ==> r.value == IsoString(ScheduledTime(f).value)
  {
    match ScheduledTime(f)
    case Some(t) => Some(IsoString(t))
    case None => None
  }

  /** The fields the form posts: title, content, the image when a file was
      chosen, the publication time when there is one, and the PUT override
      when editing. */
  function SubmitFields(f: AnnouncementForm, published: Option<string>, editing: bool): (r: seq<Field>)
    ensures |r| >= 2 && r[0] == TextField("title", f.title) && r[1] == TextField("content", f.content)
    ensures forall n :: FileField("image", n) in r <==> f.image == ImageFile(n)
    ensures TextField("_method", "PUT") in r <==> editing
    ensures forall v :: TextField("published_at", v) in r <==> published == Some(v)
    ensures |r| == 2 + (if f.image.ImageFile? then 1 else 0) + (if published.Some? then 1 else 0) + (if editing then 1 else 0)
  {
    var image := if f.image.ImageFile? then [FileField("image", f.image.fileName)] else [];
    var when := if published.Some? then [TextField("published_at", published.value)] else [];
    var put := if editing then [TextField("_method", "PUT")] else [];
    var head := [TextField("title", f.title), TextField("content", f.content)];
    MemberOfParts(head, image, when, put);
    head + image + when + put
  }

  lemma MemberOfParts<T>(a: seq<T>, b: seq<T>, c: seq<T>, d: seq<T>)
    ensures forall x :: x in a + b + c + d <==> x in a || x in b || x in c || x in d
  {
  }

  /** Submitting the form. `editing` is the id of the announcement being
      edited, when the form was opened for one. */
  function Submit(loggedIn: bool, f: AnnouncementForm, editing: Option<nat>): (r: SubmitOutcome)
    ensures r.Refused? <==> !loggedIn
    ensures r.Refused? ==> r.message == NotLoggedInMessage
    ensures r.Posted? ==>
      && r.path == (if editing.Some? then "/admin/announcements/" + NatToString(editing.value) else "/admin/announcements")
      && r.fields == SubmitFields(f, ScheduledIso(f), editing.Some?)
  {
    if !loggedIn then Refused(NotLoggedInMessage)
    else
      var path := if editing.Some? then "/admin/announcements/" + NatToString(editing.value) else "/admin/announcements";
      Posted(path, SubmitFields(f, ScheduledIso(f), editing.Some?))
  }

  /** What a logged-in submission posts: the publication time exactly when
      scheduling with a readable time, the image exactly when a file was
      chosen, and the PUT override exactly when editing. */
  lemma SubmitPostsForm(f: AnnouncementForm, editing: Option<nat>)
    ensures var r := Submit(true, f, editing);
      && r.Posted?
      && (forall v :: TextField("published_at", v) in r.fields <==>
            f.publishMode == Schedule && ParseLocalMinute(f.publishedAt).Some? && v == IsoString(ParseLocalMinute(f.publishedAt).value))
      && (forall n :: FileField("image", n) in r.fields <==> f.image == ImageFile(n))
      && (TextField("_method", "PUT") in r.fields <==> editing.Some?)
  {
  }

  /** Where the parts of a "YYYY-MM-DDTHH:MM" text sit. */
  lemma DateTimeLayout(y: string, mo: string, d: string, h: string, mi: string)
    requires |y| == 4 && |mo| == 2 && |d| == 2 && |h| == 2 && |mi| == 2
    ensures var s := y + "-" + mo + "-" + d + "T" + h + ":" + mi;
      && |s| == 16 && s[4] == '-' && s[7] == '-' && s[10] == 'T' && s[13] == ':'
      && s[..4] == y && s[5..7] == mo && s[8..10] == d && s[11..13] == h && s[14..] == mi
  {
  }

  /** The minute text of an instant up to the year 9999 has each of its
      parts in place, and each reads back as the instant's own. */
  lemma IsoMinuteFields(t: Moment)
    requires t.date.year <= 9999
    ensures var s := IsoMinuteText(t);
      && |s| == 16 && s[4] == '-' && s[7] == '-' && s[10] == 'T' && s[13] == ':'
      && AllDigits(s[..4]) && AllDigits(s[5..7]) && AllDigits(s[8..10]) && AllDigits(s[11..13]) && AllDigits(s[14..])
      && ParseNat(s[..4]) == t.date.year && ParseNat(s[5..7]) == t.date.month && ParseNat(s[8..10]) == t.date.day
      && ParseNat(s[11..13]) == Hour(t) && ParseNat(s[14..]) == MinuteOfHour(t)
  {
    DateTimeLayout(IsoYear(t.date.year), PadTwo(t.date.month), PadTwo(t.date.day), PadTwo(Hour(t)), PadTwo(MinuteOfHour(t)));
  }

  /** A well-formed minute text whose parts read as those of `t` parses as
      `t` cut to the minute. */
  lemma ParseMinuteFields(s: string, t: Moment)
    requires |s| == 16 && s[4] == '-' && s[7] == '-' && s[10] == 'T' && s[13] == ':'
    requires AllDigits(s[..4]) && AllDigits(s[5..7]) && AllDigits(s[8..10]) && AllDigits(s[11..13]) && AllDigits(s[14..])
    requires ParseNat(s[..4]) == t.date.year && ParseNat(s[5..7]) == t.date.month && ParseNat(s[8..10]) == t.date.day
    requires ParseNat(s[11..13]) == Hour(t) && ParseNat(s[14..]) == MinuteOfHour(t)
    ensures ParseLocalMinute(s) == Some(ToMinute(t))
  {
  }

  /** The edit form's time field is the minute text of `toISOString()`. */
  lemma IsoStringStartsWithMinute(t: Moment)
    ensures IsoString(t)[..|IsoMinuteText(t)|] == IsoMinuteText(t)
  {
    PrefixOfConcat(IsoMinuteText(t), IsoSecondsText(t));
  }

  lemma PrefixOfConcat(a: string, b: string)
    ensures (a + b)[..|a|] == a
  {
  }

  /** The datetime-local text the edit form shows reads back as the instant
      cut to the minute. */
  lemma IsoMinuteRoundTrip(t: Moment)
    requires t.date.year <= 9999
    ensures IsoString(t)[..16] == IsoMinuteText(t)
    ensures ParseLocalMinute(IsoString(t)[..16]) == Some(ToMinute(t))
  {
    IsoMinuteFields(t);
    IsoStringStartsWithMinute(t);
    ParseMinuteFields(IsoMinuteText(t), t);
  }

  /** The form opened for a scheduled announcement up to the year 9999
      carries its publication time cut to the minute. */
  lemma EditedScheduleTime(a: Announcement)
    requires a.status == Some("scheduled") && a.publishedAt.At? && a.publishedAt.moment.date.year <= 9999
    ensures var f := EditForm(a).value;
      && f.title == a.title && f.content == a.content && f.image == NoImage
      && ScheduledTime(f) == Some(ToMinute(a.publishedAt.moment))
  {
    IsoMinuteRoundTrip(a.publishedAt.moment);
  }

  lemma FourFields(a: Field, b: Field, c: Field, d: Field)
    ensures [a, b] + [] + [c] + [d] == [a, b, c, d]
  {
  }

  /** Opening a scheduled announcement for editing and submitting the form
      unchanged re-posts its publication time cut to the minute, as a PUT to
      its own path. */
  lemma EditThenSubmit(a: Announcement)
    requires a.status == Some("scheduled") && a.publishedAt.At? && a.publishedAt.moment.date.year <= 9999
    ensures Submit(true, EditForm(a).value, Some(a.id)) ==
      Posted("/admin/announcements/" + NatToString(a.id),
        [TextField("title", a.title), TextField("content", a.content),
         TextField("published_at", IsoString(ToMinute(a.publishedAt.moment))), TextField("_method", "PUT")])
  {
    EditedFields(a);
  }

  /** The fields an unchanged edit form of a scheduled announcement posts. */
  lemma EditedFields(a: Announcement)
    requires a.status == Some("scheduled") && a.publishedAt.At? && a.publishedAt.moment.date.year <= 9999
    ensures var f := EditForm(a).value;
      SubmitFields(f, ScheduledIso(f), true) ==
        [TextField("title", a.title), TextField("content", a.content),
         TextField("published_at", IsoString(ToMinute(a.publishedAt.moment))), TextField("_method", "PUT")]
  {
    EditedIso(a);
    SubmitScheduledEdit(EditForm(a).value, IsoString(ToMinute(a.publishedAt.moment)));
  }

  /** A form without an image, sending publication time `v`, as a PUT. */
  lemma SubmitScheduledEdit(f: AnnouncementForm, v: string)
    requires f.image == NoImage
    ensures SubmitFields(f, Some(v), true) ==
      [TextField("title", f.title), TextField("content", f.content), TextField("published_at", v), TextField("_method", "PUT")]
  {
    var title, content := TextField("title", f.title), TextField("content", f.content);
    var when, put := TextField("published_at", v), TextField("_method", "PUT");
    FourFields(title, content, when, put);
    assert SubmitFields(f, Some(v), true) == [title, content] + [] + [when] + [put];
  }

  /** The publication time an unchanged edit form of a scheduled
      announcement sends. */
  lemma EditedIso(a: Announcement)
    requires a.status == Some("scheduled") && a.publishedAt.At? && a.publishedAt.moment.date.year <= 9999
    ensures EditForm(a).value.image == NoImage
    ensures EditForm(a).value.title == a.title && EditForm(a).value.content == a.content
    ensures ScheduledIso(EditForm(a).value) == Some(IsoString(ToMinute(a.publishedAt.moment)))
  {
    EditedScheduleTime(a);
  }

  /** Editing an announcement that is not scheduled and submitting unchanged
      sends no publication time. */
  lemma EditUnscheduledSendsNoTime(a: Announcement, v: string)
    requires a.status != Some("scheduled") && !a.publishedAt.Invalid?
    ensures TextField("published_at", v) !in Submit(true, EditForm(a).value, Some(a.id)).fields
  {
  }
}

=== FILE: blotter.dfy ===
/** The blotter (incident complaint) records page: the search and
    incident-date filter of the table, the year and month choices, the status
    counters, the monthly complaints chart, the complaint-type pie, the most
    common complaint type, and the badge colours. */
module Blotter {
  import opened Wrappers
  import opened Seqs
  import opened Text
  import opened Calendar
  import opened Tally
  import opened Monthly

  datatype Resident = Resident(firstName: string, lastName: string)

  /** A blotter record as the page receives it; a missing text field is `None`. */
  datatype BlotterRecord = BlotterRecord(
    complainantName: Option<string>,
    respondentName: Option<string>,
    complaintType: Option<string>,
    resident: Option<Resident>,
    status: Option<string>,
    incidentDate: Stamp,
    createdAt: Stamp)

  /** The search box: the lower-cased query occurs in the complainant, the
      respondent, the complaint type, or the linked resident's "first last". */
  predicate MatchesSearch(r: BlotterRecord, search: string) {
    var q := Lower(search);
    || Includes(Lower(r.complainantName.GetOr("")), q)
    || Includes(Lower(r.respondentName.GetOr("")), q)
    || Includes(Lower(r.complaintType.GetOr("")), q)
    || (r.resident.Some? && Includes(Lower(r.resident.value.firstName + " " + r.resident.value.lastName), q))
  }

  /** An empty search matches every record. */
  lemma EmptySearchMatchesAll(r: BlotterRecord)
    ensures MatchesSearch(r, "")
  {
    IncludesEmpty(Lower(r.complainantName.GetOr("")));
  }

  /** The search ignores the case of the query. */
  lemma SearchIgnoresQueryCase(r: BlotterRecord, search: string)
    ensures MatchesSearch(r, search) == MatchesSearch(r, Lower(search))
  {
    LowerIsIdempotent(search);
  }

  /** The incident-date filter, with the year and month selectors read as
      numbers (`None` when unset): a selected year needs a valid date in that
      year; a selected month, once the year test passed, needs the date's
      month to agree. Records without a date always pass. */
  predicate MatchesDate(r: BlotterRecord, year: Option<nat>, month: Option<nat>) {
    var d := r.incidentDate;
    var yearOk := !(year.Some? && !d.Missing?) || (d.At? && d.moment.date.year == year.value);
    var monthOk := !(month.Some? && !d.Missing? && yearOk) || (d.At? && d.moment.date.month == month.value);
    yearOk && monthOk
  }

  /** The date filter keeps a record exactly when it has no date, or nothing
      is selected, or it has a valid date agreeing with every selection. */
  lemma MatchesDateMeans(r: BlotterRecord, year: Option<nat>, month: Option<nat>)
    ensures MatchesDate(r, year, month) <==>
      || r.incidentDate.Missing?
      || (year.None? && month.None?)
      || (&& r.incidentDate.At?
          && (year.None? || r.incidentDate.moment.date.year == year.value)
          && (month.None? || r.incidentDate.moment.date.month == month.value))
  {
  }

  /** The table rows: the records passing both the search and the date filter. */
  function FilterRecords(records: seq<BlotterRecord>, search: string, year: Option<nat>, month: Option<nat>): (r: seq<BlotterRecord>)
    ensures forall x :: x in r <==> x in records && MatchesSearch(x, search) && MatchesDate(x, year, month)
    ensures forall x :: multiset(r)[x] == if MatchesSearch(x, search) && MatchesDate(x, year, month) then multiset(records)[x] else 0
    ensures exists idx :: Embeds(r, records, idx)
  {
    var p := (x: BlotterRecord) => MatchesSearch(x, search) && MatchesDate(x, year, month);
    var r := Filter(records, p);
    FilterMultiplicity(records, p);
    assert forall x :: x in r <==> x in records && p(x) by {
      forall x ensures x in r <==> x in records && p(x) {
        FilterMembership(records, p, x);
      }
    }
    assert exists idx :: Embeds(r, records, idx) by {
      var idx := FilterIsSubsequence(records, p);
    }
    r
  }

  /** Years in strictly decreasing order. */
  predicate StrictlyDesc(xs: seq<nat>) {
    forall i, j :: 0 <= i < j < |xs| ==> xs[i] > xs[j]
  }

  /** Adds `y` to a strictly decreasing list at its place, once. */
  function InsertDesc(xs: seq<nat>, y: nat): (r: seq<nat>)
    requires StrictlyDesc(xs)
    ensures StrictlyDesc(r)
    ensures forall z :: z in r <==> z in xs || z == y
    decreases |xs|
  {
    if |xs| == 0 then [y]
    else if y > xs[0] then [y] + xs
    else if y == xs[0] then xs
    else
      var rest := InsertDesc(xs[1..], y);
      assert forall k :: 0 <= k < |rest| ==> rest[k] < xs[0] by {
        forall k | 0 <= k < |rest| ensures rest[k] < xs[0] {
          assert rest[k] in rest;
          if rest[k] != y {
            var j :| 0 <= j < |xs[1..]| && xs[1..][j] == rest[k];
            assert xs[j + 1] == rest[k];
          }
        }
      }
      var r := [xs[0]] + rest;
      assert forall k :: 0 < k < |r| ==> r[k] == rest[k - 1];
      r
  }

  /** `Array.from(new Set(ys)).sort((a, b) => b - a)`. */
  function SortDesc(ys: seq<nat>): (r: seq<nat>)
    ensures StrictlyDesc(r)
    ensures forall z :: z in r <==> z in ys
    decreases |ys|
  {
    if |ys| == 0 then [] else InsertDesc(SortDesc(ys[1..]), ys[0])
  }

  /** A strictly decreasing list is determined by its elements. */
  lemma {:induction false} DescUnique(a: seq<nat>, b: seq<nat>)
    requires StrictlyDesc(a) && StrictlyDesc(b)
    requires forall z :: z in a <==> z in b
    ensures a == b
    decreases |a|
  {
    assert |b| > 0 ==> b[0] in a;
    if |a| > 0 {
      assert a[0] in b && b[0] in a;
      assert |b| > 0;
      assert a[0] == b[0];
      assert a == [a[0]] + a[1..] && b == [b[0]] + b[1..];
      forall z ensures z in a[1..] <==> z in b[1..] {
        if z in a[1..] {
          var k :| 0 <= k < |a[1..]| && a[1..][k] == z;
          assert a[k + 1] < a[0];
          assert z in b && z != b[0];
        }
        if z in b[1..] {
          var k :| 0 <= k < |b[1..]| && b[1..][k] == z;
          assert b[k + 1] < b[0];
          assert z in a && z != a[0];
        }
      }
      DescUnique(a[1..], b[1..]);
    }
  }

  /** Some date of `ss` is valid and falls in year `y`. */
  predicate HasYear(ss: seq<Stamp>, y: nat) {
    exists i :: 0 <= i < |ss| && InYear(ss[i], y)
  }

  /** The years of the valid dates of `ss`, in order. */
  function DataYears(ss: seq<Stamp>): (r: seq<nat>)
    ensures forall y: nat :: y in r <==> HasYear(ss, y)
    decreases |ss|
  {
    if |ss| == 0 then []
    else
      var rest := DataYears(ss[1..]);
      var r := if ss[0].At? then [ss[0].moment.date.year] + rest else rest;
      assert forall y :: HasYear(ss[1..], y) ==> HasYear(ss, y) by {
        forall y | HasYear(ss[1..], y) ensures HasYear(ss, y) {
          var i :| 0 <= i < |ss[1..]| && InYear(ss[1..][i], y);
          assert InYear(ss[i + 1], y);
        }
      }
      assert forall y :: HasYear(ss, y) ==> y in r by {
        forall y | HasYear(ss, y) ensures y in r {
          var i :| 0 <= i < |ss| && InYear(ss[i], y);
          if i > 0 {
            assert InYear(ss[1..][i - 1], y);
          }
        }
      }
      assert ss[0].At? ==> InYear(ss[0], ss[0].moment.date.year);
      r
  }

  /** `lo, lo + 1, …, hi`. */
  function YearRange(lo: nat, hi: nat): (r: seq<nat>)
    ensures forall z :: z in r <==> lo <= z <= hi
  {
    if hi < lo then []
    else
      var r := seq(hi - lo + 1, i requires 0 <= i <= hi - lo => lo + i);
      assert forall z :: lo <= z <= hi ==> z in r by {
        forall z | lo <= z <= hi ensures z in r {
          assert r[z - lo] == z;
        }
      }
      r
  }

  /** The first year every year menu offers. */
  const MinYear: nat := 2020

  /** A year menu: every year with a dated record, and every year from 2020
      to the year after the current one, newest first, each once. */
  function AvailableYears(ss: seq<Stamp>, currentYear: nat): (r: seq<nat>)
    ensures StrictlyDesc(r)
    ensures forall y: nat :: y in r <==> HasYear(ss, y) || MinYear <= y <= currentYear + 1
  {
    SortDesc(DataYears(ss) + YearRange(MinYear, currentYear + 1))
  }

  /** The year menu is the only newest-first list of those years. */
  lemma AvailableYearsIsUnique(ss: seq<Stamp>, currentYear: nat, other: seq<nat>)
    requires StrictlyDesc(other)
    requires forall y: nat :: y in other <==> HasYear(ss, y) || MinYear <= y <= currentYear + 1
    ensures other == AvailableYears(ss, currentYear)
  {
    DescUnique(other, AvailableYears(ss, currentYear));
  }

  /** The incident dates the table's year menu draws on. */
  function IncidentStamps(records: seq<BlotterRecord>): (r: seq<Stamp>)
    ensures |r| == |records| && forall i :: 0 <= i < |records| ==> r[i] == records[i].incidentDate
  {
    seq(|records|, i requires 0 <= i < |records| => records[i].incidentDate)
  }

  /** The creation dates the analytics draw on. */
  function CreatedStamps(records: seq<BlotterRecord>): (r: seq<Stamp>)
    ensures |r| == |records| && forall i :: 0 <= i < |records| ==> r[i] == records[i].createdAt
  {
    seq(|records|, i requires 0 <= i < |records| => records[i].createdAt)
  }

  /** The month menu: empty until a year is chosen, then January to December. */
  function AvailableMonths(year: Option<nat>): (r: seq<nat>)
    ensures year.None? ==> r == []
    ensures year.Some? ==> |r| == 12 && forall i :: 0 <= i < 12 ==> r[i] == i + 1
  {
    if year.None? then [] else seq(12, i requires 0 <= i < 12 => i + 1)
  }

  function Statuses(records: seq<BlotterRecord>): (r: seq<Option<string>>)
    ensures |r| == |records| && forall i :: 0 <= i < |records| ==> r[i] == records[i].status
  {
    seq(|records|, i requires 0 <= i < |records| => records[i].status)
  }

  /** A status counter: how many records carry exactly that status. */
  method StatusCount(records: seq<BlotterRecord>, status: string) returns (n: nat)
    ensures n == multiset(Statuses(records))[Some(status)]
  {
    n := 0;
    var i := 0;
    while i < |records|
      invariant 0 <= i <= |records|
      invariant n == multiset(Statuses(records)[..i])[Some(status)]
    {
      assert Statuses(records)[..i + 1] == Statuses(records)[..i] + [records[i].status];
      if records[i].status == Some(status) {
        n := n + 1;
      }
      i := i + 1;
    }
    assert Statuses(records)[..|records|] == Statuses(records);
  }

  /** The chart's filter once a year is chosen: a valid creation date in that
      year and, when a month is chosen, in that month. */
  predicate ChartKeeps(s: Stamp, year: nat, month: Option<nat>) {
    s.At? && s.moment.date.year == year && (month.None? || s.moment.date.month == month.value)
  }

  /** The monthly complaints chart. Without a year: the last twelve months up
      to `now`; with a year and a month: that month alone; with a year only:
      its twelve months. A month without a year is ignored. Each bar counts
      the records created in its month. */
  function ChartData(records: seq<BlotterRecord>, now: CalendarDate, year: Option<nat>, month: Option<nat>): (r: seq<Bucket>)
    requires now.year >= 1
    requires month.Some? ==> 1 <= month.value <= 12
    ensures year.None? ==> |r| == 12 && forall i :: 0 <= i < 12 ==> (r[i].year, r[i].month) == LastTwelveMonths(now)[i]
    ensures year.Some? && month.Some? ==> |r| == 1 && r[0].year == year.value && r[0].month == month.value
    ensures year.Some? && month.None? ==> |r| == 12 && forall i :: 0 <= i < 12 ==> r[i].year == year.value && r[i].month == i + 1
    ensures forall i :: 0 <= i < |r| ==> r[i].count == CountIn(CreatedStamps(records), r[i].year, r[i].month)
  {
    var ss := CreatedStamps(records);
    if year.None? then ChartBuckets(ss, year, month, LastTwelveMonths(now))
    else if month.Some? then ChartBuckets(ss, year, month, [(year.value, month.value)])
    else ChartBuckets(ss, year, month, MonthsOfYear(year.value))
  }

  /** The bars of the months `ms`: counted over every date without a year,
      over the dates the chart keeps with one. */
  function ChartBuckets(ss: seq<Stamp>, year: Option<nat>, month: Option<nat>, ms: seq<(nat, nat)>): (r: seq<Bucket>)
    requires ValidMonths(ms)
    requires year.Some? ==> forall j :: 0 <= j < |ms| ==> ms[j].0 == year.value && (month.Some? ==> ms[j].1 == month.value)
    ensures |r| == |ms|
    ensures forall i :: 0 <= i < |ms| ==> r[i] == Bucket(ms[i].0, ms[i].1, CountIn(ss, ms[i].0, ms[i].1))
  {
    if year.None? then MonthBuckets(ss, ms) else KeptBuckets(ss, year.value, month, ms)
  }

  /** The buckets of the months `ms` of the selected year, counted over the
      dates the chart keeps. */
  function KeptBuckets(ss: seq<Stamp>, year: nat, month: Option<nat>, ms: seq<(nat, nat)>): (r: seq<Bucket>)
    requires ValidMonths(ms)
    requires forall j :: 0 <= j < |ms| ==> ms[j].0 == year && (month.Some? ==> ms[j].1 == month.value)
    ensures |r| == |ms|
    ensures forall j :: 0 <= j < |ms| ==> r[j] == Bucket(ms[j].0, ms[j].1, CountIn(ss, ms[j].0, ms[j].1))
  {
    var keep := (s: Stamp) => ChartKeeps(s, year, month);
    var kept := Filter(ss, keep);
    assert forall j :: 0 <= j < |ms| ==> CountIn(kept, ms[j].0, ms[j].1) == CountIn(ss, ms[j].0, ms[j].1) by {
      forall j | 0 <= j < |ms| ensures CountIn(kept, ms[j].0, ms[j].1) == CountIn(ss, ms[j].0, ms[j].1) {
        CountInFilter(ss, keep, ms[j].0, ms[j].1);
      }
    }
    MonthBuckets(kept, ms)
  }

  /** The analytics filter behind the pie and the "most common" figure: a
      valid creation date agreeing with each selection that is set. Unlike
      the chart, it applies a month even when no year is chosen. */
  predicate AnalyticsKeeps(s: Stamp, year: Option<nat>, month: Option<nat>) {
    s.At? && (year.None? || s.moment.date.year == year.value) && (month.None? || s.moment.date.month == month.value)
  }

  function AnalyticsRecords(records: seq<BlotterRecord>, year: Option<nat>, month: Option<nat>): (r: seq<BlotterRecord>)
    ensures forall x :: x in r <==> x in records && AnalyticsKeeps(x.createdAt, year, month)
    ensures forall x :: multiset(r)[x] == if AnalyticsKeeps(x.createdAt, year, month) then multiset(records)[x] else 0
    ensures exists idx :: Embeds(r, records, idx)
  {
    var p := (x: BlotterRecord) => AnalyticsKeeps(x.createdAt, year, month);
    var r := Filter(records, p);
    FilterMultiplicity(records, p);
    assert forall x :: x in r <==> x in records && p(x) by {
      forall x ensures x in r <==> x in records && p(x) {
        FilterMembership(records, p, x);
      }
    }
    assert exists idx :: Embeds(r, records, idx) by {
      var idx := FilterIsSubsequence(records, p);
    }
    r
  }

  /** With a year chosen, the analytics records are exactly those the chart counts. */
  lemma AnalyticsAgreesWithChart(s: Stamp, year: nat, month: Option<nat>)
    ensures AnalyticsKeeps(s, Some(year), month) == ChartKeeps(s, year, month)
  {
  }

  /** A record's complaint type, "Other" when missing or empty. */
  function TypeOf(r: BlotterRecord): (t: string)
    ensures Truthy(r.complaintType) ==> t == r.complaintType.value
    ensures !Truthy(r.complaintType) ==> t == "Other"
  {
    if Truthy(r.complaintType) then r.complaintType.value else "Other"
  }

  function Types(records: seq<BlotterRecord>): (r: seq<string>)
    ensures |r| == |records| && forall i :: 0 <= i < |records| ==> r[i] == TypeOf(records[i])
  {
    seq(|records|, i requires 0 <= i < |records| => TypeOf(records[i]))
  }

  /** The colours of the complaint-type pie. */
  const PieColors: seq<string> := ["#10b981", "#f59e0b", "#ef4444", "#8b5cf6", "#06b6d4", "#84cc16"]

  function Identity(s: string): string {
    s
  }

  /** Some slice of `r` is named `t`. */
  predicate Named(r: seq<Slice>, t: string) {
    exists i :: 0 <= i < |r| && r[i].name == t
  }

  /** The pie of a list of type names: values, colours, distinct names, and
      exactly the types that occur. */
  lemma TypePieContents(xs: seq<string>)
    ensures var r := Slices(CountAll(xs), Identity, PieColors);
      && Sum(SliceValues(r)) == |xs|
      && (forall i :: 0 <= i < |r| ==> r[i].value == multiset(xs)[r[i].name])
      && (forall i :: 0 <= i < |r| ==> r[i].color == PieColors[i % 6])
      && (forall i, j :: 0 <= i < j < |r| ==> r[i].name != r[j].name)
      && (forall t :: t in xs <==> Named(r, t))
  {
    var c := CountAll(xs);
    var r := Slices(c, Identity, PieColors);
    PieOfCategories(xs, Identity, PieColors);
    assert forall i :: 0 <= i < |r| ==> r[i].name == c[i].0;
    assert forall t :: t in xs <==> Named(r, t) by {
      forall t ensures t in xs <==> Named(r, t) {
        if t in xs {
          var i :| 0 <= i < |c| && c[i].0 == t;
          assert r[i].name == t;
        }
        if Named(r, t) {
          var i :| 0 <= i < |r| && r[i].name == t;
          assert c[i].0 == t;
        }
      }
    }
  }

  /** The slices of a list of type names come in first-appearance order. */
  lemma TypePieOrder(xs: seq<string>)
    ensures var r := Slices(CountAll(xs), Identity, PieColors);
      forall i, j :: 0 <= i < j < |r| ==> IndexOf(xs, r[i].name) < IndexOf(xs, r[j].name)
  {
    var c := CountAll(xs);
    var r := Slices(c, Identity, PieColors);
    assert forall i :: 0 <= i < |r| ==> r[i].name == c[i].0;
    CountAllOrder(xs);
  }

  /** The complaint-type pie: one slice per type in first-appearance order,
      sized by its number of records, colours cycling through six. */
  function PieData(records: seq<BlotterRecord>): (r: seq<Slice>)
    ensures Sum(SliceValues(r)) == |records|
    ensures forall i :: 0 <= i < |r| ==> r[i].value == multiset(Types(records))[r[i].name]
    ensures forall i :: 0 <= i < |r| ==> r[i].color == PieColors[i % 6]
    ensures forall i, j :: 0 <= i < j < |r| ==> r[i].name != r[j].name
    ensures forall t :: t in Types(records) <==> Named(r, t)
    ensures forall i, j :: 0 <= i < j < |r| ==> IndexOf(Types(records), r[i].name) < IndexOf(Types(records), r[j].name)
  {
    var xs := Types(records);
    TypePieContents(xs);
    TypePieOrder(xs);
    Slices(CountAll(xs), Identity, PieColors)
  }


  /** The most common complaint type with its count: `("", 0)` without records. */
  function MostCommonType(records: seq<BlotterRecord>): (r: (string, nat)) {
    MostFrequent(Types(records), "")
  }

  /** The figure shown: the type, or "N/A" when there is none. */
  function MostCommonLabel(records: seq<BlotterRecord>): (s: string)
    ensures |records| == 0 ==> s == "N/A"
    ensures |records| > 0 ==> s in Types(records)
    ensures |records| > 0 ==> s == MostCommonType(records).0
    ensures |records| > 0 ==> IsFirstMaximum(Types(records), (s, multiset(Types(records))[s]))
  {
    var r := MostCommonType(records);
    MostFrequentIsFirstMaximum(Types(records), "");
    assert forall t :: t in Types(records) ==> t != "";
    if r.0 != "" then r.0 else "N/A"
  }

  /** The most common type is the type with the most records, the earliest
      such type on a tie, and counts all records of that type. */
  lemma MostCommonTypeIsMode(records: seq<BlotterRecord>)
    ensures |records| == 0 ==> MostCommonType(records) == ("", 0)
    ensures |records| > 0 ==> IsFirstMaximum(Types(records), MostCommonType(records))
  {
    MostFrequentIsFirstMaximum(Types(records), "");
  }

  /** The badge colour of a complaint type. */
  function ComplaintTypeColor(t: string): (c: string)
    ensures c == "bg-gray-100 text-gray-800" <==>
      t != "Physical Injury" && t != "Verbal Abuse" && t != "Property Damage" && t != "Theft" && t != "Noise Complaint"
  {
    match t
    case "Physical Injury" => "bg-red-100 text-red-800"
    case "Verbal Abuse" => "bg-orange-100 text-orange-800"
    case "Property Damage" => "bg-yellow-100 text-yellow-800"
    case "Theft" => "bg-purple-100 text-purple-800"
    case "Noise Complaint" => "bg-blue-100 text-blue-800"
    case "Other" => "bg-gray-100 text-gray-800"
    case _ => "bg-gray-100 text-gray-800"
  }

  /** The badge colour of a record status. */
  function StatusColor(s: string): (c: string)
    ensures c == "bg-gray-100 text-gray-800" <==> s != "Scheduled" && s != "Pending" && s != "Cancelled" && s != "Completed"
  {
    match s
    case "Scheduled" => "bg-green-100 text-green-800"
    case "Pending" => "bg-yellow-100 text-yellow-800"
    case "Cancelled" => "bg-red-100 text-red-800"
    case "Completed" => "bg-blue-100 text-blue-800"
    case "No Show" => "bg-gray-100 text-gray-800"
    case _ => "bg-gray-100 text-gray-800"
  }

  /** Different named complaint types get different badge colours. */
  lemma ComplaintTypeColorsDiffer(a: string, b: string)
    requires a in ["Physical Injury", "Verbal Abuse", "Property Damage", "Theft", "Noise Complaint"]
    requires b in ["Physical Injury", "Verbal Abuse", "Property Damage", "Theft", "Noise Complaint"]
    requires a != b
    ensures ComplaintTypeColor(a) != ComplaintTypeColor(b)
  {
  }
}

=== FILE: calendar.dfy ===
/** Dates as the pages see them once JavaScript's `Date` has parsed them:
    a calendar day plus the second of that day, in a single time zone. A
    record's date field is missing, unparseable (`isNaN(date.getTime())`), or
    a valid instant. Also: the Gregorian month lengths that
    `new Date(y, m, 0).getDate()` yields, the "YYYY-MM" month keys the charts
    group by, and the window of the last twelve months. */
module Calendar {
  import opened Wrappers
  import opened Text

  predicate IsLeapYear(y: nat) {
    y % 4 == 0 && (y % 100 != 0 || y % 400 == 0)
  }

  /** The number of days of month `m` (1-based) of year `y`. */
  function DaysInMonth(y: nat, m: nat): (r: nat)
    requires 1 <= m <= 12
    ensures 28 <= r <= 31
    ensures m == 2 ==> (r == 29 <==> IsLeapYear(y))
  {
    if m == 2 then (if IsLeapYear(y) then 29 else 28)
    else if m == 4 || m == 6 || m == 9 || m == 11 then 30
    else 31
  }

  /** The twelve months of a year add up to 365 days, or 366 in a leap year. */
  lemma YearLength(y: nat)
    ensures DaysInMonth(y, 1) + DaysInMonth(y, 2) + DaysInMonth(y, 3) + DaysInMonth(y, 4)
          + DaysInMonth(y, 5) + DaysInMonth(y, 6) + DaysInMonth(y, 7) + DaysInMonth(y, 8)
          + DaysInMonth(y, 9) + DaysInMonth(y, 10) + DaysInMonth(y, 11) + DaysInMonth(y, 12)
          == if IsLeapYear(y) then 366 else 365
  {
  }

  datatype Date = Date(year: nat, month: nat, day: nat)

  predicate ValidDate(d: Date) {
    1 <= d.month <= 12 && 1 <= d.day <= DaysInMonth(d.year, d.month)
  }

  /** A day that exists in the Gregorian calendar. */
  type CalendarDate = d: Date | ValidDate(d) witness Date(2000, 1, 1)

  type SecondOfDay = s: nat | s < 86400

  /** An instant: a day and the second within it. */
  datatype Moment = Moment(date: CalendarDate, second: SecondOfDay)

  /** What `new Date(field)` makes of a record's date field. */
  datatype Stamp = Missing | Invalid | At(moment: Moment)

  /** Chronological order of days. */
  predicate DateBefore(a: Date, b: Date) {
    || a.year < b.year
    || (a.year == b.year && a.month < b.month)
    || (a.year == b.year && a.month == b.month && a.day < b.day)
  }

  /** `a.getFullYear() === y && a.getMonth() + 1 === m`. */
  predicate InMonth(s: Stamp, y: nat, m: nat) {
    s.At? && s.moment.date.year == y && s.moment.date.month == m
  }

  predicate InYear(s: Stamp, y: nat) {
    s.At? && s.moment.date.year == y
  }

  /** Months counted from January of year 0. */
  function MonthSerial(y: nat, m: nat): nat
    requires 1 <= m <= 12
  {
    y * 12 + (m - 1)
  }

  /** The (year, month) with serial number `k`: how `new Date(y, m, 1)`
      normalises a month index outside 0..11. */
  function MonthOfSerial(k: nat): (r: (nat, nat))
    ensures 1 <= r.1 <= 12
    ensures MonthSerial(r.0, r.1) == k
  {
    (k / 12, k % 12 + 1)
  }

  /** The last twelve months, oldest first, ending with the month of `now`. */
  function LastTwelveMonths(now: CalendarDate): (r: seq<(nat, nat)>)
    requires now.year >= 1
    ensures |r| == 12
    ensures forall i :: 0 <= i < 12 ==> 1 <= r[i].1 <= 12
    ensures r[11] == (now.year, now.month)
    ensures forall i :: 0 <= i < 11 ==> MonthSerial(r[i + 1].0, r[i + 1].1) == MonthSerial(r[i].0, r[i].1) + 1
  {
    var first: nat := MonthSerial(now.year, now.month) - 11;
    var r := MonthsFrom(first, 12);
    MonthSerialInjective(r[11].0, r[11].1, now.year, now.month);
    r
  }

  /** `n` consecutive months, starting with the one of serial `first`. */
  function MonthsFrom(first: nat, n: nat): (r: seq<(nat, nat)>)
    ensures |r| == n
    ensures forall i :: 0 <= i < n ==> 1 <= r[i].1 <= 12 && MonthSerial(r[i].0, r[i].1) == first + i
  {
    var r := seq(n, i requires 0 <= i < n => MonthOfSerial(first + i));
    assert forall i :: 0 <= i < n ==> 1 <= r[i].1 <= 12 && MonthSerial(r[i].0, r[i].1) == first + i by {
      forall i | 0 <= i < n ensures 1 <= r[i].1 <= 12 && MonthSerial(r[i].0, r[i].1) == first + i {
        var p := MonthOfSerial(first + i);
        assert r[i] == p;
      }
    }
    r
  }

  /** Different months have different serial numbers. */
  lemma MonthSerialInjective(y1: nat, m1: nat, y2: nat, m2: nat)
    requires 1 <= m1 <= 12 && 1 <= m2 <= 12
    requires MonthSerial(y1, m1) == MonthSerial(y2, m2)
    ensures y1 == y2 && m1 == m2
  {
  }

  /** The twelve months of one year, January first. */
  function MonthsOfYear(y: nat): (r: seq<(nat, nat)>)
    ensures |r| == 12
    ensures forall i :: 0 <= i < 12 ==> r[i] == (y, i + 1)
  {
    seq(12, i requires 0 <= i < 12 => (y, i + 1))
  }

  /** `${y}-${String(m).padStart(2, '0')}`: the key the monthly charts group by. */
  function MonthKey(y: nat, m: nat): (r: string)
    requires 1 <= m <= 12
    ensures |r| >= 4 && IsDigit(r[0]) && r[|r| - 3] == '-'
  {
    NatToString(y) + "-" + PadTwo(m)
  }

  /** The key an unparseable date produces: `${NaN}-${NaN}`. */
  const NaNMonthKey: string := "NaN-NaN"

  /** Different months have different keys. */
  lemma MonthKeyInjective(y1: nat, m1: nat, y2: nat, m2: nat)
    requires 1 <= m1 <= 12 && 1 <= m2 <= 12
    requires MonthKey(y1, m1) == MonthKey(y2, m2)
    ensures y1 == y2 && m1 == m2
  {
    var k := MonthKey(y1, m1);
    assert k[|k| - 2..] == PadTwo(m1);
    assert MonthKey(y2, m2)[|k| - 2..] == PadTwo(m2);
    assert k[..|k| - 3] == NatToString(y1);
    assert MonthKey(y2, m2)[..|k| - 3] == NatToString(y2);
    NatToStringInjective(y1, y2);
  }

  /** The month key of a record's date, if it has one (`if (record.created_at)`). */
  function StampKey(s: Stamp): (r: Option<string>)
    ensures r.None? <==> s.Missing?
  {
    match s
    case Missing => None
    case Invalid => Some(NaNMonthKey)
    case At(t) => Some(MonthKey(t.date.year, t.date.month))
  }

  /** A date carries the key of month (y, m) exactly when it falls in that month. */
  lemma StampKeyMatches(s: Stamp, y: nat, m: nat)
    requires 1 <= m <= 12
    ensures StampKey(s) == Some(MonthKey(y, m)) <==> InMonth(s, y, m)
  {
    if s.At? && StampKey(s) == Some(MonthKey(y, m)) {
      MonthKeyInjective(s.moment.date.year, s.moment.date.month, y, m);
    }
    if s.Invalid? {
      assert NaNMonthKey[0] == 'N';
    }
  }

  /** The first position of `c` in `s`, or |s| when there is none. */
  function FindChar(s: string, c: char): (i: nat)
    ensures i <= |s|
    ensures forall j :: 0 <= j < i ==> s[j] != c
    ensures i < |s| ==> s[i] == c
    decreases |s|
  {
    if |s| == 0 then 0 else if s[0] == c then 0 else 1 + FindChar(s[1..], c)
  }

  /** The first `c` of `a + b` is at the start of `b` when `a` has none. */
  lemma {:induction false} FindCharAfter(a: string, b: string, c: char)
    requires forall j :: 0 <= j < |a| ==> a[j] != c
    requires |b| > 0 && b[0] == c
    ensures FindChar(a + b, c) == |a|
    decreases |a|
  {
    if |a| > 0 {
      assert (a + b)[1..] == a[1..] + b;
      FindCharAfter(a[1..], b, c);
    }
  }

  /** `const [year, month] = key.split('-')` followed by `parseInt` of both
      parts; `None` when either part is not a number. */
  function ParseMonthKey(k: string): Option<(nat, nat)> {
    var i := FindChar(k, '-');
    if i == |k| then None
    else
      var a := k[..i];
      var rest := k[i + 1..];
      var b := rest[..FindChar(rest, '-')];
      if |a| > 0 && |b| > 0 && AllDigits(a) && AllDigits(b) then Some((ParseNat(a), ParseNat(b))) else None
  }

  /** Splitting a month key and parsing its parts gives the month back. */
  lemma ParseMonthKeyRoundTrip(y: nat, m: nat)
    requires 1 <= m <= 12
    ensures ParseMonthKey(MonthKey(y, m)) == Some((y, m))
  {
    ParseNatToString(y);
    ParseMonthKeyOfParts(NatToString(y), PadTwo(m), y, m);
  }

  /** Two runs of digits joined by a dash read back as their values. */
  lemma ParseMonthKeyOfParts(a: string, b: string, y: nat, m: nat)
    requires |a| > 0 && |b| > 0 && AllDigits(a) && AllDigits(b)
    requires ParseNat(a) == y && ParseNat(b) == m
    ensures ParseMonthKey(a + "-" + b) == Some((y, m))
  {
    NoDash(a);
    SplitAtChar(a, b, '-');
    NoDash(b);
    assert b[..|b|] == b;
  }

  /** The first `c` of `a + [c] + b` is the one after `a` when `a` has none. */
  lemma SplitAtChar(a: string, b: string, c: char)
    requires forall j :: 0 <= j < |a| ==> a[j] != c
    ensures var k := a + [c] + b;
      FindChar(k, c) == |a| && k[..|a|] == a && k[|a| + 1..] == b
  {
    var k := a + [c] + b;
    assert k == a + ([c] + b);
    FindCharAfter(a, [c] + b, c);
    assert k[..|a|] == a;
    assert k[|a| + 1..] == b;
  }

  /** Digits contain no dash. */
  lemma NoDash(b: string)
    requires AllDigits(b)
    ensures forall j :: 0 <= j < |b| ==> b[j] != '-'
    ensures FindChar(b, '-') == |b|
  {
    assert forall j :: 0 <= j < |b| ==> b[j] != '-';
  }

  /** The unparseable-date key does not read back as a month. */
  lemma ParseNaNMonthKey()
    ensures ParseMonthKey(NaNMonthKey).None?
  {
    assert FindChar(NaNMonthKey, '-') == 3;
    assert !IsDigit(NaNMonthKey[0]);
  }
}

=== FILE: monthly.dfy ===
/** Counting dated records by calendar month, as both analytics pages do:
    each present date contributes its "YYYY-MM" key to a counter object, and
    a chart bucket reads `counts[key] || 0` for the month it stands for. */
module Monthly {
  import opened Seqs
  import opened Calendar
  import opened Tally

  /** The month key of one date, if it is present. */
  function StampKeys(s: Stamp): (r: seq<string>)
    ensures |r| <= 1
  {
    if s.Missing? then [] else [StampKey(s).value]
  }

  /** A date contributes the key of month (y, m) once if it falls in that
      month, and otherwise not at all. */
  lemma StampKeysMultiplicity(s: Stamp, y: nat, m: nat)
    requires 1 <= m <= 12
    ensures multiset(StampKeys(s))[MonthKey(y, m)] == if InMonth(s, y, m) then 1 else 0
  {
    StampKeyMatches(s, y, m);
    if !s.Missing? {
      SingletonMultiplicity(StampKey(s).value, MonthKey(y, m));
    }
  }

  lemma SingletonMultiplicity(x: string, k: string)
    ensures multiset([x])[k] == if x == k then 1 else 0
  {
  }

  /** The month keys of the dates that are present, in order. */
  function MonthKeys(ss: seq<Stamp>): (r: seq<string>)
    ensures |r| <= |ss|
    decreases |ss|
  {
    if |ss| == 0 then [] else StampKeys(ss[0]) + MonthKeys(ss[1..])
  }

  /** Every month key comes from a valid date of `ss`, or is the key of an
      unparseable one. */
  lemma {:induction false} MonthKeySource(ss: seq<Stamp>, k: string) returns (i: nat)
    requires k in MonthKeys(ss)
    ensures k == NaNMonthKey || (i < |ss| && ss[i].At? && k == MonthKey(ss[i].moment.date.year, ss[i].moment.date.month))
    decreases |ss|
  {
    if k in StampKeys(ss[0]) {
      i := 0;
    } else {
      var j := MonthKeySource(ss[1..], k);
      i := j + 1;
    }
  }

  /** The number of dates of `ss` that fall in month `m` of year `y`. */
  function CountIn(ss: seq<Stamp>, y: nat, m: nat): (n: nat)
    ensures n <= |ss|
    decreases |ss|
  {
    if |ss| == 0 then 0 else (if InMonth(ss[0], y, m) then 1 else 0) + CountIn(ss[1..], y, m)
  }

  /** A month's key occurs in the key list once per date in that month. */
  lemma {:induction false} KeyMultiplicity(ss: seq<Stamp>, y: nat, m: nat)
    requires 1 <= m <= 12
    ensures multiset(MonthKeys(ss))[MonthKey(y, m)] == CountIn(ss, y, m)
    decreases |ss|
  {
    if |ss| > 0 {
      StampKeysMultiplicity(ss[0], y, m);
      KeyMultiplicity(ss[1..], y, m);
      MonthKeysMultiset(ss);
    }
  }

  lemma MonthKeysMultiset(ss: seq<Stamp>)
    requires |ss| > 0
    ensures multiset(MonthKeys(ss)) == multiset(StampKeys(ss[0])) + multiset(MonthKeys(ss[1..]))
  {
  }

  /** The counter object built from the month keys. */
  function MonthlyCounts(ss: seq<Stamp>): Counter<string> {
    CountAll(MonthKeys(ss))
  }

  /** Looking a month up in the counter gives the number of dates in it. */
  lemma MonthlyCountIsMonthCount(ss: seq<Stamp>, y: nat, m: nat)
    requires 1 <= m <= 12
    ensures CountOf(MonthlyCounts(ss), MonthKey(y, m)) == CountIn(ss, y, m)
  {
    CountAllCounts(MonthKeys(ss));
    KeyMultiplicity(ss, y, m);
  }

  /** One bar of a monthly chart. */
  datatype Bucket = Bucket(year: nat, month: nat, count: nat)

  predicate ValidMonths(ms: seq<(nat, nat)>) {
    forall i :: 0 <= i < |ms| ==> 1 <= ms[i].1 <= 12
  }

  /** One bucket per month of `ms`, each reading the counter under that
      month's key: the number of dates of `ss` in that month. */
  function MonthBuckets(ss: seq<Stamp>, ms: seq<(nat, nat)>): (r: seq<Bucket>)
    requires ValidMonths(ms)
    ensures |r| == |ms|
    ensures forall i :: 0 <= i < |ms| ==> r[i] == Bucket(ms[i].0, ms[i].1, CountIn(ss, ms[i].0, ms[i].1))
  {
    var c := MonthlyCounts(ss);
    var r := seq(|ms|, i requires 0 <= i < |ms| => Bucket(ms[i].0, ms[i].1, CountOf(c, MonthKey(ms[i].0, ms[i].1))));
    assert forall i :: 0 <= i < |ms| ==> r[i].count == CountIn(ss, ms[i].0, ms[i].1) by {
      forall i | 0 <= i < |ms| ensures r[i].count == CountIn(ss, ms[i].0, ms[i].1) {
        MonthlyCountIsMonthCount(ss, ms[i].0, ms[i].1);
      }
    }
    r
  }

  /** Dropping dates outside a month does not change that month's count. */
  lemma {:induction false} CountInFilter(ss: seq<Stamp>, keep: Stamp -> bool, y: nat, m: nat)
    requires forall i :: 0 <= i < |ss| && InMonth(ss[i], y, m) ==> keep(ss[i])
    ensures CountIn(Filter(ss, keep), y, m) == CountIn(ss, y, m)
    decreases |ss|
  {
    if |ss| > 0 {
      CountInFilter(ss[1..], keep, y, m);
    }
  }

  /** Keeping only the dates that satisfy `keep` leaves no date in a month
      whose dates `keep` rejects. */
  lemma {:induction false} CountInFilterOut(ss: seq<Stamp>, keep: Stamp -> bool, y: nat, m: nat)
    requires forall i :: 0 <= i < |ss| && InMonth(ss[i], y, m) ==> !keep(ss[i])
    ensures CountIn(Filter(ss, keep), y, m) == 0
    decreases |ss|
  {
    if |ss| > 0 {
      CountInFilterOut(ss[1..], keep, y, m);
    }
  }
}

=== FILE: permissions.dfy ===
/** The permissions endpoint of the back end: which admin modules the
    current user may open. Administrators get every module; other users get
    their staff record's module permissions, normalised from a list of module
    names into a name-to-true map; without a staff record, or without
    permissions on it, only the dashboard. PHP arrays are ordered maps from
    integer-or-string keys to values, modelled as sequences of pairs. */
module Permissions {
  import opened Wrappers
  import opened Text

  /** A PHP array key. */
  datatype Key = IntKey(i: int) | StrKey(s: string)

  /** The values a decoded permissions column can hold. */
  datatype Value = NullVal | BoolVal(b: bool) | IntVal(n: int) | StrVal(text: string)

  /** An ordered PHP array. */
  type PhpArray = seq<(Key, Value)>

  function ArrayKeys(a: PhpArray): (r: seq<Key>)
    ensures |r| == |a| && forall i :: 0 <= i < |a| ==> r[i] == a[i].0
  {
    seq(|a|, i requires 0 <= i < |a| => a[i].0)
  }

  function ArrayValues(a: PhpArray): (r: seq<Value>)
    ensures |r| == |a| && forall i :: 0 <= i < |a| ==> r[i] == a[i].1
  {
    seq(|a|, i requires 0 <= i < |a| => a[i].1)
  }

  /** Every key occurs once, as in any PHP array. */
  predicate DistinctKeys(a: PhpArray) {
    forall i, j :: 0 <= i < j < |a| ==> a[i].0 != a[j].0
  }

  /** `$a[$k] ?? null` as an option. */
  function Lookup(a: PhpArray, k: Key): (r: Option<Value>)
    ensures r.Some? <==> k in ArrayKeys(a)
    ensures r.Some? ==> exists i :: 0 <= i < |a| && a[i] == (k, r.value)
    decreases |a|
  {
    if |a| == 0 then None
    else if a[0].0 == k then Some(a[0].1)
    else
      var r := Lookup(a[1..], k);
      assert k in ArrayKeys(a) <==> k in ArrayKeys(a[1..]) by {
        assert ArrayKeys(a) == [a[0].0] + ArrayKeys(a[1..]);
      }
      assert r.Some? ==> exists i :: 0 <= i < |a| && a[i] == (k, r.value) by {
        if r.Some? {
          var i :| 0 <= i < |a[1..]| && a[1..][i] == (k, r.value);
          assert a[i + 1] == (k, r.value);
        }
      }
      r
  }

  /** `array_values($a) === $a`: the keys are 0, 1, 2, … in order. */
  predicate IsList(a: PhpArray) {
    forall i :: 0 <= i < |a| ==> a[i].0 == IntKey(i)
  }

  /** The largest PHP integer on a 64-bit build. */
  const PhpIntMax: int := 0x7FFF_FFFF_FFFF_FFFF

  /** A string PHP turns into an integer key: a decimal integer without
      leading zeros or a plus sign, within the integer range. */
  predicate IsIntegerKeyText(s: string) {
    || (|s| > 0 && AllDigits(s) && (s == "0" || s[0] != '0') && ParseNat(s) <= PhpIntMax)
    || (|s| > 1 && s[0] == '-' && AllDigits(s[1..]) && s[1] != '0' && ParseNat(s[1..]) <= PhpIntMax + 1)
  }

  /** The key `array_fill_keys` makes of a value: an integer stays one, and
      anything else goes through its string form ("1" for true, "" for false
      and null), which becomes an integer key when it is integer text. */
  function KeyOf(v: Value): (k: Key)
    ensures v.StrVal? && !IsIntegerKeyText(v.text) ==> k == StrKey(v.text)
    ensures v.IntVal? ==> k == IntKey(v.n)
  {
    match v
    case NullVal => StrKey("")
    case BoolVal(b) => if b then IntKey(1) else StrKey("")
    case IntVal(n) => IntKey(n)
    case StrVal(s) =>
      if IsIntegerKeyText(s) then
        if s[0] == '-' then IntKey(-(ParseNat(s[1..]) as int)) else IntKey(ParseNat(s))
      else StrKey(s)
  }

  /** Every value keys as its string form would: true as "1", false and
      null as "", and an integer as its decimal text. */
  lemma KeyOfStringForm(n: nat)
    requires n <= PhpIntMax
    ensures KeyOf(BoolVal(true)) == KeyOf(StrVal("1"))
    ensures KeyOf(BoolVal(false)) == KeyOf(StrVal("")) == KeyOf(NullVal)
    ensures KeyOf(IntVal(n)) == KeyOf(StrVal(NatToString(n)))
  {
    NumberTextIsIntKey(1);
    NumberTextIsIntKey(n);
  }

  /** A name starting with a letter stays a string key. */
  lemma NameKeyIsString(s: string)
    requires |s| > 0 && !IsDigit(s[0]) && s[0] != '-'
    ensures KeyOf(StrVal(s)) == StrKey(s)
  {
  }

  /** The decimal text of a PHP integer becomes that integer as a key. */
  lemma NumberTextIsIntKey(n: nat)
    requires n <= PhpIntMax
    ensures KeyOf(StrVal(NatToString(n))) == IntKey(n)
  {
    ParseNatToString(n);
    var s := NatToString(n);
    if n < 10 {
      assert s == [DigitChar(n)];
    }
  }

  /** The position of key `k` in `a`, or `|a|` when it is absent. */
  function IndexOfKey(a: PhpArray, k: Key): (i: nat)
    ensures i <= |a|
    ensures i < |a| ==> a[i].0 == k
    ensures forall j :: 0 <= j < i ==> a[j].0 != k
    decreases |a|
  {
    if |a| == 0 then 0
    else if a[0].0 == k then 0
    else
      var i := IndexOfKey(a[1..], k);
      assert forall j :: 1 <= j < i + 1 ==> a[j] == a[1..][j - 1];
      i + 1
  }

  /** `$a[$k] = $v`: overwrites the entry of `k` in place, or appends one. */
  function Put(a: PhpArray, k: Key, v: Value): (r: PhpArray)
    requires DistinctKeys(a)
    ensures DistinctKeys(r)
    ensures k !in ArrayKeys(a) ==> r == a + [(k, v)]
    ensures k in ArrayKeys(a) ==> exists i :: 0 <= i < |a| && a[i].0 == k && r == a[i := (k, v)]
    ensures forall x :: x in ArrayKeys(r) <==> x in ArrayKeys(a) || x == k
    ensures (forall i :: 0 <= i < |a| ==> a[i].1 == v) ==> forall i :: 0 <= i < |r| ==> r[i].1 == v
  {
    var i := IndexOfKey(a, k);
    if i < |a| then
      assert k in ArrayKeys(a) by { assert ArrayKeys(a)[i] == k; }
      var r := a[i := (k, v)];
      assert ArrayKeys(r) == ArrayKeys(a);
      r
    else
      assert k !in ArrayKeys(a);
      var r := a + [(k, v)];
      assert ArrayKeys(r) == ArrayKeys(a) + [k];
      r
  }

  /** Some value of `values` becomes key `k`. */
  predicate Listed(values: seq<Value>, k: Key) {
    exists j :: 0 <= j < |values| && KeyOf(values[j]) == k
  }

  lemma ListedSnoc(values: seq<Value>, k: Key)
    requires |values| > 0
    ensures Listed(values, k) <==> Listed(values[..|values| - 1], k) || k == KeyOf(values[|values| - 1])
  {
    var init := values[..|values| - 1];
    if Listed(values, k) {
      var j :| 0 <= j < |values| && KeyOf(values[j]) == k;
      if j < |init| {
        assert KeyOf(init[j]) == k;
      }
    }
    if Listed(init, k) {
      var j :| 0 <= j < |init| && KeyOf(init[j]) == k;
      assert KeyOf(values[j]) == k;
    }
  }

  /** `array_fill_keys($values, true)`: every value becomes a key mapped to
      true, in order of first appearance, each key once. */
  function FillKeys(values: seq<Value>): (r: PhpArray)
    ensures DistinctKeys(r)
    ensures forall i :: 0 <= i < |r| ==> r[i].1 == BoolVal(true)
    ensures forall k :: k in ArrayKeys(r) <==> Listed(values, k)
    decreases |values|
  {
    if |values| == 0 then []
    else
      var init := values[..|values| - 1];
      var last := values[|values| - 1];
      var prev := FillKeys(init);
      var r := Put(prev, KeyOf(last), BoolVal(true));
      assert forall k :: Listed(values, k) <==> Listed(init, k) || k == KeyOf(last) by {
        forall k ensures Listed(values, k) <==> Listed(init, k) || k == KeyOf(last) {
          ListedSnoc(values, k);
        }
      }
      r
  }

  /** Filling a list of module names grants exactly the listed modules. */
  lemma FillKeysGrantsListed(values: seq<Value>, k: Key)
    ensures Lookup(FillKeys(values), k) == Some(BoolVal(true)) <==> Listed(values, k)
    ensures Lookup(FillKeys(values), k).None? <==> !Listed(values, k)
  {
    var r := FillKeys(values);
    var l := Lookup(r, k);
    if l.Some? {
      var i :| 0 <= i < |r| && r[i] == (k, l.value);
    }
  }

  /** A repeated module name is granted once. */
  lemma FillKeysCollapsesRepeats(name: string)
    requires |name| > 0 && !IsDigit(name[0]) && name[0] != '-'
    ensures FillKeys([StrVal(name), StrVal(name)]) == [(StrKey(name), BoolVal(true))]
  {
    NameKeyIsString(name);
    var once := [StrVal(name)];
    assert [StrVal(name), StrVal(name)][..1] == once;
    assert once[..0] == [];
    var k := StrKey(name);
    assert FillKeys(once) == [(k, BoolVal(true))];
    assert IndexOfKey([(k, BoolVal(true))], k) == 0;
  }

  // ---------------------------------------------------------------------
  // The endpoint

  /** The modules an administrator may open, in the order they are listed. */
  const AdminModules: seq<string> := [
    "dashboard", "residentsRecords", "documentsRecords", "householdRecords",
    "blotterRecords", "financialTracking", "barangayOfficials", "staff",
    "communicationAnnouncement", "projectManagement", "socialServices",
    "disasterEmergency", "inventoryAssets", "activityLogs"]

  function Granting(names: seq<string>): (r: PhpArray)
    ensures |r| == |names| && forall i :: 0 <= i < |names| ==> r[i] == (StrKey(names[i]), BoolVal(true))
  {
    seq(|names|, i requires 0 <= i < |names| => (StrKey(names[i]), BoolVal(true)))
  }

  /** An administrator's permissions: every module, granted. */
  function AdminPermissions(): PhpArray {
    Granting(AdminModules)
  }

  /** The default: only the dashboard. */
  function DashboardOnly(): PhpArray {
    [(StrKey("dashboard"), BoolVal(true))]
  }

  /** The `module_permissions` column of a staff record as decoded. */
  datatype ModulePermissions = NullPermissions | ArrayPermissions(entries: PhpArray) | ScalarPermissions(value: Value)

  /** The staff-record query: it failed with an exception message, found
      no record, or found one. */
  datatype StaffLookup = LookupFailed(error: string) | NoStaff | Found(permissions: ModulePermissions)

  /** The permissions as sent: an array, or whatever scalar the column held. */
  datatype Sent = SentArray(entries: PhpArray) | SentScalar(value: Value)

  /** The JSON response: a message with the permissions (status 200), or an
      error with its status. */
  datatype Reply = Granted(message: string, permissions: Sent) | Failed(status: nat, message: string, error: string)

  const AdminMessage: string := "Admin permissions retrieved successfully"
  const NoStaffMessage: string := "Staff record not found"
  const StaffMessage: string := "Permissions retrieved successfully"
  const ErrorMessage: string := "Error retrieving permissions"
  const HiddenError: string := "Internal server error"

  /** A staff record's permissions as sent: the dashboard alone when null,
      a list of names turned into a name-to-true map, anything else as is. */
  function Normalise(p: ModulePermissions): (r: Sent)
    ensures p.NullPermissions? ==> r == SentArray(DashboardOnly())
    ensures p.ScalarPermissions? ==> r == SentScalar(p.value)
    ensures p.ArrayPermissions? && !IsList(p.entries) ==> r == SentArray(p.entries)
    ensures p.ArrayPermissions? && IsList(p.entries) ==> r.SentArray? && DistinctKeys(r.entries)
  {
    match p
    case NullPermissions => SentArray(DashboardOnly())
    case ArrayPermissions(a) => if IsList(a) then SentArray(FillKeys(ArrayValues(a))) else SentArray(a)
    case ScalarPermissions(v) => SentScalar(v)
  }

  /** `getPermissions` for a user with the given role. The staff lookup is
      not made for an administrator. */
  function GetPermissions(role: Option<string>, lookup: StaffLookup, debug: bool): (r: Reply)
    ensures r.Failed? <==> role != Some("admin") && lookup.LookupFailed?
    ensures r.Failed? ==> r.status == 500 && r.message == ErrorMessage && r.error == (if debug then lookup.error else HiddenError)
    ensures role == Some("admin") ==> r == Granted(AdminMessage, SentArray(AdminPermissions()))
    ensures role != Some("admin") && lookup.NoStaff? ==> r == Granted(NoStaffMessage, SentArray(DashboardOnly()))
    ensures role != Some("admin") && lookup.Found? ==> r == Granted(StaffMessage, Normalise(lookup.permissions))
  {
    if role == Some("admin") then Granted(AdminMessage, SentArray(AdminPermissions()))
    else match lookup
      case LookupFailed(e) => Failed(500, ErrorMessage, if debug then e else HiddenError)
      case NoStaff => Granted(NoStaffMessage, SentArray(DashboardOnly()))
      case Found(p) => Granted(StaffMessage, Normalise(p))
  }

  /** Granting a list of names grants exactly those names. */
  lemma GrantingLookup(names: seq<string>, k: Key)
    ensures Lookup(Granting(names), k) == (if k.StrKey? && k.s in names then Some(BoolVal(true)) else None)
  {
    var a := Granting(names);
    var l := Lookup(a, k);
    assert l.Some? ==> k.StrKey? && k.s in names && l.value == BoolVal(true) by {
      if l.Some? {
        var j :| 0 <= j < |a| && a[j] == (k, l.value);
        assert names[j] == k.s;
      }
    }
    if k.StrKey? && k.s in names {
      var i :| 0 <= i < |names| && names[i] == k.s;
      assert ArrayKeys(a)[i] == k;
    }
  }

  lemma AdminModulesDistinct()
    ensures forall i, j :: 0 <= i < j < |AdminModules| ==> AdminModules[i] != AdminModules[j]
  {
  }

  /** An administrator is granted each of the fourteen modules, and nothing else. */
  lemma AdminGrantsEveryModule(k: Key)
    ensures |AdminPermissions()| == 14 && DistinctKeys(AdminPermissions())
    ensures Lookup(AdminPermissions(), k) == (if k.StrKey? && k.s in AdminModules then Some(BoolVal(true)) else None)
  {
    AdminModulesDistinct();
    GrantingLookup(AdminModules, k);
  }

  /** Only the dashboard is granted when no staff record or no permissions exist. */
  lemma DashboardByDefault(role: Option<string>, lookup: StaffLookup, debug: bool)
    requires role != Some("admin")
    requires lookup.NoStaff? || lookup == Found(NullPermissions)
    ensures var r := GetPermissions(role, lookup, debug);
      && r.Granted? && r.permissions.SentArray?
      && Lookup(r.permissions.entries, StrKey("dashboard")) == Some(BoolVal(true))
      && |r.permissions.entries| == 1
  {
  }

  /** A staff member whose record lists module names is granted exactly
      the modules named, and nothing else. */
  lemma ListedModulesAreGranted(role: Option<string>, list: PhpArray, debug: bool, k: Key)
    requires role != Some("admin") && IsList(list)
    ensures var r := GetPermissions(role, Found(ArrayPermissions(list)), debug);
      && r == Granted(StaffMessage, SentArray(FillKeys(ArrayValues(list))))
      && (Lookup(r.permissions.entries, k) == Some(BoolVal(true)) <==> exists j :: 0 <= j < |list| && KeyOf(list[j].1) == k)
      && (Lookup(r.permissions.entries, k).None? <==> !exists j :: 0 <= j < |list| && KeyOf(list[j].1) == k)
  {
    FillKeysGrantsListed(ArrayValues(list), k);
    ListedValues(list, k);
  }

  lemma ListedValues(list: PhpArray, k: Key)
    ensures Listed(ArrayValues(list), k) <==> exists j :: 0 <= j < |list| && KeyOf(list[j].1) == k
  {
    var values := ArrayValues(list);
    if exists j :: 0 <= j < |list| && KeyOf(list[j].1) == k {
      var j :| 0 <= j < |list| && KeyOf(list[j].1) == k;
      assert KeyOf(values[j]) == k;
    }
  }

  /** The exception message reaches the client only in debug mode. */
  lemma ErrorDetailNeedsDebug(role: Option<string>, e: string)
    requires role != Some("admin")
    ensures GetPermissions(role, LookupFailed(e), false) == Failed(500, ErrorMessage, HiddenError)
    ensures GetPermissions(role, LookupFailed(e), true) == Failed(500, ErrorMessage, e)
  {
  }
}

=== FILE: register.dfy ===
/** Account registration: the password-strength report, the mobile-number
    check, the order in which the submit handler rejects a form, the full
    name it sends, and the five-minute countdown of the email-verification
    step with its "m:ss" display. */
module Registration {
  import opened Wrappers
  import opened Text
  import opened Calendar

  /** The characters the special-character class of the strength check accepts. */
  const SpecialChars: string := "!@#$%^&*()_+-=[]{};':\"\\|,.<>/?"

  predicate IsSpecialChar(c: char) {
    c in SpecialChars
  }

  /** Some character of `s` satisfies `p` (`/[…]/.test(s)` for a one-character class). */
  function HasCharWhere(s: string, p: char -> bool): (b: bool)
    ensures b <==> exists i :: 0 <= i < |s| && p(s[i])
    decreases |s|
  {
    if |s| == 0 then false
    else if p(s[0]) then true
    else
      var b := HasCharWhere(s[1..], p);
      assert b ==> exists i :: 0 <= i < |s| && p(s[i]) by {
        if b {
          var i :| 0 <= i < |s[1..]| && p(s[1..][i]);
          assert p(s[i + 1]);
        }
      }
      b
  }

  /** What the strength check reports about a password. */
  datatype PasswordReport = PasswordReport(
    isValid: bool,
    minLength: bool,
    hasUppercase: bool,
    hasLowercase: bool,
    hasNumber: bool,
    hasSpecialChar: bool)

  /** The strength check: at least 8 UTF-16 code units, and at least one
      upper-case letter, one lower-case letter, one digit and one special
      character. */
  function ValidatePassword(pw: string): (r: PasswordReport)
    ensures r.minLength <==> Utf16Length(pw) >= 8
    ensures r.hasUppercase <==> exists i :: 0 <= i < |pw| && IsUpperAscii(pw[i])
    ensures r.hasLowercase <==> exists i :: 0 <= i < |pw| && IsLowerAscii(pw[i])
    ensures r.hasNumber <==> exists i :: 0 <= i < |pw| && IsDigit(pw[i])
    ensures r.hasSpecialChar <==> exists i :: 0 <= i < |pw| && IsSpecialChar(pw[i])
    ensures r.isValid <==> r.minLength && r.hasUppercase && r.hasLowercase && r.hasNumber && r.hasSpecialChar
  {
    var minLength := Utf16Length(pw) >= 8;
    var upper := HasCharWhere(pw, IsUpperAscii);
    var lower := HasCharWhere(pw, IsLowerAscii);
    var digit := HasCharWhere(pw, IsDigit);
    var special := HasCharWhere(pw, IsSpecialChar);
    PasswordReport(minLength && upper && lower && digit && special, minLength, upper, lower, digit, special)
  }

  /** Adding characters to a strong password keeps it strong. */
  lemma StrengthIsMonotone(pw: string, more: string)
    requires ValidatePassword(pw).isValid
    ensures ValidatePassword(pw + more).isValid
  {
    var t := pw + more;
    Utf16LengthAppend(pw, more);
    var a :| 0 <= a < |pw| && IsUpperAscii(pw[a]);
    var b :| 0 <= b < |pw| && IsLowerAscii(pw[b]);
    var c :| 0 <= c < |pw| && IsDigit(pw[c]);
    var d :| 0 <= d < |pw| && IsSpecialChar(pw[d]);
    assert t[a] == pw[a] && t[b] == pw[b] && t[c] == pw[c] && t[d] == pw[d];
    StrongByWitnesses(t, a, b, c, d);
  }

  /** One password that meets every rule, one that is too short and one
      without an upper-case letter. */
  lemma StrongPasswordExamples()
    ensures ValidatePassword("Passw0rd!").isValid
    ensures !ValidatePassword("Pass0!").isValid
    ensures !ValidatePassword("password1!").isValid
  {
    StrongExample();
    ShortExample();
    NoUpperCaseExample();
  }

  lemma StrongExample()
    ensures ValidatePassword("Passw0rd!").isValid
  {
    StrongSample("Passw0rd!");
  }

  /** The sample, taken as a parameter so that its flags are read off the
      contracts instead of by evaluating the check on the literal. */
  lemma StrongSample(p: string)
    requires p == "Passw0rd!"
    ensures ValidatePassword(p).isValid
  {
    assert forall i :: 0 <= i < |p| ==> IsBmp(p[i]);
    StrongByWitnesses(p, 0, 1, 5, 8);
  }

  /** Eight code units and one character of each class make a strong password. */
  lemma StrongByWitnesses(pw: string, u: nat, l: nat, d: nat, c: nat)
    requires Utf16Length(pw) >= 8 && u < |pw| && l < |pw| && d < |pw| && c < |pw|
    requires IsUpperAscii(pw[u]) && IsLowerAscii(pw[l]) && IsDigit(pw[d]) && IsSpecialChar(pw[c])
    ensures ValidatePassword(pw).isValid
  {
  }

  lemma ShortExample()
    ensures !ValidatePassword("Pass0!").isValid
  {
    var p := "Pass0!";
    assert forall i :: 0 <= i < |p| ==> IsBmp(p[i]);
  }

  lemma NoUpperCaseExample()
    ensures !ValidatePassword("password1!").isValid
  {
    var q := "password1!";
    assert forall i :: 0 <= i < |q| ==> !IsUpperAscii(q[i]);
  }

  /** The length rule counts UTF-16 code units: four characters from outside
      the Basic Multilingual Plane already make eight. */
  lemma AstralCharactersCountTwice()
    ensures var pw := "\U{1F600}\U{1F600}\U{1F600}\U{1F600}";
      |pw| == 4 && ValidatePassword(pw).minLength
  {
    var pw := "\U{1F600}\U{1F600}\U{1F600}\U{1F600}";
    assert !IsBmp(pw[0]);
    assert Utf16Length(pw) == 2 + Utf16Length(pw[1..]);
  }

  /** `^09[0-9]{9}$`, matched from the anchored start. */
  predicate MatchesMobilePattern(s: string) {
    |s| >= 2 && s[0] == '0' && s[1] == '9' && ExactlyDigits(s[2..], 9)
  }

  /** `[0-9]{n}$`: exactly `n` digits and then the end. */
  predicate ExactlyDigits(s: string, n: nat)
    decreases n
  {
    if n == 0 then |s| == 0 else |s| > 0 && IsDigit(s[0]) && ExactlyDigits(s[1..], n - 1)
  }

  lemma {:induction false} ExactlyDigitsMeans(s: string, n: nat)
    ensures ExactlyDigits(s, n) <==> |s| == n && AllDigits(s)
    decreases n
  {
    if n > 0 && |s| > 0 {
      ExactlyDigitsMeans(s[1..], n - 1);
    }
  }

  /** The mobile-number check of the submit handler and the live hint: length
      11, the prefix "09", and the pattern. */
  predicate ContactNumberOk(s: string) {
    Utf16Length(s) == 11 && StartsWith(s, "09") && MatchesMobilePattern(s)
  }

  /** The three tests amount to the pattern alone: eleven digits starting
      with "09". */
  lemma ContactNumberOkMeans(s: string)
    ensures ContactNumberOk(s) <==> MatchesMobilePattern(s)
    ensures ContactNumberOk(s) <==> |s| == 11 && s[..2] == "09" && AllDigits(s)
  {
    if |s| >= 2 {
      ExactlyDigitsMeans(s[2..], 9);
      if |s| == 11 && s[..2] == "09" && AllDigits(s) {
        assert forall i :: 0 <= i < 9 ==> s[2..][i] == s[i + 2];
        DigitsAreBmp(s);
      }
      if MatchesMobilePattern(s) {
        assert forall i :: 2 <= i < |s| ==> s[i] == s[2..][i - 2];
        assert s[..2] == "09";
        assert AllDigits(s);
        DigitsAreBmp(s);
      }
    }
  }

  /** The hint under the mobile-number field: none while the field is empty,
      otherwise whether the number passes. */
  function ContactHint(s: string): (r: Option<bool>)
    ensures r.None? <==> s == ""
    ensures r.Some? ==> (r.value <==> ContactNumberOk(s))
  {
    if s == "" then None else Some(ContactNumberOk(s))
  }

  /** The birth-date field as `new Date(...)` reads it. */
  datatype BirthInput = BirthEmpty | BirthUnparseable | BirthOn(date: CalendarDate)

  /** The registration form, as far as the submit handler inspects it. */
  datatype RegistrationForm = RegistrationForm(
    firstName: string,
    middleName: string,
    lastName: string,
    nameSuffix: string,
    contactNumber: string,
    password: string,
    confirmPassword: string,
    termsAccepted: bool,
    privacyPolicyAccepted: bool,
    birthDate: BirthInput)

  /** The reasons the submit handler turns a form down, in the order it checks them. */
  datatype SubmitError =
    | PasswordMismatch
    | TermsNotAccepted
    | PrivacyNotAccepted
    | InvalidContactNumber
    | BirthDateNotPast
    | WeakPassword

  /** The position of each check in the handler. */
  function Rank(e: SubmitError): nat {
    match e
    case PasswordMismatch => 0
    case TermsNotAccepted => 1
    case PrivacyNotAccepted => 2
    case InvalidContactNumber => 3
    case BirthDateNotPast => 4
    case WeakPassword => 5
  }

  /** The message shown for each rejection. */
  function ErrorMessage(e: SubmitError): string {
    match e
    case PasswordMismatch => "Passwords do not match."
    case TermsNotAccepted => "You must accept the terms and conditions."
    case PrivacyNotAccepted => "You must accept the privacy policy to register."
    case InvalidContactNumber => "Mobile number must be exactly 11 digits and start with 09."
    case BirthDateNotPast => "Birth date must be in the past (not today or future)."
    case WeakPassword => "Password must be at least 8 characters long, include an uppercase letter, a lowercase letter, a number, and a special character."
  }

  /** The condition under which each single check fails, on its own. */
  predicate Fails(f: RegistrationForm, today: CalendarDate, e: SubmitError) {
    match e
    case PasswordMismatch => f.password != f.confirmPassword
    case TermsNotAccepted => !f.termsAccepted
    case PrivacyNotAccepted => !f.privacyPolicyAccepted
    case InvalidContactNumber => !ContactNumberOk(f.contactNumber)
    case BirthDateNotPast => f.birthDate.BirthOn? && !DateBefore(f.birthDate.date, today)
    case WeakPassword => !ValidatePassword(f.password).isValid
  }

  /** The submit handler's verdict on a form, `today` being the current day:
      the first failing check in handler order, or none. */
  function SubmitCheck(f: RegistrationForm, today: CalendarDate): (r: Option<SubmitError>)
    ensures r.None? <==> forall e :: !Fails(f, today, e)
    ensures r.Some? ==> Fails(f, today, r.value)
    ensures r.Some? ==> forall e :: Rank(e) < Rank(r.value) ==> !Fails(f, today, e)
  {
    var r :=
      if f.password != f.confirmPassword then Some(PasswordMismatch)
      else if !f.termsAccepted then Some(TermsNotAccepted)
      else if !f.privacyPolicyAccepted then Some(PrivacyNotAccepted)
      else if !ContactNumberOk(f.contactNumber) then Some(InvalidContactNumber)
      else if f.birthDate.BirthOn? && !DateBefore(f.birthDate.date, today) then Some(BirthDateNotPast)
      else if !ValidatePassword(f.password).isValid then Some(WeakPassword)
      else None;
    assert r.Some? ==> Fails(f, today, r.value);
    assert forall e :: (r.None? || Rank(e) < Rank(r.value)) ==> !Fails(f, today, e);
    r
  }

  /** A birth date that is empty or cannot be parsed never blocks the
      submission: only a parsed date on or after today does. */
  lemma UnreadableBirthDateIsAccepted(f: RegistrationForm, today: CalendarDate)
    requires !f.birthDate.BirthOn?
    ensures SubmitCheck(f, today) != Some(BirthDateNotPast)
  {
  }

  /** The space-joined full name sent with the registration: first, middle
      when given, last, and the suffix unless it is "none", then trimmed. */
  function ComposeName(first: string, middle: string, last: string, suffix: string): (r: string)
    ensures Trim(r) == r
    ensures |r| > 0 ==> !IsJsSpace(r[0]) && !IsJsSpace(r[|r| - 1])
  {
    var m := if middle != "" then middle + " " else "";
    var x := if suffix != "" && suffix != "none" then " " + suffix else "";
    var r := Trim(first + " " + m + last + x);
    TrimIsIdempotent(first + " " + m + last + x);
    r
  }

  /** A word: non-empty and free of white space at both ends. */
  predicate IsWord(s: string) {
    |s| > 0 && !IsJsSpace(s[0]) && !IsJsSpace(s[|s| - 1])
  }

  /** With words for every part the name is the parts joined by single
      spaces, the suffix "none" and an empty middle name being skipped. */
  lemma ComposeNameOfWords(first: string, middle: string, last: string, suffix: string)
    requires IsWord(first) && IsWord(last)
    requires middle == "" || IsWord(middle)
    requires suffix == "" || suffix == "none" || IsWord(suffix)
    ensures ComposeName(first, middle, last, suffix)
      == first + " " + (if middle != "" then middle + " " else "") + last
         + (if suffix != "" && suffix != "none" then " " + suffix else "")
  {
    var m := if middle != "" then middle + " " else "";
    var x := if suffix != "" && suffix != "none" then " " + suffix else "";
    var s := first + " " + m + last + x;
    assert s[0] == first[0];
    assert s[|s| - 1] == (if x == "" then last[|last| - 1] else suffix[|suffix| - 1]);
    TrimOfTrimmed(s);
  }

  /** Minutes, a colon, and the seconds padded to two digits. */
  function Clock(mins: nat, secs: nat): (r: string)
    requires secs < 60
    ensures |r| >= 4 && r[|r| - 3] == ':'
    ensures AllDigits(r[..|r| - 3]) && AllDigits(r[|r| - 2..])
    ensures ParseNat(r[|r| - 2..]) == secs
  {
    var m := NatToString(mins);
    var p := PadTwo(secs);
    ColonSplits(m, p);
    m + ":" + p
  }

  /** Joining `m` and a two-character `p` with a colon puts the colon third
      from the end, with `m` before it and `p` after it. */
  lemma ColonSplits(m: string, p: string)
    requires |p| == 2 && AllDigits(m) && AllDigits(p)
    ensures var r := m + ":" + p;
      && |r| == |m| + 3 && r[|r| - 3] == ':'
      && AllDigits(r[..|r| - 3]) && AllDigits(r[|r| - 2..])
      && ParseNat(r[|r| - 2..]) == ParseNat(p)
  {
    var r := m + ":" + p;
    assert r[..|r| - 3] == m && r[|r| - 2..] == p;
  }

  /** `m:ss`: whole minutes, a colon, and the seconds padded to two digits. */
  function FormatTime(seconds: nat): string {
    Clock(seconds / 60, seconds % 60)
  }

  /** Reads "m:ss" back as a number of seconds. */
  function ParseClock(t: string): Option<nat> {
    var i := FindChar(t, ':');
    if i == |t| then None
    else
      var mins := t[..i];
      var secs := t[i + 1..];
      if |mins| > 0 && |secs| == 2 && AllDigits(mins) && AllDigits(secs)
      then Some(ParseNat(mins) * 60 + ParseNat(secs))
      else None
  }

  /** Digits, a colon and two digits read as minutes and seconds. */
  lemma ParseClockOfParts(m: string, p: string, mins: nat, secs: nat)
    requires |m| > 0 && AllDigits(m) && |p| == 2 && AllDigits(p)
    requires ParseNat(m) == mins && ParseNat(p) == secs
    ensures ParseClock(m + ":" + p) == Some(mins * 60 + secs)
  {
    assert forall j :: 0 <= j < |m| ==> m[j] != ':';
    SplitAtChar(m, p, ':');
  }

  /** A clock display reads back as the time it shows. */
  lemma ClockRoundTrip(mins: nat, secs: nat)
    requires secs < 60
    ensures ParseClock(Clock(mins, secs)) == Some(mins * 60 + secs)
  {
    ParseNatToString(mins);
    ParseClockOfParts(NatToString(mins), PadTwo(secs), mins, secs);
  }

  /** The display reads back as the number of seconds it shows. */
  lemma FormatTimeRoundTrip(seconds: nat)
    ensures ParseClock(FormatTime(seconds)) == Some(seconds)
  {
    MinutesAndSeconds(seconds);
    ClockReadsBack(seconds / 60, seconds % 60, seconds);
  }

  /** A clock showing `mins` and `secs` reads back as any `n` they make up. */
  lemma ClockReadsBack(mins: nat, secs: nat, n: nat)
    requires secs < 60 && mins * 60 + secs == n
    ensures ParseClock(Clock(mins, secs)) == Some(n)
  {
    ClockRoundTrip(mins, secs);
  }

  lemma MinutesAndSeconds(n: nat)
    ensures (n / 60) * 60 + n % 60 == n
  {
  }

  /** Five minutes show as "5:00". */
  lemma FormatFiveMinutes()
    ensures FormatTime(300) == "5:00"
  {
    assert 300 / 60 == 5 && 300 % 60 == 0;
    assert NatToString(5) == "5";
    assert PadTwo(0) == "00" by {
      assert NatToString(0) == "0";
      assert PadStart("0", 2, '0') == "00";
    }
    assert "5" + ":" + "00" == "5:00";
    assert Clock(5, 0) == "5:00";
    assert FormatTime(300) == Clock(5, 0);
  }

  /** In the last minute the display is "0:" and the seconds, two digits
      from 0:59 down to 0:10. */
  lemma FormatLastMinute(n: nat)
    requires 10 <= n < 60
    ensures FormatTime(n) == "0:" + NatToString(n)
  {
    UnderAMinute(n);
    assert |NatToString(n)| == 2 by {
      assert NatToString(n) == NatToString(n / 10) + [DigitChar(n % 10)];
    }
  }

  /** Under a minute the display is "0:" and the seconds padded to two digits. */
  lemma UnderAMinute(n: nat)
    requires n < 60
    ensures FormatTime(n) == "0:" + PadTwo(n)
  {
    NoWholeMinute(n);
    ZeroMinutes();
  }

  lemma NoWholeMinute(n: nat)
    requires n < 60
    ensures FormatTime(n) == NatToString(0) + ":" + PadTwo(n)
  {
    assert n / 60 == 0 && n % 60 == n;
  }

  lemma ZeroMinutes()
    ensures NatToString(0) + ":" == "0:"
  {
    assert NatToString(0) == "0";
  }

  /** The verification countdown: seconds left and whether it is running. */
  datatype Timer = Timer(timeLeft: int, running: bool)

  /** Five minutes, the length of a code's life. */
  const CodeLifetime: nat := 300

  const InitialTimer: Timer := Timer(CodeLifetime, false)

  /** One run of the timer effect followed by the interval firing: a running
      timer with time left counts down one second; a timer at zero stops. */
  function Tick(t: Timer): (r: Timer)
    ensures t.running && t.timeLeft > 0 ==> r == Timer(t.timeLeft - 1, true)
    ensures t.timeLeft == 0 ==> r == Timer(0, false)
    ensures !t.running && t.timeLeft != 0 ==> r == t
  {
    if t.running && t.timeLeft > 0 then Timer(t.timeLeft - 1, true)
    else if t.timeLeft == 0 then Timer(0, false)
    else t
  }

  /** The countdown after `n` seconds. */
  function RunSeconds(t: Timer, n: nat): Timer
    decreases n
  {
    if n == 0 then t else RunSeconds(Tick(t), n - 1)
  }

  /** From `k` seconds left and running, after `n` seconds the display shows
      `max(0, k - n)`, and the timer is still running until one second after
      it reached zero. */
  lemma {:induction false} CountdownProgress(k: nat, n: nat)
    ensures RunSeconds(Timer(k, true), n).timeLeft == if n <= k then k - n else 0
    ensures RunSeconds(Timer(k, true), n).running <==> n <= k
    decreases n
  {
    if n > 0 {
      if k > 0 {
        CountdownProgress(k - 1, n - 1);
      } else {
        StoppedStaysStopped(n - 1);
      }
    }
  }

  /** A stopped timer at zero stays so. */
  lemma {:induction false} StoppedStaysStopped(n: nat)
    ensures RunSeconds(Timer(0, false), n) == Timer(0, false)
    decreases n
  {
    if n > 0 {
      StoppedStaysStopped(n - 1);
    }
  }

  /** What changes the countdown. */
  datatype TimerEvent =
    | Second
    | RegisteredNeedingCode
    | CodeResent
    | BackToRegistration
    | CodeExpired

  /** The countdown after one event: a new or resent code restarts five
      minutes, going back to the form parks it at ten minutes, and an
      expired-code reply stops it. */
  function OnTimerEvent(t: Timer, e: TimerEvent): (r: Timer)
    ensures e.RegisteredNeedingCode? || e.CodeResent? ==> r == Timer(CodeLifetime, true)
    ensures e.BackToRegistration? ==> r == Timer(600, false)
    ensures e.CodeExpired? ==> r == t.(running := false)
  {
    match e
    case Second => Tick(t)
    case RegisteredNeedingCode => Timer(CodeLifetime, true)
    case CodeResent => Timer(CodeLifetime, true)
    case BackToRegistration => Timer(600, false)
    case CodeExpired => t.(running := false)
  }

  /** The countdown never goes below zero nor above ten minutes. */
  predicate TimerInRange(t: Timer) {
    0 <= t.timeLeft <= 600
  }

  lemma TimerStaysInRange(t: Timer, e: TimerEvent)
    requires TimerInRange(t)
    ensures TimerInRange(OnTimerEvent(t, e))
    ensures e.Second? ==> OnTimerEvent(t, e).timeLeft <= t.timeLeft
  {
  }

  /** The Verify button is disabled exactly when no time is left. */
  predicate VerifyDisabled(t: Timer) {
    t.timeLeft == 0
  }

  /** The Resend button appears exactly when no time is left. */
  predicate ResendShown(t: Timer) {
    t.timeLeft == 0
  }

  /** Five minutes after a code was sent, verifying is disabled and resending
      offered; a second earlier neither. */
  lemma CodeExpiresAfterFiveMinutes()
    ensures var t := RunSeconds(OnTimerEvent(InitialTimer, RegisteredNeedingCode), CodeLifetime);
      VerifyDisabled(t) && ResendShown(t)
    ensures var t := RunSeconds(OnTimerEvent(InitialTimer, RegisteredNeedingCode), CodeLifetime - 1);
      !VerifyDisabled(t) && !ResendShown(t)
  {
    CountdownProgress(CodeLifetime, CodeLifetime);
    CountdownProgress(CodeLifetime, CodeLifetime - 1);
  }

  /** The line under the clock, and whether the clock is shown in red. */
  function TimerCaption(t: Timer): (r: (string, bool))
    ensures r.0 == "Code expired" <==> t.timeLeft <= 0
    ensures r.1 <==> t.timeLeft <= 60
  {
    (if t.timeLeft > 0 then "Time remaining (5 minutes)" else "Code expired", t.timeLeft <= 60)
  }
}

=== FILE: residency.dfy ===
/** The residency-verification step of a resident's account: which
    verification status and document the screen believes in, which of the
    three steps (upload, under review, approved) it shows, how it reacts to
    fresh readings of the status, when it raises the "Verification
    Approved!" notice, and which panel it renders. */
module Residency {
  import opened Wrappers
  import opened Seqs

  const ApprovedText: string := "approved"
  const DeniedText: string := "denied"
  const PendingText: string := "pending"

  /** One source of verification data: the `form` prop, the profile data from
      context, or the signed-in user's profile. */
  datatype Source = Source(status: Option<string>, image: Option<string>, denialReason: Option<string>)

  /** What the screen holds: its loading flag, the locally set status and
      image path, and the three sources (`user?.profile` may be absent). */
  datatype Screen = Screen(
    loading: bool,
    overrideStatus: Option<string>,
    uploadedImage: Option<string>,
    form: Source,
    profile: Source,
    user: Option<Source>)

  /** `user?.profile?.verification_status`. */
  function UserStatus(s: Screen): Option<string> {
    if s.user.Some? then s.user.value.status else None
  }

  /** `user?.profile?.residency_verification_image`. */
  function UserImage(s: Screen): Option<string> {
    if s.user.Some? then s.user.value.image else None
  }

  /** The status the screen acts on: the local override, else the form's,
      else the profile data's, else the user profile's. */
  function Status(s: Screen): (r: Option<string>)
    ensures s.overrideStatus.Some? ==> r == s.overrideStatus
    ensures s.overrideStatus.None? && s.form.status.Some? ==> r == s.form.status
    ensures s.overrideStatus.None? && s.form.status.None? && s.profile.status.Some? ==> r == s.profile.status
    ensures s.overrideStatus.None? && s.form.status.None? && s.profile.status.None? ==> r == UserStatus(s)
  {
    OrElse(s.overrideStatus, OrElse(s.form.status, OrElse(s.profile.status, UserStatus(s))))
  }

  /** The status the approval and loading effects look at, which leaves the
      user profile out. */
  function TrackedStatus(s: Screen): (r: Option<string>)
    ensures r.Some? ==> r == s.overrideStatus || r == s.form.status || r == s.profile.status
    ensures r.None? <==> s.overrideStatus.None? && s.form.status.None? && s.profile.status.None?
  {
    OrElse(s.overrideStatus, OrElse(s.form.status, s.profile.status))
  }

  /** When the profile data is the user's profile (as the context supplies
      it), leaving the user profile out changes nothing. */
  lemma TrackedStatusAgrees(s: Screen)
    requires s.user == Some(s.profile)
    ensures Status(s) == TrackedStatus(s)
  {
  }

  /** The document path the screen shows: none at all once the status is
      denied, otherwise the first of the uploaded, form and profile paths. */
  function EffectiveImage(s: Screen): (r: Option<string>)
    ensures Status(s) == Some(DeniedText) ==> r.None?
    ensures r.Some? ==> r == s.uploadedImage || r == s.form.image || r == s.profile.image
    ensures r.None? <==> Status(s) == Some(DeniedText) || (s.uploadedImage.None? && s.form.image.None? && s.profile.image.None?)
  {
    if Status(s) == Some(DeniedText) then None
    else
      OrElse(s.uploadedImage, OrElse(s.form.image, s.profile.image))
  }

  /** Some source holds a non-empty document path. */
  predicate HasValidImage(s: Screen) {
    Truthy(EffectiveImage(s)) || Truthy(s.form.image) || Truthy(s.profile.image) || Truthy(UserImage(s))
  }

  predicate IsApprovedStatus(st: Option<string>) {
    st == Some(ApprovedText) || st == Some("Approved")
  }

  /** The step the tracker shows: 1 while loading or after a denial, 3 once
      approved (in either capitalisation), 2 when a document is under review
      with status "pending", and 1 otherwise. */
  function CurrentStep(s: Screen): (step: nat)
    ensures 1 <= step <= 3
    ensures s.loading ==> step == 1
    ensures Status(s) == Some(DeniedText) ==> step == 1
    ensures step == 3 <==> !s.loading && IsApprovedStatus(Status(s))
    ensures step == 2 <==> !s.loading && Status(s) == Some(PendingText) && HasValidImage(s)
  {
    if s.loading then 1
    else
      var st := Status(s);
      if st == Some(DeniedText) then 1
      else if IsApprovedStatus(st) then 3
      else if HasValidImage(s) && st == Some(PendingText) then 2
      else 1
  }

  /** Step 2 is only reached with a document present in some source. */
  lemma StepTwoNeedsDocument(s: Screen)
    requires CurrentStep(s) == 2
    ensures EffectiveImage(s).Some? || s.form.image.Some? || s.profile.image.Some? || UserImage(s).Some?
    ensures Status(s) == Some(PendingText)
  {
  }

  /** The guard the data-sync effect uses before adopting a status: the new
      value must be non-empty and different, and "pending" or "denied" never
      replace "approved". */
  function ShouldUpdateStatus(newStatus: Option<string>, current: Option<string>): (b: bool)
    ensures b ==> Truthy(newStatus) && newStatus != current
    ensures current == Some(ApprovedText) && (newStatus == Some(PendingText) || newStatus == Some(DeniedText)) ==> !b
    ensures (&& Truthy(newStatus) && newStatus != current
             && !(current == Some(ApprovedText) && (newStatus == Some(PendingText) || newStatus == Some(DeniedText))))
            ==> b
  {
    if !Truthy(newStatus) || newStatus == current then false
    else if current == Some(ApprovedText) && (newStatus == Some(PendingText) || newStatus == Some(DeniedText)) then false
    else true
  }

  /** The override after the guarded data-sync effect sees a reading. */
  function GuardedSync(current: Option<string>, reading: Option<string>): (r: Option<string>)
    ensures r == current || r == reading
  {
    if ShouldUpdateStatus(reading, current) then reading else current
  }

  /** The override after an unguarded sync (the priority effect's fallbacks,
      the form safety net and the universal poll): any non-empty, different
      reading is adopted. */
  function UnguardedSync(current: Option<string>, reading: Option<string>): (r: Option<string>)
    ensures Truthy(reading) ==> r == reading
    ensures !Truthy(reading) ==> r == current
  {
    if Truthy(reading) && reading != current then reading else current
  }

  /** The guarded sync differs from the unguarded one exactly when it refuses
      to downgrade "approved" to "pending" or "denied". */
  lemma GuardedVersusUnguarded(current: Option<string>, reading: Option<string>)
    ensures GuardedSync(current, reading) != UnguardedSync(current, reading)
        <==> current == Some(ApprovedText) && (reading == Some(PendingText) || reading == Some(DeniedText))
  {
  }

  /** A reading in the lower-case vocabulary the backend uses, or nothing. */
  predicate IsPlainReading(r: Option<string>) {
    r.None? || r == Some("") || r == Some(PendingText) || r == Some(DeniedText) || r == Some(ApprovedText)
  }

  /** The override after the guarded sync has seen each reading in turn. */
  function GuardedRun(current: Option<string>, readings: seq<Option<string>>): Option<string>
    decreases |readings|
  {
    if |readings| == 0 then current else GuardedRun(GuardedSync(current, readings[0]), readings[1..])
  }

  /** Once approved, the guarded sync stays approved through any sequence of
      plain readings. */
  lemma {:induction false} ApprovedSticksUnderGuard(readings: seq<Option<string>>)
    requires forall i :: 0 <= i < |readings| ==> IsPlainReading(readings[i])
    ensures GuardedRun(Some(ApprovedText), readings) == Some(ApprovedText)
    decreases |readings|
  {
    if |readings| > 0 {
      assert GuardedSync(Some(ApprovedText), readings[0]) == Some(ApprovedText);
      ApprovedSticksUnderGuard(readings[1..]);
    }
  }

  /** The guard compares case-sensitively: a capitalised "Approved" reading
      is adopted and a later "pending" then replaces it. */
  lemma GuardIsCaseSensitive()
    ensures GuardedRun(Some(ApprovedText), [Some("Approved"), Some(PendingText)]) == Some(PendingText)
  {
    var rs := [Some("Approved"), Some(PendingText)];
    assert GuardedSync(Some(ApprovedText), Some("Approved")) == Some("Approved");
    assert GuardedSync(Some("Approved"), Some(PendingText)) == Some(PendingText);
    assert GuardedRun(Some(PendingText), rs[1..][1..]) == Some(PendingText);
  }

  /** A single unguarded reading of "pending" downgrades an approved screen. */
  lemma UnguardedSyncDowngrades()
    ensures UnguardedSync(Some(ApprovedText), Some(PendingText)) == Some(PendingText)
  {
  }

  /** Either the form or the profile data says "approved" in lower case. */
  predicate SourceApproved(s: Screen) {
    s.form.status == Some(ApprovedText) || s.profile.status == Some(ApprovedText)
  }

  /** A source's status is non-empty and differs from the override. */
  predicate Differs(status: Option<string>, s: Screen) {
    Truthy(status) && status != s.overrideStatus
  }

  /** The override after the effect that prefers an approved source: an
      approved form or profile wins; otherwise the form's and then the
      profile's differing status is adopted without the guard. */
  function PrioritySync(s: Screen): (r: Option<string>)
    ensures SourceApproved(s) ==> r == Some(ApprovedText)
    ensures !SourceApproved(s) && Differs(s.form.status, s) ==> r == s.form.status
    ensures !SourceApproved(s) && !Differs(s.form.status, s) && Differs(s.profile.status, s) ==> r == s.profile.status
    ensures !SourceApproved(s) && !Differs(s.form.status, s) && !Differs(s.profile.status, s) ==> r == s.overrideStatus
    ensures r == s.overrideStatus || r == s.form.status || r == s.profile.status || r == Some(ApprovedText)
  {
    if s.form.status == Some(ApprovedText) || s.profile.status == Some(ApprovedText) then Some(ApprovedText)
    else if Truthy(s.form.status) && s.form.status != s.overrideStatus then s.form.status
    else if Truthy(s.profile.status) && s.profile.status != s.overrideStatus then s.profile.status
    else s.overrideStatus
  }

  /** The priority effect replaces an approved override by a pending form
      status: the no-downgrade guard is not a property of the whole screen. */
  lemma PrioritySyncDowngrades(s: Screen)
    requires s.overrideStatus == Some(ApprovedText) && s.form.status == Some(PendingText)
    requires s.profile.status != Some(ApprovedText)
    ensures PrioritySync(s) == Some(PendingText)
  {
  }
  /** The screen after the priority effect has run `n` times, each run
      storing its result in the override it depends on. */
  function PriorityRun(s: Screen, n: nat): Screen
    decreases n
  {
    if n == 0 then s else PriorityRun(s.(overrideStatus := PrioritySync(s)), n - 1)
  }

  /** A form saying "pending" and a profile saying "denied" make the priority
      effect alternate for ever: every run changes the override it depends
      on, so the effect never settles. */
  lemma {:induction false} PrioritySyncNeverSettles(s: Screen, n: nat)
    requires s.overrideStatus == Some(PendingText) && s.form.status == Some(PendingText)
    requires s.profile.status == Some(DeniedText)
    ensures var t := PriorityRun(s, n);
      && t.overrideStatus == (if n % 2 == 0 then Some(PendingText) else Some(DeniedText))
      && PrioritySync(t) != t.overrideStatus
    decreases n
  {
    if n > 0 {
      var s1 := s.(overrideStatus := PrioritySync(s));
      assert s1.overrideStatus == Some(DeniedText);
      var s2 := s1.(overrideStatus := PrioritySync(s1));
      assert s2 == s;
      if n == 1 {
        assert PriorityRun(s1, 0) == s1;
      } else {
        assert PriorityRun(s, n) == PriorityRun(s2, n - 2);
        PrioritySyncNeverSettles(s, n - 2);
      }
    }
  }

  /** The priority effect without comparing against the override it writes:
      an approved source wins, else the form's status, else the profile's. */
  function PrioritySyncCorrected(s: Screen): (r: Option<string>)
    ensures SourceApproved(s) ==> r == Some(ApprovedText)
    ensures !SourceApproved(s) && Truthy(s.form.status) ==> r == s.form.status
    ensures !SourceApproved(s) && !Truthy(s.form.status) && Truthy(s.profile.status) ==> r == s.profile.status
    ensures !SourceApproved(s) && !Truthy(s.form.status) && !Truthy(s.profile.status) ==> r == s.overrideStatus
  {
    if SourceApproved(s) then Some(ApprovedText)
    else if Truthy(s.form.status) then s.form.status
    else if Truthy(s.profile.status) then s.profile.status
    else s.overrideStatus
  }

  /** The corrected effect settles after one run, and wherever the code's
      effect settles the correction leaves the same status. */
  lemma PrioritySyncCorrectedSettles(s: Screen)
    ensures var r := PrioritySyncCorrected(s);
      PrioritySyncCorrected(s.(overrideStatus := r)) == r
    ensures PrioritySync(s) == s.overrideStatus ==> PrioritySyncCorrected(s) == s.overrideStatus
  {
  }


  /** The approval detector: the status seen on the previous run and whether
      the notice was already raised. */
  datatype Gate = Gate(previous: Option<string>, shown: bool)

  /** One run of the detector on the tracked status: it opens the notice
      exactly on a change from a non-empty, non-approved status to approved
      when the notice has not been raised yet, and always records the status. */
  function Observe(g: Gate, status: Option<string>): (r: (Gate, bool))
    ensures r.1 <==> status == Some(ApprovedText) && Truthy(g.previous) && g.previous != Some(ApprovedText) && !g.shown
    ensures r.0.previous == status
    ensures r.0.shown == (g.shown || r.1)
  {
    var opens := status == Some(ApprovedText) && Truthy(g.previous) && g.previous != Some(ApprovedText) && !g.shown;
    (Gate(status, g.shown || opens), opens)
  }

  /** What the detector sees: a run on a status, or a reset of the "shown"
      flag (a denial, or a new document). */
  datatype GateEvent = Seen(status: Option<string>) | Reset

  /** Clearing the "shown" flag. */
  function ResetGate(g: Gate): (r: Gate)
    ensures !r.shown && r.previous == g.previous
  {
    g.(shown := false)
  }

  /** The detector after a sequence of events, with the number of times the
      notice fired. */
  function RunGate(g: Gate, evs: seq<GateEvent>): (Gate, nat)
    decreases |evs|
  {
    if |evs| == 0 then (g, 0)
    else
      match evs[0]
      case Reset => RunGate(ResetGate(g), evs[1..])
      case Seen(st) =>
        var (g1, fired) := Observe(g, st);
        var (g2, n) := RunGate(g1, evs[1..]);
        (g2, n + (if fired then 1 else 0))
  }

  function Resets(evs: seq<GateEvent>): nat
    decreases |evs|
  {
    if |evs| == 0 then 0 else (if evs[0].Reset? then 1 else 0) + Resets(evs[1..])
  }

  /** The notice opens at most once between resets: over any sequence of
      events it opens no more often than the resets allow, plus once if it
      had not been raised at the start. */
  lemma {:induction false} GateOpensOncePerReset(g: Gate, evs: seq<GateEvent>)
    ensures RunGate(g, evs).1 <= (if g.shown then 0 else 1) + Resets(evs)
    ensures RunGate(g, evs).1 + (if g.shown then 1 else 0) <= Resets(evs) + (if RunGate(g, evs).0.shown then 1 else 0)
    decreases |evs|
  {
    if |evs| > 0 {
      match evs[0]
      case Reset =>
        GateOpensOncePerReset(ResetGate(g), evs[1..]);
      case Seen(st) =>
        var g1 := Observe(g, st).0;
        GateOpensOncePerReset(g1, evs[1..]);
        assert RunGate(g, evs).1 == RunGate(g1, evs[1..]).1 + (if Observe(g, st).1 then 1 else 0);
        assert RunGate(g, evs).0 == RunGate(g1, evs[1..]).0;
        assert Resets(evs) == Resets(evs[1..]);
    }
  }

  /** A review that goes from nothing to pending to approved, re-rendering
      while approved, opens the notice exactly once. */
  lemma ApprovalOpensOnce()
    ensures RunGate(Gate(None, false),
      [Seen(None), Seen(Some(PendingText)), Seen(Some(ApprovedText)), Seen(Some(ApprovedText))]).1 == 1
  {
    var evs := [Seen(None), Seen(Some(PendingText)), Seen(Some(ApprovedText)), Seen(Some(ApprovedText))];
    var g1 := Gate(None, false);
    var g2 := Gate(Some(PendingText), false);
    var g3 := Gate(Some(ApprovedText), true);
    assert Observe(Gate(None, false), None) == (g1, false);
    assert Observe(g1, Some(PendingText)) == (g2, false);
    assert Observe(g2, Some(ApprovedText)) == (g3, true);
    assert Observe(g3, Some(ApprovedText)) == (g3, false);
    assert RunGate(g3, evs[3..]).1 == 0 by {
      assert evs[3..][1..] == [];
    }
    assert RunGate(g2, evs[2..]).1 == 1 by {
      assert evs[2..][1..] == evs[3..];
    }
    assert RunGate(g1, evs[1..]).1 == 1 by {
      assert evs[1..][1..] == evs[2..];
    }
  }

  /** A screen that is approved when it mounts never opens the notice. */
  lemma ApprovedOnMountNeverOpens(n: nat)
    ensures RunGate(Gate(None, false), seq(n, _ => Seen(Some(ApprovedText)))).1 == 0
  {
    var evs := seq(n, _ => Seen(Some(ApprovedText)));
    if n > 0 {
      AlreadyApprovedStaysClosed(Gate(Some(ApprovedText), false), evs[1..]);
    }
  }

  /** After an approved run with no reset, further approved runs stay quiet. */
  lemma {:induction false} AlreadyApprovedStaysClosed(g: Gate, evs: seq<GateEvent>)
    requires g.previous == Some(ApprovedText)
    requires forall i :: 0 <= i < |evs| ==> evs[i] == Seen(Some(ApprovedText))
    ensures RunGate(g, evs).1 == 0
    decreases |evs|
  {
    if |evs| > 0 {
      AlreadyApprovedStaysClosed(Observe(g, Some(ApprovedText)).0, evs[1..]);
    }
  }

  /** A notice the screen raises: its kind, title and message. */
  datatype Notice = Notice(kind: string, title: string, message: string)

  /** `form.denial_reason || profileData.denial_reason`. */
  function DenialReason(s: Screen): (r: Option<string>)
    ensures Truthy(s.form.denialReason) ==> r == s.form.denialReason
    ensures !Truthy(s.form.denialReason) ==> r == s.profile.denialReason
  {
    if Truthy(s.form.denialReason) then s.form.denialReason else s.profile.denialReason
  }

  /** Handling a denial: forget the uploaded path, force the status to
      "denied", and raise an error notice naming the reason when there is one. */
  function HandleDenied(s: Screen): (r: (Screen, Option<Notice>))
    ensures r.0 == s.(uploadedImage := None, overrideStatus := Some(DeniedText))
    ensures Status(r.0) == Some(DeniedText) && EffectiveImage(r.0).None? && CurrentStep(r.0) == 1
    ensures r.1.Some? <==> Truthy(s.form.denialReason) || Truthy(s.profile.denialReason)
    ensures r.1.Some? ==>
      && r.1.value.kind == "error" && r.1.value.title == "Verification Denied"
      && r.1.value.message == "Your residency verification was denied. Reason: " + DenialReason(s).value
  {
    var t := s.(uploadedImage := None, overrideStatus := Some(DeniedText));
    var reason := DenialReason(s);
    if Truthy(reason) then
      (t, Some(Notice("error", "Verification Denied", "Your residency verification was denied. Reason: " + reason.value)))
    else (t, None)
  }

  /** Handling a denial twice is handling it once. */
  lemma HandleDeniedIsIdempotent(s: Screen)
    ensures HandleDenied(HandleDenied(s).0).0 == HandleDenied(s).0
  {
  }

  /** What one poll of the status endpoints decides. */
  datatype PollAction = MarkApproved(image: Option<string>) | MarkDenied | MarkPending | NoChange

  predicate IsDeniedStatus(st: Option<string>) {
    st == Some(DeniedText) || st == Some("Denied")
  }

  predicate IsPendingStatus(st: Option<string>) {
    st == Some(PendingText) || st == Some("Pending")
  }

  /** `statusData?.verification_status || profile?.verification_status`. */
  function FinalStatus(endpointStatus: Option<string>, profileStatus: Option<string>): (r: Option<string>)
    ensures Truthy(endpointStatus) ==> r == endpointStatus
    ensures !Truthy(endpointStatus) ==> r == profileStatus
  {
    if Truthy(endpointStatus) then endpointStatus else profileStatus
  }

  /** The poll's decision: adopt approved, denied or pending (in either
      capitalisation) when the screen's status differs from the lower-case
      form of the reading, checked in that order. */
  function PollDecision(s: Screen, endpointStatus: Option<string>, polled: Option<Source>): (a: PollAction)
    ensures var f := FinalStatus(endpointStatus, if polled.Some? then polled.value.status else None);
      && (a.MarkApproved? <==> IsApprovedStatus(f) && Status(s) != Some(ApprovedText))
      && (a.MarkDenied? <==> IsDeniedStatus(f) && Status(s) != Some(DeniedText))
      && (a.MarkPending? <==> IsPendingStatus(f) && Status(s) != Some(PendingText))
    ensures a.MarkApproved? ==> a.image == (if polled.Some? && Truthy(polled.value.image) then polled.value.image else None)
  {
    var f := FinalStatus(endpointStatus, if polled.Some? then polled.value.status else None);
    var current := Status(s);
    if IsApprovedStatus(f) && current != Some(ApprovedText) then
      MarkApproved(if polled.Some? && Truthy(polled.value.image) then polled.value.image else None)
    else if IsDeniedStatus(f) && current != Some(DeniedText) then MarkDenied
    else if IsPendingStatus(f) && current != Some(PendingText) then MarkPending
    else NoChange
  }

  /** The screen after carrying out a poll's decision. */
  function ApplyPoll(s: Screen, a: PollAction): (r: Screen)
    ensures a.MarkApproved? ==> Status(r) == Some(ApprovedText) && CurrentStep(r) == 3
    ensures a.MarkDenied? ==> Status(r) == Some(DeniedText) && CurrentStep(r) == 1
    ensures a.MarkPending? ==> Status(r) == Some(PendingText) && r.uploadedImage == s.uploadedImage
    ensures a.NoChange? ==> r == s
    ensures a.MarkApproved? && a.image.Some? ==> EffectiveImage(r) == a.image
    ensures a.MarkApproved? && a.image.None? ==> r.uploadedImage == s.uploadedImage
    ensures a.MarkApproved? ==> !r.loading
    ensures !a.MarkApproved? ==> r.loading == s.loading
    ensures r.form == s.form && r.profile == s.profile && r.user == s.user
  {
    match a
    case MarkApproved(img) =>
      s.(overrideStatus := Some(ApprovedText), uploadedImage := if img.Some? then img else s.uploadedImage, loading := false)
    case MarkDenied => HandleDenied(s).0
    case MarkPending => s.(overrideStatus := Some(PendingText))
    case NoChange => s
  }

  /** Polling again with the same reading changes nothing more. */
  lemma PollIsIdempotent(s: Screen, endpointStatus: Option<string>, polled: Option<Source>)
    ensures var r := ApplyPoll(s, PollDecision(s, endpointStatus, polled));
      PollDecision(r, endpointStatus, polled) == NoChange
  {
  }

  /** The panels the screen can render. */
  datatype Panel = LoadingPanel | ApprovedPanel | DeniedUploadPanel | UploadPanel | PendingPanel | PendingFallbackPanel

  /** Only the two review panels carry the notice component. */
  predicate RendersNotice(p: Panel) {
    p.PendingPanel? || p.PendingFallbackPanel?
  }

  /** Some source says "approved" in lower case. */
  predicate AnySourceApproved(s: Screen) {
    || Status(s) == Some(ApprovedText) || s.form.status == Some(ApprovedText)
    || s.profile.status == Some(ApprovedText) || UserStatus(s) == Some(ApprovedText)
  }

  /** The denied branch: the status or the form says "denied". */
  predicate DeniedBranch(s: Screen) {
    Status(s) == Some(DeniedText) || s.form.status == Some(DeniedText)
  }

  /** The upload branch: no document, not denied, and on step 1. */
  predicate UploadBranch(s: Screen) {
    !Truthy(EffectiveImage(s)) && Status(s) != Some(DeniedText) && CurrentStep(s) == 1
  }

  /** The review branch: a document and step 2. */
  predicate ReviewBranch(s: Screen) {
    Truthy(EffectiveImage(s)) && CurrentStep(s) == 2
  }

  /** The panel as the screen chooses it: loading first, then approved (any
      source in lower case), then denied, then upload, then review, with the
      review panel as fallback. */
  function PanelFor(s: Screen): (p: Panel)
    ensures p == LoadingPanel <==> s.loading
    ensures p == ApprovedPanel <==> !s.loading && AnySourceApproved(s)
    ensures p == DeniedUploadPanel <==> !s.loading && !AnySourceApproved(s) && DeniedBranch(s)
    ensures p == UploadPanel <==>
      !s.loading && !AnySourceApproved(s) && !DeniedBranch(s) && UploadBranch(s)
    ensures p == PendingPanel <==>
      !s.loading && !AnySourceApproved(s) && !DeniedBranch(s) && !UploadBranch(s) && ReviewBranch(s)
    ensures p == PendingFallbackPanel <==>
      !s.loading && !AnySourceApproved(s) && !DeniedBranch(s) && !UploadBranch(s) && !ReviewBranch(s)
    ensures p == UploadPanel ==> !Truthy(EffectiveImage(s)) && CurrentStep(s) == 1
    ensures p == PendingPanel ==> Truthy(EffectiveImage(s)) && CurrentStep(s) == 2
  {
    if s.loading then LoadingPanel
    else if AnySourceApproved(s) then ApprovedPanel
    else if DeniedBranch(s) then DeniedUploadPanel
    else if UploadBranch(s) then UploadPanel
    else if ReviewBranch(s) then PendingPanel
    else PendingFallbackPanel
  }

  /** A capitalised "Approved" status puts the tracker on step 3 while the
      screen renders the review panel. */
  lemma CapitalApprovedShowsReviewPanel()
    ensures var s := Screen(false, Some("Approved"), Some("doc.jpg"),
                            Source(None, None, None), Source(None, None, None), None);
      CurrentStep(s) == 3 && PanelFor(s) == PendingFallbackPanel
  {
  }

  /** The panel choice with the approved check accepting the same two
      spellings as the step tracker. */
  function PanelForCorrected(s: Screen): (p: Panel)
    ensures p == LoadingPanel <==> s.loading
    ensures p == ApprovedPanel <==> !s.loading && (AnySourceApproved(s) || IsApprovedStatus(Status(s)))
    ensures p == DeniedUploadPanel <==>
      !s.loading && !AnySourceApproved(s) && !IsApprovedStatus(Status(s)) && DeniedBranch(s)
    ensures p == UploadPanel <==>
      !s.loading && !AnySourceApproved(s) && !IsApprovedStatus(Status(s)) && !DeniedBranch(s) && UploadBranch(s)
    ensures p == PendingPanel <==>
      && !s.loading && !AnySourceApproved(s) && !IsApprovedStatus(Status(s)) && !DeniedBranch(s)
      && !UploadBranch(s) && ReviewBranch(s)
    ensures p == UploadPanel ==> !Truthy(EffectiveImage(s)) && CurrentStep(s) == 1
    ensures p == PendingPanel ==> Truthy(EffectiveImage(s)) && CurrentStep(s) == 2
  {
    if s.loading then LoadingPanel
    else if AnySourceApproved(s) || IsApprovedStatus(Status(s)) then ApprovedPanel
    else if DeniedBranch(s) then DeniedUploadPanel
    else if UploadBranch(s) then UploadPanel
    else if ReviewBranch(s) then PendingPanel
    else PendingFallbackPanel
  }


  /** With the correction, step 3 always comes with the approved panel, and
      the review panels only ever show step 1 or 2. */
  lemma StepThreeMeansApprovedPanel(s: Screen)
    ensures CurrentStep(s) == 3 ==> PanelForCorrected(s) == ApprovedPanel
    ensures RendersNotice(PanelForCorrected(s)) ==> CurrentStep(s) <= 2
  {
  }

  /** Whenever the detector opens the approval notice on a loaded screen, the
      screen is on the approved panel, which has no notice component, so the
      notice is not displayed when it opens; on the next render the
      auto-close effect shuts it (`ApprovalNoticeClosesAtOnce`). */
  lemma ApprovalNoticeOpensOnApprovedPanel(s: Screen, g: Gate)
    requires !s.loading
    requires Observe(g, TrackedStatus(s)).1
    ensures PanelFor(s) == ApprovedPanel && !RendersNotice(PanelFor(s))
    ensures PanelForCorrected(s) == ApprovedPanel
  {
  }

  /** The title of the notice the detector raises on approval. */
  const ApprovalTitle: string := "Verification Approved!"

  /** The screen's one notice slot: whether it is open and the title it holds. */
  datatype Modal = Modal(isOpen: bool, title: string)

  /** One run of the detector on the screen: it records the tracked status
      and, when it opens, fills the notice slot with the approval notice. */
  function DetectApproval(g: Gate, s: Screen, m: Modal): (r: (Gate, Modal))
    ensures r.0 == Observe(g, TrackedStatus(s)).0
    ensures Observe(g, TrackedStatus(s)).1 ==> r.1 == Modal(true, ApprovalTitle)
    ensures !Observe(g, TrackedStatus(s)).1 ==> r.1 == m
  {
    var (g', opens) := Observe(g, TrackedStatus(s));
    (g', if opens then Modal(true, ApprovalTitle) else m)
  }

  /** The auto-close effect: an open approval notice is closed while the
      tracked status is "approved"; any other notice, or any other status,
      leaves the slot as it is. */
  function AutoClose(s: Screen, m: Modal): (r: Modal)
    ensures r.title == m.title
    ensures m.title != ApprovalTitle || TrackedStatus(s) != Some(ApprovedText) ==> r == m
    ensures !r.isOpen <==> !m.isOpen || (m.title == ApprovalTitle && TrackedStatus(s) == Some(ApprovedText))
  {
    if TrackedStatus(s) == Some(ApprovedText) && m.isOpen && m.title == ApprovalTitle then m.(isOpen := false)
    else m
  }

  /** The approval notice does not outlive the render that opened it: the
      detector opens it only on an approved status, and the auto-close effect
      runs again on the changed slot and shuts it, whatever was open before. */
  lemma ApprovalNoticeClosesAtOnce(g: Gate, s: Screen, m: Modal)
    requires Observe(g, TrackedStatus(s)).1
    ensures DetectApproval(g, s, m).1.isOpen
    ensures !AutoClose(s, DetectApproval(g, s, m).1).isOpen
  {
    assert TrackedStatus(s) == Some(ApprovedText);
  }

  /** The auto-close effect leaves a denial notice open. */
  lemma AutoCloseKeepsDenialNotice(s: Screen)
    ensures var m := Modal(true, "Verification Denied");
      AutoClose(s, m) == m
  {
  }
}

=== FILE: seqs.dfy ===
/** Sequence helpers shared by the pages: JavaScript's `Array.prototype.filter`
    and sums of counts. */
module Seqs {
  import opened Wrappers

  /** `idx` lists, in increasing order, the positions of `b` at which the
      elements of `a` are found: `a` is an order-preserving subsequence of `b`. */
  ghost predicate Embeds<T>(a: seq<T>, b: seq<T>, idx: seq<nat>) {
    && |idx| == |a|
    && (forall i :: 0 <= i < |idx| ==> idx[i] < |b| && a[i] == b[idx[i]])
    && (forall i, j :: 0 <= i < j < |idx| ==> idx[i] < idx[j])
  }

  /** The elements of `s` that satisfy `p`, in their original order. */
  function Filter<T>(s: seq<T>, p: T -> bool): (r: seq<T>)
    ensures |r| <= |s|
    ensures forall i :: 0 <= i < |r| ==> p(r[i])
    decreases |s|
  {
    if |s| == 0 then []
    else if p(s[0]) then [s[0]] + Filter(s[1..], p)
    else Filter(s[1..], p)
  }

  /** Filtering keeps exactly the elements that satisfy the predicate. */
  lemma {:induction false} FilterMembership<T>(s: seq<T>, p: T -> bool, x: T)
    ensures x in Filter(s, p) <==> x in s && p(x)
    decreases |s|
  {
    if |s| > 0 {
      FilterMembership(s[1..], p, x);
      assert s == [s[0]] + s[1..];
    }
  }

  /** Filtering yields an order-preserving subsequence of its input. */
  lemma {:induction false} FilterIsSubsequence<T>(s: seq<T>, p: T -> bool) returns (idx: seq<nat>)
    ensures Embeds(Filter(s, p), s, idx)
    decreases |s|
  {
    if |s| == 0 {
      idx := [];
    } else {
      var rest := FilterIsSubsequence(s[1..], p);
      EmbedsShift(Filter(s[1..], p), s, rest);
      if p(s[0]) {
        EmbedsCons(Filter(s[1..], p), s, Shift(rest));
        idx := [0] + Shift(rest);
      } else {
        idx := Shift(rest);
      }
    }
  }

  function Shift(idx: seq<nat>): (r: seq<nat>)
    ensures |r| == |idx| && forall i :: 0 <= i < |idx| ==> r[i] == idx[i] + 1
  {
    seq(|idx|, i requires 0 <= i < |idx| => idx[i] + 1)
  }

  /** An embedding into the tail of `b` shifts to one into `b`. */
  lemma EmbedsShift<T>(a: seq<T>, b: seq<T>, idx: seq<nat>)
    requires |b| > 0 && Embeds(a, b[1..], idx)
    ensures Embeds(a, b, Shift(idx))
  {
  }

  /** The head of `b` can be put in front of an embedding that avoids it. */
  lemma EmbedsCons<T>(a: seq<T>, b: seq<T>, idx: seq<nat>)
    requires |b| > 0 && Embeds(a, b, idx)
    requires forall i :: 0 <= i < |idx| ==> idx[i] >= 1
    ensures Embeds([b[0]] + a, b, [0] + idx)
  {
    var c, jdx := [b[0]] + a, [0] + idx;
    assert forall i :: 1 <= i < |jdx| ==> jdx[i] == idx[i - 1] && c[i] == a[i - 1];
  }

  /** Filtering keeps every occurrence of an element that passes and none of
      one that fails. */
  lemma {:induction false} FilterMultiplicity<T>(s: seq<T>, p: T -> bool)
    ensures forall x :: multiset(Filter(s, p))[x] == if p(x) then multiset(s)[x] else 0
    decreases |s|
  {
    if |s| > 0 {
      FilterMultiplicity(s[1..], p);
      assert s == [s[0]] + s[1..];
      assert multiset(s) == multiset{s[0]} + multiset(s[1..]);
    }
  }

  /** A filter every element passes leaves the sequence as it is. */
  lemma {:induction false} FilterAll<T>(s: seq<T>, p: T -> bool)
    requires forall i :: 0 <= i < |s| ==> p(s[i])
    ensures Filter(s, p) == s
    decreases |s|
  {
    if |s| > 0 {
      FilterAll(s[1..], p);
      assert [s[0]] + s[1..] == s;
    }
  }

  /** A filter no element passes leaves nothing. */
  lemma {:induction false} FilterNone<T>(s: seq<T>, p: T -> bool)
    requires forall i :: 0 <= i < |s| ==> !p(s[i])
    ensures Filter(s, p) == []
    decreases |s|
  {
    if |s| > 0 {
      FilterNone(s[1..], p);
    }
  }

  /** The sum of a sequence of counts. */
  function Sum(s: seq<nat>): nat
    decreases |s|
  {
    if |s| == 0 then 0 else s[0] + Sum(s[1..])
  }

  /** Raising one count by one raises the sum by one. */
  lemma {:induction false} SumBump(a: seq<nat>, b: seq<nat>, k: nat)
    requires |a| == |b| && k < |a|
    requires b[k] == a[k] + 1
    requires forall i :: 0 <= i < |a| && i != k ==> b[i] == a[i]
    ensures Sum(b) == Sum(a) + 1
    decreases |a|
  {
    if k > 0 {
      SumBump(a[1..], b[1..], k - 1);
    } else {
      assert a[1..] == b[1..];
    }
  }
}

=== FILE: tally.dfy ===
/** Counting with a JavaScript object used as a dictionary:
    `counts[k] = (counts[k] || 0) + 1` for each element in turn, then
    `Object.entries(counts)` (keys in first-insertion order) and the
    "keep the first strictly larger count" scan the pages use to find the
    most frequent key. */
module Tally {
  import opened Seqs

  /** The entries of a counter object, in the order `Object.entries` lists them. */
  type Counter<K> = seq<(K, nat)>

  function KeysOf<K>(c: Counter<K>): (r: seq<K>)
    ensures |r| == |c|
    ensures forall i :: 0 <= i < |c| ==> r[i] == c[i].0
  {
    seq(|c|, i requires 0 <= i < |c| => c[i].0)
  }

  function ValuesOf<K>(c: Counter<K>): (r: seq<nat>)
    ensures |r| == |c|
    ensures forall i :: 0 <= i < |c| ==> r[i] == c[i].1
  {
    seq(|c|, i requires 0 <= i < |c| => c[i].1)
  }

  predicate DistinctKeys<K(==,!new)>(c: Counter<K>) {
    forall i, j :: 0 <= i < j < |c| ==> c[i].0 != c[j].0
  }

  predicate AllPositive<K>(c: Counter<K>) {
    forall i :: 0 <= i < |c| ==> c[i].1 >= 1
  }

  /** `counts[k] || 0`. */
  function CountOf<K(==,!new)>(c: Counter<K>, k: K): nat
    decreases |c|
  {
    if |c| == 0 then 0 else if c[0].0 == k then c[0].1 else CountOf(c[1..], k)
  }

  /** The count stored under a key is the one at its position. */
  lemma {:induction false} CountOfAt<K(!new)>(c: Counter<K>, i: nat)
    requires DistinctKeys(c) && i < |c|
    ensures CountOf(c, c[i].0) == c[i].1
    decreases i
  {
    if i > 0 {
      CountOfAt(c[1..], i - 1);
    }
  }

  /** A key not in the counter counts zero. */
  lemma {:induction false} CountOfAbsent<K(!new)>(c: Counter<K>, k: K)
    requires k !in KeysOf(c)
    ensures CountOf(c, k) == 0
    decreases |c|
  {
    if |c| > 0 {
      assert KeysOf(c[1..]) == KeysOf(c)[1..];
      CountOfAbsent(c[1..], k);
    }
  }

  /** `counts[k] = (counts[k] || 0) + 1`: raise the count of an existing key in
      place, or add the key at the end with count 1. */
  function Bump<K(==,!new)>(c: Counter<K>, k: K): (r: Counter<K>)
    ensures k in KeysOf(c) ==> KeysOf(r) == KeysOf(c)
    ensures k !in KeysOf(c) ==> KeysOf(r) == KeysOf(c) + [k]
    decreases |c|
  {
    if |c| == 0 then [(k, 1)]
    else if c[0].0 == k then
      KeysOfCons((k, c[0].1 + 1), c[1..]);
      KeysOfCons(c[0], c[1..]);
      assert c == [c[0]] + c[1..];
      [(k, c[0].1 + 1)] + c[1..]
    else
      var rest := Bump(c[1..], k);
      KeysOfCons(c[0], c[1..]);
      KeysOfCons(c[0], rest);
      assert c == [c[0]] + c[1..];
      [c[0]] + rest
  }

  lemma KeysOfCons<K>(p: (K, nat), c: Counter<K>)
    ensures KeysOf([p] + c) == [p.0] + KeysOf(c)
  {
  }

  /** Bumping `k` adds one to the count of `k` and leaves every other count alone. */
  lemma {:induction false} BumpCountOf<K(!new)>(c: Counter<K>, k: K, j: K)
    ensures CountOf(Bump(c, k), j) == CountOf(c, j) + (if j == k then 1 else 0)
    decreases |c|
  {
    if |c| > 0 && c[0].0 != k {
      BumpCountOf(c[1..], k, j);
    }
  }

  /** Bumping adds one to the total of all counts. */
  lemma {:induction false} BumpSum<K(!new)>(c: Counter<K>, k: K)
    ensures Sum(ValuesOf(Bump(c, k))) == Sum(ValuesOf(c)) + 1
    decreases |c|
  {
    if |c| == 0 {
      assert ValuesOf(Bump(c, k)) == [1];
    } else if c[0].0 == k {
      ValuesOfCons((k, c[0].1 + 1), c[1..]);
      ValuesOfCons(c[0], c[1..]);
      assert c == [c[0]] + c[1..];
    } else {
      BumpSum(c[1..], k);
      ValuesOfCons(c[0], Bump(c[1..], k));
      ValuesOfCons(c[0], c[1..]);
      assert c == [c[0]] + c[1..];
    }
  }

  /** The counts of a counter with one more entry in front. */
  lemma ValuesOfCons<K>(p: (K, nat), c: Counter<K>)
    ensures ValuesOf([p] + c) == [p.1] + ValuesOf(c)
    ensures Sum(ValuesOf([p] + c)) == p.1 + Sum(ValuesOf(c))
  {
    var v := [p.1] + ValuesOf(c);
    assert ValuesOf([p] + c) == v;
    assert v[1..] == ValuesOf(c);
  }

  /** Bumping keeps the keys distinct and the counts positive. */
  lemma {:induction false} BumpKeepsShape<K(!new)>(c: Counter<K>, k: K)
    requires DistinctKeys(c) && AllPositive(c)
    ensures DistinctKeys(Bump(c, k)) && AllPositive(Bump(c, k))
    decreases |c|
  {
    if |c| > 0 && c[0].0 != k {
      BumpKeepsShape(c[1..], k);
      BumpKeysIn(c[1..], k);
      HeadKeyFresh(c);
      ConsShape(c[0], Bump(c[1..], k), KeysOf(c[1..]) + [k]);
    } else if |c| > 0 {
      ConsShape((k, c[0].1 + 1), c[1..], KeysOf(c[1..]));
    }
  }

  /** Bumping introduces no key but `k`. */
  lemma BumpKeysIn<K(!new)>(c: Counter<K>, k: K)
    ensures forall i :: 0 <= i < |Bump(c, k)| ==> Bump(c, k)[i].0 in KeysOf(c) + [k]
  {
    var r := Bump(c, k);
    assert forall i :: 0 <= i < |r| ==> r[i].0 == KeysOf(r)[i];
  }

  /** The first key of a counter with distinct keys is not among the rest. */
  lemma HeadKeyFresh<K(!new)>(c: Counter<K>)
    requires |c| > 0 && DistinctKeys(c)
    ensures c[0].0 !in KeysOf(c[1..])
  {
    assert forall i :: 0 <= i < |c| - 1 ==> KeysOf(c[1..])[i] == c[i + 1].0;
  }

  /** An entry in front of a well-shaped counter whose keys lie in `ks`
      keeps it well shaped, if its key is not in `ks`. */
  lemma ConsShape<K(!new)>(p: (K, nat), c: Counter<K>, ks: seq<K>)
    requires DistinctKeys(c) && AllPositive(c) && p.1 >= 1
    requires forall i :: 0 <= i < |c| ==> c[i].0 in ks
    requires p.0 !in ks
    ensures DistinctKeys([p] + c) && AllPositive([p] + c)
  {
    var r := [p] + c;
    assert forall i :: 1 <= i < |r| ==> r[i] == c[i - 1];
  }

  /** The first position of `k` in `xs`, or |xs| when it does not occur. */
  function IndexOf<K(==,!new)>(xs: seq<K>, k: K): (i: nat)
    ensures i <= |xs|
    ensures i < |xs| <==> k in xs
    ensures i < |xs| ==> xs[i] == k
    ensures forall j :: 0 <= j < i ==> xs[j] != k
    decreases |xs|
  {
    if |xs| == 0 then 0 else if xs[0] == k then 0 else 1 + IndexOf(xs[1..], k)
  }

  lemma IndexOfAppend<K(!new)>(xs: seq<K>, x: K, k: K)
    requires k in xs
    ensures IndexOf(xs + [x], k) == IndexOf(xs, k)
  {
    var i := IndexOf(xs, k);
    var ys := xs + [x];
    assert ys[i] == k;
    assert forall j :: 0 <= j < i ==> ys[j] != k;
  }

  /** The counter built by visiting `xs` in order (`forEach` with `Bump`). */
  function CountAll<K(==,!new)>(xs: seq<K>): (r: Counter<K>)
    ensures forall k :: k in KeysOf(r) <==> k in xs
    decreases |xs|
  {
    if |xs| == 0 then []
    else
      var init := xs[..|xs| - 1];
      assert xs == init + [xs[|xs| - 1]];
      Bump(CountAll(init), xs[|xs| - 1])
  }

  /** Counting stores each element's multiplicity under it, once, and the
      counts add up to the number of elements. */
  lemma {:induction false} CountAllCounts<K(!new)>(xs: seq<K>)
    ensures DistinctKeys(CountAll(xs)) && AllPositive(CountAll(xs))
    ensures forall k :: CountOf(CountAll(xs), k) == multiset(xs)[k]
    ensures Sum(ValuesOf(CountAll(xs))) == |xs|
    decreases |xs|
  {
    if |xs| == 0 {
      assert ValuesOf(CountAll(xs)) == [];
    } else {
      var init := xs[..|xs| - 1];
      var x := xs[|xs| - 1];
      assert xs == init + [x];
      var prev := CountAll(init);
      CountAllCounts(init);
      BumpSum(prev, x);
      BumpKeepsShape(prev, x);
      forall k ensures CountOf(CountAll(xs), k) == multiset(xs)[k] {
        BumpCountOf(prev, x, k);
      }
    }
  }

  /** The keys of `c` are listed in the order of their first occurrence in `xs`. */
  predicate FirstSeenOrder<K(==,!new)>(xs: seq<K>, c: Counter<K>) {
    forall i, j :: 0 <= i < j < |c| ==> IndexOf(xs, c[i].0) < IndexOf(xs, c[j].0)
  }

  /** `Object.entries` lists the keys in the order of their first occurrence. */
  lemma {:induction false} CountAllOrder<K(!new)>(xs: seq<K>)
    ensures FirstSeenOrder(xs, CountAll(xs))
    decreases |xs|
  {
    if |xs| > 0 {
      var init := xs[..|xs| - 1];
      var x := xs[|xs| - 1];
      assert xs == init + [x];
      var prev := CountAll(init);
      var r := Bump(prev, x);
      assert CountAll(xs) == r;
      CountAllOrder(init);
      forall i | 0 <= i < |prev| ensures r[i].0 == prev[i].0 && IndexOf(xs, r[i].0) == IndexOf(init, prev[i].0) {
        assert r[i].0 == KeysOf(r)[i] && prev[i].0 == KeysOf(prev)[i];
        assert prev[i].0 in KeysOf(prev);
        IndexOfAppend(init, x, prev[i].0);
      }
      forall i, j | 0 <= i < j < |r| ensures IndexOf(xs, r[i].0) < IndexOf(xs, r[j].0) {
        if j == |prev| {
          assert x !in KeysOf(prev);
          assert r[j].0 == KeysOf(r)[j] == x;
          assert IndexOf(xs, x) == |init|;
          assert prev[i].0 in KeysOf(prev);
        }
      }
    }
  }

  /** The `for … of Object.entries(counts)` scan that keeps the first entry
      whose count is strictly larger than the best so far, starting from
      `(best, max)`. */
  function Leader<K>(c: Counter<K>, best: K, max: nat): (r: (K, nat))
    ensures r.1 >= max
    ensures forall i :: 0 <= i < |c| ==> c[i].1 <= r.1
    ensures r.1 == max ==> r.0 == best
    ensures r.1 > max ==> exists i :: 0 <= i < |c| && c[i] == r && forall j :: 0 <= j < i ==> c[j].1 < r.1
    decreases |c|
  {
    if |c| == 0 then (best, max)
    else
      var r := if c[0].1 > max then Leader(c[1..], c[0].0, c[0].1) else Leader(c[1..], best, max);
      assert r.1 > max ==> exists i :: 0 <= i < |c| && c[i] == r && forall j :: 0 <= j < i ==> c[j].1 < r.1 by {
        if r.1 > max {
          if c[0].1 > max && r.1 == c[0].1 {
            assert c[0] == r;
          } else {
            var i :| 0 <= i < |c[1..]| && c[1..][i] == r && forall j :: 0 <= j < i ==> c[1..][j].1 < r.1;
            assert c[i + 1] == r;
          }
        }
      }
      r
  }

  /** The most frequent element of `xs` as the pages compute it: count, then
      scan the entries from `(default, 0)`. */
  function MostFrequent<K(==,!new)>(xs: seq<K>, default: K): (K, nat) {
    Leader(CountAll(xs), default, 0)
  }

  /** Every element of `xs` has an entry in its counter holding its multiplicity. */
  lemma CountAllEntry<K(!new)>(xs: seq<K>, k: K) returns (q: nat)
    requires k in xs
    ensures q < |CountAll(xs)| && CountAll(xs)[q] == (k, multiset(xs)[k])
  {
    var c := CountAll(xs);
    CountAllCounts(xs);
    assert k in KeysOf(c);
    q := IndexOf(KeysOf(c), k);
    CountOfAt(c, q);
  }

  /** `r` is an element of greatest multiplicity in `xs` with that
      multiplicity, and no other element of that multiplicity occurs earlier. */
  predicate IsFirstMaximum<K(==,!new)>(xs: seq<K>, r: (K, nat)) {
    && r.0 in xs && r.1 == multiset(xs)[r.0]
    && (forall k :: k in xs ==> multiset(xs)[k] <= r.1)
    && (forall k :: k in xs && multiset(xs)[k] == r.1 ==> IndexOf(xs, r.0) <= IndexOf(xs, k))
  }

  /** On a non-empty input the most frequent element is the entry at some
      position of the counter, and every earlier entry counts less. */
  lemma MostFrequentEntry<K(!new)>(xs: seq<K>, default: K) returns (i: nat)
    requires |xs| > 0
    ensures var c := CountAll(xs);
            var r := MostFrequent(xs, default);
            && i < |c| && c[i] == r && r.0 in xs && r.1 == multiset(xs)[r.0]
            && forall j :: 0 <= j < i ==> c[j].1 < r.1
  {
    var c := CountAll(xs);
    var r := MostFrequent(xs, default);
    var p := CountAllEntry(xs, xs[0]);
    assert c[p].1 >= 1;
    i :| 0 <= i < |c| && c[i] == r && forall j :: 0 <= j < i ==> c[j].1 < r.1;
    CountAllCounts(xs);
    CountOfAt(c, i);
    assert r.0 in KeysOf(c);
  }

  /** With no elements the result is the default with count 0; otherwise it is
      an element of maximal multiplicity, and of those the one that occurs
      first in `xs`. */
  lemma MostFrequentIsFirstMaximum<K(!new)>(xs: seq<K>, default: K)
    ensures |xs| == 0 ==> MostFrequent(xs, default) == (default, 0)
    ensures |xs| > 0 ==> IsFirstMaximum(xs, MostFrequent(xs, default))
  {
    if |xs| > 0 {
      var c := CountAll(xs);
      var r := MostFrequent(xs, default);
      var i := MostFrequentEntry(xs, default);
      forall k | k in xs ensures multiset(xs)[k] <= r.1 {
        var q := CountAllEntry(xs, k);
      }
      CountAllOrder(xs);
      forall k | k in xs && multiset(xs)[k] == r.1 ensures IndexOf(xs, r.0) <= IndexOf(xs, k) {
        var q := CountAllEntry(xs, k);
        assert q >= i;
        assert FirstSeenOrder(xs, c);
        if q > i {
          assert IndexOf(xs, c[i].0) < IndexOf(xs, c[q].0);
        }
      }
    }
  }

  /** An element of greatest multiplicity that occurs before every other one
      is unique: the scan's answer is determined by `xs` alone. */
  lemma FirstMaximumIsUnique<K(!new)>(xs: seq<K>, a: (K, nat), b: (K, nat))
    requires IsFirstMaximum(xs, a) && IsFirstMaximum(xs, b)
    ensures a == b
  {
    assert a.1 == b.1;
    assert IndexOf(xs, a.0) == IndexOf(xs, b.0);
  }

  /** One slice of a pie chart: `{ name, value, color }`. */
  datatype Slice = Slice(name: string, value: nat, color: string)

  /** `Object.entries(counts).map(([k, count], index) => …)` with the colour
      `colors[index % colors.length]`. */
  function Slices(c: Counter<string>, nameOf: string -> string, palette: seq<string>): (r: seq<Slice>)
    requires |palette| > 0
    ensures |r| == |c|
    ensures forall i :: 0 <= i < |c| ==> r[i] == Slice(nameOf(c[i].0), c[i].1, palette[i % |palette|])
  {
    seq(|c|, i requires 0 <= i < |c| => Slice(nameOf(c[i].0), c[i].1, palette[i % |palette|]))
  }

  function SliceValues(s: seq<Slice>): (r: seq<nat>)
    ensures |r| == |s|
    ensures forall i :: 0 <= i < |s| ==> r[i] == s[i].value
  {
    seq(|s|, i requires 0 <= i < |s| => s[i].value)
  }

  /** The pie of a list of categories: one slice per distinct category, in
      first-appearance order; each slice's value is how often its category
      occurs, the values add up to the number of elements, and the colours
      cycle through the palette. */
  lemma PieOfCategories(xs: seq<string>, nameOf: string -> string, palette: seq<string>)
    requires |palette| > 0
    ensures var c := CountAll(xs);
            var r := Slices(c, nameOf, palette);
            && Sum(SliceValues(r)) == |xs|
            && (forall i :: 0 <= i < |r| ==> r[i].value == multiset(xs)[c[i].0] && r[i].name == nameOf(c[i].0))
            && (forall i :: 0 <= i < |r| ==> r[i].color == palette[i % |palette|])
            && (forall k :: k in xs <==> exists i :: 0 <= i < |c| && c[i].0 == k)
            && (forall i, j :: 0 <= i < j < |c| ==> c[i].0 != c[j].0)
  {
    var c := CountAll(xs);
    var r := Slices(c, nameOf, palette);
    CountAllCounts(xs);
    assert SliceValues(r) == ValuesOf(c);
    CountAllEntries(xs);
    CountAllKeys(xs);
  }

  /** Each entry of the counter holds its key's multiplicity. */
  lemma CountAllEntries<K(!new)>(xs: seq<K>)
    ensures var c := CountAll(xs);
      forall i :: 0 <= i < |c| ==> c[i].1 == multiset(xs)[c[i].0]
  {
    var c := CountAll(xs);
    CountAllCounts(xs);
    forall i | 0 <= i < |c| ensures c[i].1 == multiset(xs)[c[i].0] {
      CountOfAt(c, i);
    }
  }

  /** A key is among the counter's keys exactly when some entry holds it. */
  lemma InKeysOf<K>(c: Counter<K>, k: K)
    ensures k in KeysOf(c) <==> exists i :: 0 <= i < |c| && c[i].0 == k
  {
    var ks := KeysOf(c);
    if k in ks {
      var i :| 0 <= i < |ks| && ks[i] == k;
      assert c[i].0 == k;
    }
    if exists i :: 0 <= i < |c| && c[i].0 == k {
      var i :| 0 <= i < |c| && c[i].0 == k;
      assert ks[i] == k;
    }
  }

  /** The counter has an entry for exactly the elements of `xs`. */
  lemma CountAllKeys<K(!new)>(xs: seq<K>)
    ensures forall k :: k in xs <==> exists i :: 0 <= i < |CountAll(xs)| && CountAll(xs)[i].0 == k
  {
    forall k ensures k in xs <==> exists i :: 0 <= i < |CountAll(xs)| && CountAll(xs)[i].0 == k {
      InKeysOf(CountAll(xs), k);
    }
  }


}

=== FILE: text.dfy ===
/** The JavaScript string operations the pages rely on: `toLowerCase`,
    `toUpperCase` of one character, `includes`, `trim`, number-to-text
    conversion, `parseInt` of a digit string and `padStart`. Case mapping is
    restricted to the ASCII letters. */
module Text {

  predicate IsUpperAscii(c: char) { 'A' <= c <= 'Z' }

  predicate IsLowerAscii(c: char) { 'a' <= c <= 'z' }

  predicate IsDigit(c: char) { '0' <= c <= '9' }

  function LowerChar(c: char): (r: char)
    ensures !IsUpperAscii(r)
    ensures IsUpperAscii(c) ==> r as int == c as int + 32
    ensures !IsUpperAscii(c) ==> r == c
  {
    if IsUpperAscii(c) then (c as int + 32) as char else c
  }

  function UpperChar(c: char): (r: char)
    ensures !IsLowerAscii(r)
    ensures IsLowerAscii(c) ==> r as int == c as int - 32
    ensures !IsLowerAscii(c) ==> r == c
  {
    if IsLowerAscii(c) then (c as int - 32) as char else c
  }

  /** `s.toLowerCase()`. */
  function Lower(s: string): (r: string)
    ensures |r| == |s|
    ensures forall i :: 0 <= i < |s| ==> r[i] == LowerChar(s[i])
  {
    seq(|s|, i requires 0 <= i < |s| => LowerChar(s[i]))
  }

  /** Lower-casing leaves no upper-case letter and is idempotent. */
  lemma LowerIsIdempotent(s: string)
    ensures forall i :: 0 <= i < |Lower(s)| ==> !IsUpperAscii(Lower(s)[i])
    ensures Lower(Lower(s)) == Lower(s)
  {
  }

  predicate StartsWith(s: string, p: string) {
    |p| <= |s| && s[..|p|] == p
  }

  /** `s.includes(q)`, scanning start positions left to right. */
  predicate Includes(s: string, q: string)
    decreases |s|
  {
    StartsWith(s, q) || (|s| > 0 && Includes(s[1..], q))
  }

  /** `q` occurs in `s` starting at position `i`. */
  predicate OccursAt(s: string, q: string, i: int) {
    0 <= i && i + |q| <= |s| && s[i..i + |q|] == q
  }

  /** `includes` holds exactly when `q` occurs at some position of `s`. */
  lemma {:induction false} IncludesIffOccurs(s: string, q: string)
    ensures Includes(s, q) <==> exists i :: OccursAt(s, q, i)
    decreases |s|
  {
    if StartsWith(s, q) {
      assert OccursAt(s, q, 0);
    }
    if |s| > 0 {
      IncludesIffOccurs(s[1..], q);
      if Includes(s[1..], q) {
        var i :| OccursAt(s[1..], q, i);
        assert OccursAt(s, q, i + 1);
      }
      if exists i :: OccursAt(s, q, i) {
        var i :| OccursAt(s, q, i);
        if i > 0 {
          assert OccursAt(s[1..], q, i - 1);
        }
      }
    } else {
      if exists i :: OccursAt(s, q, i) {
        var i :| OccursAt(s, q, i);
        assert |q| == 0;
      }
    }
  }

  /** Every string includes the empty string, so an empty search keeps everything. */
  lemma {:induction false} IncludesEmpty(s: string)
    ensures Includes(s, "")
  {
    assert StartsWith(s, "");
  }

  /** The characters `String.prototype.trim` removes: the ECMAScript
      WhiteSpace and LineTerminator code points. */
  const JsSpaces: set<char> := {
    ' ', '\t', '\n', '\r', '\U{000B}', '\U{000C}', '\U{00A0}', '\U{1680}',
    '\U{2000}', '\U{2001}', '\U{2002}', '\U{2003}', '\U{2004}', '\U{2005}',
    '\U{2006}', '\U{2007}', '\U{2008}', '\U{2009}', '\U{200A}',
    '\U{2028}', '\U{2029}', '\U{202F}', '\U{205F}', '\U{3000}', '\U{FEFF}'}

  predicate IsJsSpace(c: char) {
    c in JsSpaces
  }

  /** Positions `lo` to `hi` of `s` hold only white space. */
  predicate AllSpace(s: string, lo: int, hi: int)
    requires 0 <= lo && hi <= |s|
  {
    forall i :: lo <= i < hi ==> IsJsSpace(s[i])
  }

  function TrimStart(s: string): (r: string)
    ensures |r| <= |s| && r == s[|s| - |r|..]
    ensures AllSpace(s, 0, |s| - |r|)
    ensures |r| > 0 ==> !IsJsSpace(r[0])
    decreases |s|
  {
    if |s| > 0 && IsJsSpace(s[0]) then TrimStart(s[1..]) else s
  }

  function TrimEnd(s: string): (r: string)
    ensures |r| <= |s| && r == s[..|r|]
    ensures AllSpace(s, |r|, |s|)
    ensures |r| > 0 ==> !IsJsSpace(r[|r| - 1])
    decreases |s|
  {
    if |s| > 0 && IsJsSpace(s[|s| - 1]) then TrimEnd(s[..|s| - 1]) else s
  }

  /** `r` is the part of `s` from position `lo` on, with only white space
      cut off before and after it. */
  predicate IsInnerPart(s: string, r: string, lo: int) {
    && 0 <= lo && lo + |r| <= |s| && r == s[lo..lo + |r|]
    && AllSpace(s, 0, lo) && AllSpace(s, lo + |r|, |s|)
  }

  /** `s.trim()`: the infix of `s` left after removing white space at both ends. */
  function Trim(s: string): (r: string)
    ensures exists lo :: IsInnerPart(s, r, lo)
    ensures |r| > 0 ==> !IsJsSpace(r[0]) && !IsJsSpace(r[|r| - 1])
  {
    InnerOfParts(s, TrimStart(s), TrimEnd(TrimStart(s)));
    TrimEnd(TrimStart(s))
  }

  /** A suffix `a` of `s` after white space, and a prefix `r` of `a` before
      white space, make `r` an inner part of `s`. */
  lemma {:induction false} InnerOfParts(s: string, a: string, r: string)
    requires |a| <= |s| && a == s[|s| - |a|..] && AllSpace(s, 0, |s| - |a|)
    requires |a| > 0 ==> !IsJsSpace(a[0])
    requires |r| <= |a| && r == a[..|r|] && AllSpace(a, |r|, |a|)
    requires |r| > 0 ==> !IsJsSpace(r[|r| - 1])
    ensures IsInnerPart(s, r, |s| - |a|)
    ensures |r| > 0 ==> !IsJsSpace(r[0]) && !IsJsSpace(r[|r| - 1])
  {
    var lo := |s| - |a|;
    assert s[lo..lo + |r|] == s[lo..][..|r|];
    forall i | lo + |r| <= i < |s| ensures IsJsSpace(s[i]) {
      assert s[i] == a[i - lo];
    }
    assert |r| > 0 ==> r[0] == a[0];
  }

  /** A string that neither starts nor ends with white space is its own trim. */
  lemma TrimOfTrimmed(s: string)
    requires |s| > 0 ==> !IsJsSpace(s[0]) && !IsJsSpace(s[|s| - 1])
    ensures Trim(s) == s
  {
  }

  /** Trimming twice is trimming once. */
  lemma TrimIsIdempotent(s: string)
    ensures Trim(Trim(s)) == Trim(s)
  {
    TrimOfTrimmed(Trim(s));
  }

  function DigitChar(d: nat): (c: char)
    requires d < 10
    ensures IsDigit(c)
  {
    ('0' as int + d) as char
  }

  function DigitValue(c: char): (d: nat)
    requires IsDigit(c)
    ensures d < 10 && DigitChar(d) == c
  {
    c as int - '0' as int
  }

  predicate AllDigits(s: string) {
    forall i :: 0 <= i < |s| ==> IsDigit(s[i])
  }

  /** `String(n)` for a natural number: its decimal digits, most significant first. */
  function NatToString(n: nat): (r: string)
    ensures |r| > 0 && AllDigits(r)
    ensures |r| > 1 ==> r[0] != '0'
    ensures n < 10 <==> |r| == 1
    decreases n
  {
    if n < 10 then [DigitChar(n)] else NatToString(n / 10) + [DigitChar(n % 10)]
  }

  /** `parseInt(s, 10)` of a string made only of decimal digits. */
  function ParseNat(s: string): nat
    requires AllDigits(s)
    decreases |s|
  {
    if |s| == 0 then 0 else ParseNat(s[..|s| - 1]) * 10 + DigitValue(s[|s| - 1])
  }

  /** Reading back the decimal text of `n` gives `n`. */
  lemma {:induction false} ParseNatToString(n: nat)
    ensures ParseNat(NatToString(n)) == n
    decreases n
  {
    if n >= 10 {
      ParseNatToString(n / 10);
      var s := NatToString(n);
      assert s[..|s| - 1] == NatToString(n / 10);
    }
  }

  /** Decimal text is injective: different numbers print differently. */
  lemma NatToStringInjective(a: nat, b: nat)
    requires NatToString(a) == NatToString(b)
    ensures a == b
  {
    ParseNatToString(a);
    ParseNatToString(b);
  }

  /** Leading zeros do not change the value read back. */
  lemma {:induction false} ParseNatLeadingZero(s: string)
    requires AllDigits(s)
    ensures ParseNat("0" + s) == ParseNat(s)
    decreases |s|
  {
    if |s| > 0 {
      var t := "0" + s;
      assert t[..|t| - 1] == "0" + s[..|s| - 1];
      ParseNatLeadingZero(s[..|s| - 1]);
    } else {
      assert ParseNat("0"[..0]) == 0;
    }
  }

  /** `s.padStart(width, c)`. */
  function PadStart(s: string, width: nat, c: char): (r: string)
    ensures |r| == if |s| >= width then |s| else width
    ensures r[|r| - |s|..] == s
    ensures forall i :: 0 <= i < |r| - |s| ==> r[i] == c
  {
    if |s| >= width then s else seq(width - |s|, _ => c) + s
  }

  /** One more column of padding puts one more pad character in front. */
  lemma PadStartStep(s: string, width: nat, c: char)
    requires |s| < width
    ensures PadStart(s, width, c) == [c] + PadStart(s, width - 1, c)
  {
    var r := PadStart(s, width, c);
    var p := PadStart(s, width - 1, c);
    assert |r| == |p| + 1;
    forall i | 0 <= i < |r| ensures r[i] == ([c] + p)[i] {
      if i < |r| - |s| {
        assert r[i] == c;
      } else {
        assert r[i] == s[i - (|r| - |s|)];
      }
    }
  }

  /** Padding digits with leading zeros keeps them digits and keeps their value. */
  lemma {:induction false} ParseNatPadStart(s: string, width: nat)
    requires AllDigits(s)
    ensures AllDigits(PadStart(s, width, '0'))
    ensures ParseNat(PadStart(s, width, '0')) == ParseNat(s)
    decreases width
  {
    PadStartDigits(s, width);
    if |s| < width {
      ParseNatPadStart(s, width - 1);
      PadStartStep(s, width, '0');
      LeadingZeroOf(PadStart(s, width, '0'), PadStart(s, width - 1, '0'), ParseNat(s));
    }
  }

  /** A digit string with one more leading zero has the same value. */
  lemma LeadingZeroOf(q: string, p: string, n: nat)
    requires AllDigits(p) && ParseNat(p) == n && q == ['0'] + p
    ensures AllDigits(q) && ParseNat(q) == n
  {
    ParseNatLeadingZero(p);
  }

  lemma PadStartDigits(s: string, width: nat)
    requires AllDigits(s)
    ensures AllDigits(PadStart(s, width, '0'))
  {
    var r := PadStart(s, width, '0');
    forall i | 0 <= i < |r| ensures IsDigit(r[i]) {
      if i >= |r| - |s| {
        assert r[i] == r[|r| - |s|..][i - (|r| - |s|)];
      }
    }
  }

  function Pow10(k: nat): (r: nat)
    ensures r >= 1
  {
    if k == 0 then 1 else 10 * Pow10(k - 1)
  }

  /** A number below 10^k prints with at most k digits. */
  lemma {:induction false} DigitsBelow(n: nat, k: nat)
    requires k >= 1 && n < Pow10(k)
    ensures |NatToString(n)| <= k
    decreases k
  {
    if n >= 10 {
      assert k >= 2;
      DigitsBelow(n / 10, k - 1);
    }
  }

  /** `String(n).padStart(2, '0')` for a number below 100: exactly two digits
      that read back as `n`. */
  function PadTwo(n: nat): (r: string)
    requires n < 100
    ensures |r| == 2 && AllDigits(r)
    ensures ParseNat(r) == n
  {
    var t := NatToString(n);
    ParseNatToString(n);
    if n < 10 then
      assert PadStart(t, 2, '0') == "0" + t;
      ParseNatLeadingZero(t);
      PadStart(t, 2, '0')
    else
      assert |t| == 2 by {
        assert NatToString(n) == NatToString(n / 10) + [DigitChar(n % 10)];
      }
      PadStart(t, 2, '0')
  }

  /** `s.charAt(0).toUpperCase() + s.slice(1)`. */
  function Capitalize(s: string): (r: string)
    ensures |r| == |s|
    ensures |s| > 0 ==> r[0] == UpperChar(s[0]) && r[1..] == s[1..]
  {
    if |s| == 0 then "" else [UpperChar(s[0])] + s[1..]
  }

  /** A character of the Basic Multilingual Plane: one UTF-16 code unit. */
  predicate IsBmp(c: char) {
    (c as int) < 0x1_0000
  }

  /** `s.length`: the number of UTF-16 code units, in which a character
      outside the Basic Multilingual Plane counts twice. */
  function Utf16Length(s: string): (n: nat)
    ensures |s| <= n <= 2 * |s|
    ensures (forall i :: 0 <= i < |s| ==> IsBmp(s[i])) ==> n == |s|
    decreases |s|
  {
    if |s| == 0 then 0
    else
      var rest := Utf16Length(s[1..]);
      assert (forall i :: 0 <= i < |s| ==> IsBmp(s[i])) ==> (forall i :: 0 <= i < |s[1..]| ==> IsBmp(s[1..][i]));
      (if IsBmp(s[0]) then 1 else 2) + rest
  }

  /** The code units of a concatenation are those of its parts. */
  lemma {:induction false} Utf16LengthAppend(s: string, t: string)
    ensures Utf16Length(s + t) == Utf16Length(s) + Utf16Length(t)
    decreases |s|
  {
    if |s| == 0 {
      assert s + t == t;
    } else {
      assert (s + t)[0] == s[0] && (s + t)[1..] == s[1..] + t;
      Utf16LengthAppend(s[1..], t);
    }
  }

  /** A string of digits is as long in code units as in characters. */
  lemma DigitsAreBmp(s: string)
    requires AllDigits(s)
    ensures Utf16Length(s) == |s|
  {
    assert forall i :: 0 <= i < |s| ==> IsBmp(s[i]);
  }
}

=== FILE: wrappers.dfy ===
/** Optional values: the model's stand-in for JavaScript's `null`/`undefined`
    and PHP's `null`. */
module Wrappers {

  datatype Option<+T> = None | Some(value: T) {

    /** The value, or `default` when absent. */
    function GetOr(default: T): T {
      match this
      case Some(v) => v
      case None => default
    }
  }

  /** JavaScript's `a ?? b` on two optional values: the first one that is present. */
  function OrElse<T>(a: Option<T>, b: Option<T>): (r: Option<T>)
    ensures a.Some? ==> r == a
    ensures a.None? ==> r == b
  {
    if a.Some? then a else b
  }

  /** JavaScript truthiness of an optional string: present and non-empty. */
  predicate Truthy(s: Option<string>) {
    s.Some? && s.value != ""
  }
}
